=== FILE: README.md ===
# Installation admin client: calculations, validators and list updates

This project is a Dafny model of the business logic inside a React admin client.
The client manages installation orders, products, inventory allocation,
technicians, commissions and technician payments. Almost all of it is screens and
REST calls. The logic that decides anything lives in small pieces inside the
pages, and those pieces are what is modelled:

- **Order amounts.** The order helper's final amount: line totals, the gross
  subtotal, a percentage or fixed-amount discount and rounding to cents
  (`OrderHelper`, `Money`).
- **Order screens.** The order screen's own discount figures: the grid row
  total, the two discount channels of the view and approval dialogs, and the
  owner/technician split sliders (`OrderScreen`). The same screen's row actions,
  the draft validator and the complete form (`OrderActions`). The dotted-path
  updates of the draft form (`NestedPath`). The older order screen, with its
  single discount and its local approve/reject/create/update list updates
  (`LegacyOrders`).
- **Validators.** Each validator is a method that fills an error record step
  by step. It is proved equal to a specification function whose contract states
  exactly when each message appears and that the form is valid iff there are
  no errors. This covers payments (`Payments`), inventory allocation
  (`Inventory`), products (`Products`), technicians (`Technicians`) and
  commissions (`Commissions`).
- **Helpers and list updates.** The 90-day export range rule and the export
  file name (`DateRangeExport`). The payment date column. List updates by id:
  approve, reject, replace, remove and block toggle.

Amounts are `real`. A field that JavaScript reads through `Number(x) || 0` or
`x || 0` is an `Option<real>` read through `Money.OrZero`. An expression that
throws a `TypeError` or yields `NaN` returns `None`. `toFixed(2)` is exact
rounding to cents, half away from zero (`Money.Round2`). JavaScript strings are
`seq<char>`, and `trim()` emptiness is `Text.IsBlank`. Form state that the
source updates through React state setters is modelled in two ways:

- as a `class` whose methods modify its fields (`OrderScreen.ApprovalDialog`,
  `LegacyOrders.LegacyOrderBoard`, `Payments.PaymentDialog`);
- as functions from the old form to the new one, where the source builds a new
  object with spread syntax.

## Model

| member | source | states |
|---|---|---|
| OrderHelper.LinePrice | src/helpers/order.helper.js:7-8 | a line's price is its sale price whenever one is present, otherwise the catalog price, otherwise 0 |
| OrderHelper.LineAmount | src/helpers/order.helper.js:7-10 | a line without a quantity adds nothing, and a line with non-negative price and quantity adds a non-negative amount |
| OrderHelper.ProductTotal | src/helpers/order.helper.js:5-11 | lines that all lack a quantity total 0; with ProductTotalAppend, the total is the sum of the line amounts |
| OrderHelper.ProductTotalAppend | src/helpers/order.helper.js:5-11 | the product total of two runs of lines is the sum of their totals, so the total is the sum over lines of price × quantity |
| OrderHelper.ProductTotalNonNegative | src/helpers/order.helper.js:5-11 | with no negative price or quantity on any line the product total is not negative |
| OrderHelper.GrossSubtotal | src/helpers/order.helper.js:13-28 | the gross is the product total plus installation, misc and fitting cost, each missing charge as 0; FinalAmountIsRoundedNet relates the final amount to it |
| OrderHelper.DiscountAmount | src/helpers/order.helper.js:30-44 | no discount type gives 0; a percentage discount is the gross times the percentage over 100 for a percentage in [0, 100], the whole gross at 100% or more and 0 at 0% or less, and on a non-negative gross lies in [0, gross]; an amount discount never exceeds the gross and equals the value when the value fits |
| OrderHelper.FinalAmount | src/helpers/order.helper.js:1-2 | a missing order has final amount 0 |
| OrderHelper.FinalAmountIsRoundedNet | src/helpers/order.helper.js:46-49 | the final amount is a whole number of cents within half a cent of gross minus discount |
| OrderHelper.NoDiscountFinal | src/helpers/order.helper.js:31-44 | with no recognised discount the final amount is the rounded gross |
| OrderHelper.PercentageFinalBounds | src/helpers/order.helper.js:33-39 | a percentage discount on a non-negative gross leaves a final amount between 0 and the rounded gross |
| OrderHelper.AmountFinalNonNegative | src/helpers/order.helper.js:41-44 | an amount discount never drives the final amount below 0, whatever the gross |
| OrderHelper.NegativeAmountRaisesFinal | src/helpers/order.helper.js:41-44 | a negative amount is not clamped: the discount is that negative value and the final amount is at least the rounded gross |
| OrderHelper.ScenarioPercentage | src/helpers/order.helper.js:1-49 | two units at 100, installation 50 and 10% off give 225 |
| OrderHelper.ScenarioAmountCapped | src/helpers/order.helper.js:41-44 | the same order with 300 off is capped at its gross of 250 and gives 0 |
| Money.Clamp | src/helpers/order.helper.js:34-37 | the clamped percentage lies in [lo, hi], is the value itself inside the range and the nearer bound outside it |
| Money.PercentWithin | src/helpers/order.helper.js:38 | a percentage in [0, 100] of a non-negative base lies between 0 and the base |
| Money.Round2 | src/helpers/order.helper.js:49 | `toFixed(2)` on an exact amount: the nearest whole cents, a half cent going away from zero; Round2Near, Round2IsCents, Round2OfCents, Round2Idempotent and Round2Monotone state its properties |
| Money.Round2Near | src/helpers/order.helper.js:49 | rounding to cents moves an amount by at most half a cent and keeps its sign |
| Money.Round2IsCents | src/helpers/order.helper.js:49 | the rounded amount is a whole number of cents |
| Money.Round2OfCents | src/helpers/order.helper.js:49 | a whole number of cents is left unchanged |
| Money.Round2Idempotent | src/helpers/order.helper.js:49 | rounding twice is rounding once |
| Money.Round2Monotone | src/helpers/order.helper.js:49 | rounding never reverses the order of two amounts |
| Money.FloorCents | src/pages/Payment/PaymentList.jsx:116 | truncation to cents never exceeds the amount, loses less than a cent, and keeps at least a cent when there was one |
| OrderScreen.GuardedLineAmount | src/pages/Order/OrderList.jsx:249-251 | a line without a quantity or a catalog price adds nothing |
| OrderScreen.GuardedProductTotal | src/pages/Order/OrderList.jsx:249-251 | lines that all lack a quantity or a price total 0; HelperTotalWithoutSalePrice ties it to the helper's total |
| OrderScreen.RowSubtotal | src/pages/Order/OrderList.jsx:253-257 | products plus installation plus misc, each missing charge as 0, without the fitting cost; FittingNeverInScreenBases states the exclusion |
| OrderScreen.HelperTotalWithoutSalePrice | src/pages/Order/OrderList.jsx:248-251 | on lines without a sale price the helper's product total is the screens' guarded product total |
| OrderScreen.RowTotal | src/pages/Order/OrderList.jsx:248-259 | the row total is the subtotal at 0%, 0 at 100%, and between 0 and the subtotal for a percentage in [0, 100] |
| OrderScreen.HelperAgreesWithRowTotal | src/pages/Order/OrderList.jsx:248-259 | without sale prices or fitting cost, and with a percentage discount equal to `discountPercentage` in [0, 100], the helper's final amount is the rounded row total |
| OrderScreen.QuantityUnguardedTotal | src/pages/Order/OrderList.jsx:143-146 | the catalog price (0 when absent) times the unguarded quantity, summed, a missing quantity making the sum NaN; QuantityUnguardedTotalIsGuarded states when it is a number and what number |
| OrderScreen.QuantityUnguardedTotalIsGuarded | src/pages/Order/OrderList.jsx:140-159 | the product total with unguarded quantities is a number exactly when every line has a quantity, and is then the guarded total |
| OrderScreen.CalculateDiscountAmount | src/pages/Order/OrderList.jsx:140-159 | a missing order gives {product: 0, misc: 0}; otherwise the product discount is the product total times the product percentage over 100 (NaN when some line lacks a quantity) and the misc discount is misc times the misc percentage over 100 |
| OrderScreen.TechnicianPercentage | src/pages/Order/OrderList.jsx:1643-1649 | the stored split's technician percentage, 0 when the split is missing; TechnicianShare states the resulting share |
| OrderScreen.TechnicianShare | src/pages/Order/OrderList.jsx:1643-1649 | a missing split gives the technician nothing; under a split in [0, 100] the share lies between 0 and the discount |
| OrderScreen.DiscountChannel | src/pages/Order/OrderList.jsx:1638-1649 | a channel keeps its base, takes no discount at 0%, and for percentages in [0, 100] keeps discount and technician share within their bounds |
| OrderScreen.ViewDialogFigures | src/pages/Order/OrderList.jsx:1621-1649 | the product channel's base is products plus installation, the misc channel's base is misc only, and each discount is its base times its percentage over 100 |
| OrderScreen.RowTotalSplitsIntoChannels | src/pages/Order/OrderList.jsx:248-259 | with one percentage for both channels, the grid's row total is the subtotal less the two view-dialog discounts |
| OrderScreen.CalculateDiscountOmitsInstallation | src/pages/Order/OrderList.jsx:140-159 | `calculateDiscountAmount`'s product discount differs from the view dialog's by exactly the installation charge's share |
| OrderScreen.StrictProductTotal | src/pages/Order/OrderList.jsx:2131-2134 | `item.product.price * item.quantity` summed, a missing product or quantity failing; StrictProductTotalIsGuarded states when it succeeds and what it gives |
| OrderScreen.StrictProductTotalIsGuarded | src/pages/Order/OrderList.jsx:2131-2134 | the approval dialog's unguarded product total is a number exactly when every line is complete, and is then the guarded total |
| OrderScreen.DefaultSplit | src/pages/Order/OrderList.jsx:2167-2175 | the default split gives the owner 100 and the technician 0 |
| OrderScreen.StoredSplit | src/pages/Order/OrderList.jsx:2167-2175 | a missing stored split becomes the default {100, 0}; a present one is used as it is |
| OrderScreen.ApprovalDialogFigures | src/pages/Order/OrderList.jsx:2126-2175 | the dialog renders exactly when every line has a product (otherwise `item.product.price` throws); its misc base is the misc cost only, its splits are the stored ones, and the product base and product discount are present or NaN together |
| OrderScreen.ApprovalAgreesWithView | src/pages/Order/OrderList.jsx:2126-2175 | when every line has a product, the approval dialog's misc base, misc discount and splits always equal the view dialog's and the stored ones; its product figures are numbers exactly when every line also has a price and a quantity, and then equal the view dialog's |
| OrderScreen.MissingQuantityKeepsMiscFigures | src/pages/Order/OrderList.jsx:2126-2175 | a line with a priced product but no quantity, misc cost 200 at 10%: the dialog shows a misc discount of 20 and a NaN product discount |
| OrderScreen.FittingNeverInScreenBases | src/pages/Order/OrderList.jsx:1626-1641 | changing the fitting cost changes neither discount base, neither discount, nor the grid's row total |
| OrderScreen.FittingNotInCalculateDiscount | src/pages/Order/OrderList.jsx:140-159 | changing the fitting cost leaves `calculateDiscountAmount`'s result unchanged |
| OrderScreen.FittingNotInApprovalFigures | src/pages/Order/OrderList.jsx:2126-2175 | changing the fitting cost leaves the approval dialog's figures unchanged |
| OrderScreen.SliderPosition | src/pages/Order/OrderList.jsx:2214-2216 | the positions the slider offers: 0 to 100 in steps of 5 |
| OrderScreen.SliderSplit | src/pages/Order/OrderList.jsx:2207-2213 | a slider position sets the owner part and the technician gets 100 minus it, so the pair sums to 100 |
| OrderScreen.WholeSplitSharesDiscount | src/pages/Order/OrderList.jsx:1643-1649 | under a split that sums to 100 the owner's and the technician's parts add up to the whole discount |
| OrderScreen.ApprovalDialog.constructor | src/pages/Order/OrderList.jsx:72-80 | both splits start owner-only and nothing is selected |
| OrderScreen.ApprovalDialog.Open | src/pages/Order/OrderList.jsx:111-118 | opening selects the order and resets both splits to {100, 0} |
| OrderScreen.ApprovalDialog.SlideProduct | src/pages/Order/OrderList.jsx:2205-2213 | the product slider sets the product split to the position and 100 minus it, and changes nothing else |
| OrderScreen.ApprovalDialog.SlideMisc | src/pages/Order/OrderList.jsx:2240-2248 | the misc slider sets the misc split only |
| OrderScreen.ApprovalDialog.Payload | src/pages/Order/OrderList.jsx:170-179 | both splits sent for approval sum to 100, the technician part being 100 minus the owner part |
| OrderActions.RowActions | src/pages/Order/OrderList.jsx:767-823 | edit and complete are offered exactly for drafts, delete exactly for drafts shown to an admin, approve-discount exactly for pending approval, view always |
| OrderActions.RowActionsExclusive | src/pages/Order/OrderList.jsx:767-823 | no row offers both draft actions and approve-discount |
| OrderActions.DraftErrorsFor | src/pages/Order/OrderList.jsx:511-531 | the draft is valid iff TCR number and customer name are not blank, company and technician are chosen, phone has exactly 10 digits and pincode exactly 6; each field's message is stated, a present but malformed phone or pincode getting the format message |
| OrderActions.ValidateDraft | src/pages/Order/OrderList.jsx:511-531 | the step-by-step checks produce exactly the specified errors, and the result is valid iff there are none |
| OrderActions.DigitsFieldIsNotBlank | src/pages/Order/OrderList.jsx:519-528 | a field of n digits is never blank, and an empty one always is |
| OrderActions.OpenCompleteForm | src/pages/Order/OrderList.jsx:480-490 | the complete form takes its product percentage from `discountPercentage` and leaves `discountPercentage` itself unset |
| OrderActions.ChangeCompleteField | src/pages/Order/OrderList.jsx:492-495 | an edit through the dialog never touches `discountPercentage` |
| OrderActions.ChangesKeepDiscountPercentage | src/pages/Order/OrderList.jsx:480-495 | no run of edits sets `discountPercentage` |
| OrderActions.CompleteErrorsAsWritten | src/pages/Order/OrderList.jsx:533-541 | the check as written reports only `discountPercentage`, exactly when it is outside [0, 100] |
| OrderActions.AsWrittenAcceptsEveryForm | src/pages/Order/OrderList.jsx:533-541 | every form the dialog can reach passes the check as written |
| OrderActions.CompleteErrors | src/pages/Order/OrderList.jsx:533-541 | the corrected check reports each of the two percentages the form holds exactly when it is outside [0, 100] |
| OrderActions.CompleteErrorsOnReachableForms | src/pages/Order/OrderList.jsx:533-541 | the corrected check accepts a reachable form iff both percentages are in range |
| OrderActions.CompleteOutOfRangeExample | src/pages/Order/OrderList.jsx:533-541 | an order at 150% passes the check as written and fails the corrected one |
| OrderActions.ExportOrders | src/pages/Order/OrderList.jsx:2295-2345 | the order screen's export stops on an invalid range and otherwise requests `Orders_<start>_to_<end>.xlsx` |
| DateRangeExport.IsDateRangeValid | src/components/DateRangeExport.jsx:14-24 | the range is valid iff both dates are filled in and the end lies 0 to 90 days after the start |
| DateRangeExport.RangeEdges | src/components/DateRangeExport.jsx:20-23 | the same day and exactly 90 days are accepted; 91 days and an end before the start are not |
| DateRangeExport.ExportFileName | src/components/DateRangeExport.jsx:49-52 | the file name starts with the prefix and ends in `.xlsx`; ExportFileNameFields splits it back into its fields |
| DateRangeExport.ExportFileNameFields | src/components/DateRangeExport.jsx:49-52 | the file name splits at `_` back into the prefix, the start, `to` and the end with `.xlsx` |
| DateRangeExport.HandleExport | src/components/DateRangeExport.jsx:26-30 | an invalid range raises the alert and requests nothing; a valid one requests the two dates |
| DateRangeExport.ExportEnabled | src/components/DateRangeExport.jsx:122 | the button is enabled iff the range is valid and no export is running, and then pressing it requests an export |
| Text.Split | src/pages/Order/OrderList.jsx:421 | `split` at a separator: at least one part, no part holds the separator, and two or more parts exactly when the separator occurs; SplitJoin and SplitPair give the parts back |
| NestedPath.Spread | src/pages/Order/OrderList.jsx:427-428 | spreading an object copies its fields, a string gives one field per character by index, anything else gives no fields |
| NestedPath.SpreadStringIndexes | src/pages/Order/OrderList.jsx:427-428 | index i of a spread string holds its i-th character |
| NestedPath.SpreadStringKeys | src/pages/Order/OrderList.jsx:427-428 | every key of a spread string is one of its indexes |
| NestedPath.CopyAlong | src/pages/Order/OrderList.jsx:418-437 | the copying update keeps every other top-level key, adds the first key, and puts the value there or an object on the way to it |
| NestedPath.CopyAlongReachesLeaf | src/pages/Order/OrderList.jsx:418-437 | reading the path back after the update gives the value written |
| NestedPath.CopyAlongKeepsSiblings | src/pages/Order/OrderList.jsx:418-437 | any path that leaves the updated one at some level reads what it read before |
| NestedPath.UpdateNestedCopy | src/pages/Order/OrderList.jsx:418-437 | the descending loop that copies each level and writes the leaf computes the copying update |
| NestedPath.HandleDraftChange | src/pages/Order/OrderList.jsx:397-445 | a checkbox sets its flag; `company` sets the company and clears the technician; a dotted name performs the copying update along its parts; any other name sets that field |
| NestedPath.DottedChangeUpdatesOnlyLeaf | src/pages/Order/OrderList.jsx:418-437 | a dotted change writes its leaf and leaves every sibling path as it was |
| NestedPath.CompanyChangeKeepsOthers | src/pages/Order/OrderList.jsx:408-415 | a company change keeps every field except the company and the technician |
| NestedPath.SetAlong | src/pages/Order/OrderList.jsx:358-367 | the in-place setter on values: missing or falsy steps become `{}`, a truthy primitive on the way throws; SetAlongFailsIffBlocked, SetAlongAgreesWithCopy and SetAlongReachesLeaf state its behaviour |
| NestedPath.SetAlongFailsIffBlocked | src/pages/Order/OrderList.jsx:358-367 | the in-place setter throws exactly when a truthy primitive stands on the path before its leaf |
| NestedPath.SetAlongAgreesWithCopy | src/pages/Order/test.jsx:258-267 | where it does not throw, the in-place setter gives the same object as the copying update, creating missing levels as empty objects |
| NestedPath.SetAlongReachesLeaf | src/pages/Order/test.jsx:258-267 | after a successful set the path reads the value written |
| NestedPath.SetNestedValue | src/pages/Order/test.jsx:258-267 | splitting the path at dots and walking it computes the setter's result |
| NestedPath.WalkAndSet | src/pages/Order/OrderList.jsx:360-366 | the walk that creates or follows each level and then writes the leaf computes the setter's result, stopping at a truthy primitive |
| LegacyOrders.LegacyDiscount | src/pages/Order/test.jsx:67-84 | a missing order gives 0, and so does 0%; for a percentage in [0, 100] of a non-negative subtotal the discount lies between 0 and the subtotal |
| LegacyOrders.RowTotalIsSubtotalLessLegacyDiscount | src/pages/Order/test.jsx:155-176 | the older screen's row total is the subtotal less its discount |
| LegacyOrders.LegacyDiscountIsBothChannels | src/pages/Order/test.jsx:67-84 | with one percentage for both channels, the older single discount is the sum of the current view dialog's two discounts |
| LegacyOrders.FormatRow | src/pages/Order/test.jsx:396-407 | a row built from a returned order carries its id and its row total |
| LegacyOrders.MapMatching | src/pages/Order/test.jsx:96-105 | the map by id changes the rows with that id and keeps every other row, in place |
| LegacyOrders.Approve | src/pages/Order/test.jsx:98-102 | an approved row keeps its id and total, its order becomes completed and its decision approved |
| LegacyOrders.Reject | src/pages/Order/test.jsx:124-128 | a rejected row keeps its id, total and order, status included, and its decision becomes rejected |
| LegacyOrders.ApproveOnlySelected | src/pages/Order/test.jsx:96-105 | approving marks the selected order's rows completed and approved and leaves every other row unchanged |
| LegacyOrders.RejectKeepsStatus | src/pages/Order/test.jsx:121-130 | rejecting marks the selected order's rows rejected and keeps their status; other rows are unchanged |
| LegacyOrders.ReplaceOnlySelected | src/pages/Order/test.jsx:451-453 | an update replaces exactly the selected order's rows |
| LegacyOrders.MapMatchingAbsent | src/pages/Order/test.jsx:96-105 | a list without the id is left as it is |
| LegacyOrders.ApproveIdempotent | src/pages/Order/test.jsx:96-105 | approving twice is approving once |
| LegacyOrders.ValidateLegacyComplete | src/pages/Order/test.jsx:363-371 | the older complete form is invalid iff its percentage is below 0 or above 100, with the one message under `discountPercentage` |
| LegacyOrders.LegacyOrderBoard.constructor | src/pages/Order/test.jsx:27 | the split starts owner-only and the list starts empty |
| LegacyOrders.LegacyOrderBoard.OpenDiscount | src/pages/Order/test.jsx:52-57 | opening selects the row and resets the split to {100, 0} |
| LegacyOrders.LegacyOrderBoard.ChangeSplit | src/pages/Order/test.jsx:60-65 | a slider change sets the technician part to 100 minus the owner part |
| LegacyOrders.LegacyOrderBoard.ApproveDiscount | src/pages/Order/test.jsx:86-105 | the split sent sums to 100; when the server accepts it, only the selected order's rows become completed and approved |
| LegacyOrders.LegacyOrderBoard.RejectDiscount | src/pages/Order/test.jsx:115-130 | when the server accepts it, only the selected order's rows become rejected |
| LegacyOrders.LegacyOrderBoard.Created | src/pages/Order/test.jsx:407 | a created order goes first in the list, the rest following unchanged |
| LegacyOrders.LegacyOrderBoard.Replaced | src/pages/Order/test.jsx:451-453 | an updated order replaces the selected order's rows in place |
| LegacyOrders.LegacyOrderBoard.OpenComplete | src/pages/Order/test.jsx:312-320 | the complete form starts from the order's misc cost and percentage, 0 when absent |
| LegacyOrders.LegacyOrderBoard.ChangeCompleteDiscount | src/pages/Order/test.jsx:322-325 | editing the percentage changes only the percentage |
| LegacyOrders.LegacyOrderBoard.ValidateComplete | src/pages/Order/test.jsx:363-371 | the form's percentage is accepted iff it lies in [0, 100], iff there are no errors |
| Payments.AmountMissing | src/pages/Payment/PaymentList.jsx:179 | the empty text, `undefined` and amounts not above 0 are missing; the text `NaN` left by a prefill without a balance is not |
| Payments.ExceedsBalance | src/pages/Payment/PaymentList.jsx:181-184 | `amount > outstandingBalance` for a known technician, the empty text reading as 0 and `undefined` or NaN never exceeding |
| Payments.PaymentErrorsFor | src/pages/Payment/PaymentList.jsx:175-190 | a technician id and a method are required; the amount is refused when missing or not positive, and when it exceeds a known technician's balance, the balance message taking priority |
| Payments.KnownTechnician | src/pages/Payment/PaymentList.jsx:181 | the technician the check compares against is the selected one, otherwise the listed one with the form's id |
| Payments.ValidatePayment | src/pages/Payment/PaymentList.jsx:175-190 | the step-by-step checks produce exactly the specified errors, and the result is valid iff there are none |
| Payments.AcceptedAmountWithinBalance | src/pages/Payment/PaymentList.jsx:178-186 | an accepted numeric amount against a technician with a balance satisfies 0 < amount ≤ balance |
| Payments.OpenForm | src/pages/Payment/PaymentList.jsx:111-136 | opening for a technician fills its id, bank transfer and its balance to two decimals; opening without one gives the blank form |
| Payments.PrefillAmount | src/pages/Payment/PaymentList.jsx:116 | the prefilled amount is the balance rounded to cents, within half a cent of it; a missing balance gives NaN |
| Payments.PrefillExceedsIffRoundedUp | src/pages/Payment/PaymentList.jsx:116 | the prefilled form is refused for exceeding the balance exactly when rounding moved the balance up |
| Payments.PrefillRejectsOwnBalance | src/pages/Payment/PaymentList.jsx:116 | a balance of 10.125 prefills 10.13, which the same dialog refuses as exceeding the balance |
| Payments.OpenFormCorrected | src/pages/Payment/PaymentList.jsx:116 | the corrected prefill truncates to cents and never exceeds the balance |
| Payments.CorrectedPrefillAccepted | src/pages/Payment/PaymentList.jsx:116 | with the corrected prefill, a technician owed at least a cent is accepted without editing the form |
| Payments.ChooseTechnician | src/pages/Payment/PaymentList.jsx:163-173 | choosing sets the id and keeps the other fields; the amount becomes the balance of the first technician with the id, `undefined` when that technician has none, and the empty text when no technician has the id |
| Payments.ChosenBalanceAccepted | src/pages/Payment/PaymentList.jsx:163-173 | choosing a technician with a positive balance leaves an amount the check accepts |
| Payments.RecordPaymentEnabled | src/pages/Payment/PaymentList.jsx:399 | the button is enabled iff the balance is present and positive |
| Payments.EnabledPrefillIsPositive | src/pages/Payment/PaymentList.jsx:399 | an enabled button with a balance of at least half a cent opens a form whose amount passes the positivity check |
| Payments.PaymentDialog.constructor | src/pages/Payment/PaymentList.jsx:61-67 | the dialog starts with the blank form and no technician |
| Payments.PaymentDialog.Open | src/pages/Payment/PaymentList.jsx:111-136 | opening sets the prefilled form and the technician and clears the errors |
| Payments.PaymentDialog.ChangeTechnician | src/pages/Payment/PaymentList.jsx:163-173 | choosing from the dropdown sets the form and the found technician and clears the technician and amount errors |
| Payments.PaymentDialog.ChangeAmount | src/pages/Payment/PaymentList.jsx:157-161 | typing an amount sets it and clears its error |
| Payments.PaymentDialog.Submit | src/pages/Payment/PaymentList.jsx:175-190 | submitting shows the specified errors and goes on iff there are none |
| Payments.FormatCollectedAt | src/pages/Payment/PaymentList.jsx:318-325 | a missing date shows `N/A`; a date shows dashes at positions 2 and 5 |
| Text.PadStart2 | src/pages/Payment/PaymentList.jsx:321-322 | `padStart(2, '0')`: a string of two or more characters is kept, a shorter one is filled with leading zeros to two |
| Payments.PadStart2ReadsBack | src/pages/Payment/PaymentList.jsx:321-322 | a number below 100 padded to two places is two digits that read back as the number |
| Payments.CollectedAtReadsBack | src/pages/Payment/PaymentList.jsx:318-325 | the day, month and year fields of the column read back as the day, the 1-based month and the year |
| Inventory.QuantityOutOfRange | src/pages/Inventory/InventoryList.jsx:118-120 | the message starts `Quantity must be between 1 and ` and, for a count that is not negative, ends in digits that read back as the available count |
| Inventory.SelectedProduct | src/pages/Inventory/InventoryList.jsx:115 | the lookup finds the first product with the id, and nothing exactly when no product has it |
| Inventory.SelectedIsFirst | src/pages/Inventory/InventoryList.jsx:115 | the product the lookup returns is the one at the first position carrying the id, and nothing is returned exactly when no position carries it |
| Inventory.AllocationErrorsFor | src/pages/Inventory/InventoryList.jsx:103-127 | product and technician are required; the quantity is accepted iff the first product with the id has at least that much available and the quantity is at least 1; an unknown product gives `Invalid product selection`, an out-of-range quantity names the available count |
| Inventory.ValidateAllocation | src/pages/Inventory/InventoryList.jsx:103-127 | the step-by-step checks produce exactly the specified errors, and the result is valid iff there are none |
| Inventory.AcceptedAllocationFitsStock | src/pages/Inventory/InventoryList.jsx:115-120 | an accepted allocation names a listed product, and its allocated count plus the quantity stays within its total |
| Inventory.DistinctIdsQuantityCheck | src/pages/Inventory/InventoryList.jsx:115-123 | with distinct ids, the quantity is accepted iff the product with that id has 1 ≤ quantity ≤ total − allocated |
| Inventory.OpenedFormRefused | src/pages/Inventory/InventoryList.jsx:85-89 | the freshly opened dialog is refused on product, technician and quantity |
| Inventory.ExhaustedProductRefused | src/pages/Inventory/InventoryList.jsx:116-120 | a product with nothing available cannot be allocated, whatever the quantity |
| Products.Available | src/pages/Products/ProductList.jsx:199 | the available count and the allocated count add up to the total; it is not negative exactly when no more is allocated than stocked |
| Products.EditForm | src/pages/Products/ProductList.jsx:66-75 | the edit form takes the product's fields, a missing unit read as empty |
| Products.ProductErrorsFor | src/pages/Products/ProductList.jsx:90-113 | the name must not be blank and must be at most 100 characters counted untrimmed; the unit must not be blank; the price must be positive; the total count must not be negative |
| Products.ValidateProduct | src/pages/Products/ProductList.jsx:90-113 | the step-by-step checks produce exactly the specified errors, and the result is valid iff there are none |
| Products.EmptyFormRefused | src/pages/Products/ProductList.jsx:60-64 | the create form is refused on name, unit and price but not on the count |
| Products.EditWithoutUnitRefused | src/pages/Products/ProductList.jsx:66-75 | editing a product stored without a unit is refused until a unit is entered |
| Products.HundredCharacterNameAccepted | src/pages/Products/ProductList.jsx:95-97 | a name of exactly 100 characters is accepted |
| Products.Without | src/pages/Products/ProductList.jsx:177 | the delete filter keeps no row with the id, keeps every row without it, and adds nothing |
| Products.WithoutAppend | src/pages/Products/ProductList.jsx:177 | the filter distributes over concatenation, so it keeps the order of the rows it keeps |
| Products.WithoutAbsent | src/pages/Products/ProductList.jsx:177 | deleting an id that is not listed changes nothing |
| Products.WithoutCounts | src/pages/Products/ProductList.jsx:177 | the kept rows and the rows carrying the id together number the whole list |
| Products.WithoutIdempotent | src/pages/Products/ProductList.jsx:177 | deleting twice is deleting once |
| Technicians.EditForm | src/pages/Technicians/TechnicianList.jsx:111-119 | the edit form is the technician's fields with its companies replaced by their ids |
| Technicians.IsIndianMobile | src/pages/Technicians/TechnicianList.jsx:164-166 | `/^[6-9]\d{9}$/`: ten digits, the first 6 to 9 |
| Technicians.IsPan | src/pages/Technicians/TechnicianList.jsx:187-189 | `/^[A-Z]{5}[0-9]{4}[A-Z]{1}$/`: five capitals, four digits and a capital |
| Technicians.TechnicianErrorsFor | src/pages/Technicians/TechnicianList.jsx:157-203 | the form is valid iff name, street, city and state are not blank, the phone is ten digits starting 6 to 9, the email matches, the PIN is 6 digits, Aadhaar 12 digits, the PAN five capitals, four digits and a capital, the service rate positive and some company chosen; each message is stated |
| Technicians.ValidateAddress | src/pages/Technicians/TechnicianList.jsx:173-179 | the address checks give their messages under the street, city, state and pincode keys |
| Technicians.ValidateTechnician | src/pages/Technicians/TechnicianList.jsx:157-203 | the step-by-step checks produce exactly the specified errors, and the result is valid iff there are none |
| Technicians.EmptyFormRefusedEverywhere | src/pages/Technicians/TechnicianList.jsx:90-109 | the create form is refused on every field |
| Technicians.PanIsNotMobile | src/pages/Technicians/TechnicianList.jsx:164-189 | no string is both a PAN and a mobile number |
| Technicians.SetAddressField | src/pages/Technicians/TechnicianList.jsx:131-138 | an address key replaces that one field; any other key leaves the four fields as they were |
| Technicians.ClearError | src/pages/Technicians/TechnicianList.jsx:139-145 | `{...formErrors, [key]: null}`: the message under each of the eleven keys is cleared alone; any other key leaves the errors as they were |
| Technicians.SetTextField | src/pages/Technicians/TechnicianList.jsx:143-144 | `{...formData, [name]: value}`: each of the five text fields is set alone; a name the form does not hold leaves it as it was |
| Technicians.HandleChange | src/pages/Technicians/TechnicianList.jsx:128-147 | a service-rate input sets the rate and clears its error; a name, phone, email, Aadhaar or PAN input sets that field and clears its error and nothing else; any other non-address name leaves the form as it was; an address input changes nothing outside the address |
| Technicians.AddressChangeUpdatesOnlyThatField | src/pages/Technicians/TechnicianList.jsx:131-142 | typing into `address.<key>` sets exactly that address field and clears exactly the error under `<key>` |
| Technicians.PincodeChangeRevalidates | src/pages/Technicians/TechnicianList.jsx:131-142 | a valid PIN typed into the address clears its error and then passes the PIN check |
| Technicians.ToggleBlocked | src/pages/Technicians/TechnicianList.jsx:280-282 | rows with the id get the negation of the flag shown, every other row is unchanged |
| Technicians.ToggleTwiceRestores | src/pages/Technicians/TechnicianList.jsx:276-286 | toggling with the flag read from the rows, then toggling back, restores the list |
| Technicians.ToggleSetsFlag | src/pages/Technicians/TechnicianList.jsx:280-282 | after the toggle every row with the id shows the new flag and every other row was already there |
| Commissions.NameOrNA | src/pages/Commission/CommisionList.jsx:65-66 | a reference with a name shows it; a missing reference or name shows `N/A` |
| Commissions.GuardedRows | src/pages/Commission/CommisionList.jsx:61-68 | one row per commission, with its id and its product and technician names or `N/A` |
| Commissions.StrictRows | src/pages/Commission/CommisionList.jsx:164-171 | the unguarded mapping throws exactly when some commission lacks its product or technician |
| Commissions.StrictAgreesWhenComplete | src/pages/Commission/CommisionList.jsx:164-171 | when every reference and name is present the unguarded mapping gives the guarded rows |
| Commissions.EditForm | src/pages/Commission/CommisionList.jsx:106-114 | the edit form takes the product and technician ids and the amount, and throws when a reference is missing |
| Commissions.CommissionErrorsFor | src/pages/Commission/CommisionList.jsx:132-145 | each field has an error exactly when its check fails (an empty product id, an empty technician id, an amount not above 0), with that field's message; the form is valid iff both ids are chosen and the amount is positive |
| Commissions.ValidateCommission | src/pages/Commission/CommisionList.jsx:132-145 | the step-by-step checks produce exactly the specified errors, and the result is valid iff there are none |
| Commissions.EmptyFormRefused | src/pages/Commission/CommisionList.jsx:99-103 | the create form, with empty ids and amount 0, is refused on all three fields |
| Commissions.EditOfCompleteCommissionAccepted | src/pages/Commission/CommisionList.jsx:106-114 | a stored commission with both references and a positive amount can be saved as it stands |
| Commissions.CreateAsWritten | src/pages/Commission/CommisionList.jsx:148-181 | an invalid form is not submitted; a failed create or a refresh that throws shows the create failure; otherwise the refreshed rows are listed |
| Commissions.CreateAsWrittenMisreports | src/pages/Commission/CommisionList.jsx:164-171 | a successful create whose refreshed page holds a commission without its product is reported as failed |
| Commissions.CreateCorrected | src/pages/Commission/CommisionList.jsx:148-181 | with the guarded mapping, an invalid form is not submitted and a failed create shows the failure |
| Commissions.CorrectedCreateLists | src/pages/Commission/CommisionList.jsx:148-181 | with the guarded mapping a successful create always lists one row per commission, and agrees with the code as written whenever every reference and name is present |
| Commissions.UpdateAsWritten | src/pages/Commission/CommisionList.jsx:184-223 | an invalid form is not submitted; no selected commission, one without a product or technician, a failed update or a refresh that throws shows `Failed to update commission`; the refreshed rows are listed exactly when none of these happens |
| Commissions.UpdateAsWrittenMisreports | src/pages/Commission/CommisionList.jsx:205-212 | a refreshed commission without a technician makes a successful update report failure |
| Commissions.UpdateCorrected | src/pages/Commission/CommisionList.jsx:184-223 | with the guarded mapping, an invalid form is not submitted and a failed update shows the failure |
| Commissions.CorrectedUpdateLists | src/pages/Commission/CommisionList.jsx:184-223 | with the guarded mapping a successful update of a commission with both references always lists one row per commission, and agrees with the code as written whenever every reference and name is present |

## Left out

- Network calls, `window.confirm`, `alert`, file downloads, pagination and the open/close flags of dialogs are left out. A server response is a parameter: the `accepted` flag of the approve and reject methods, the `created` flag and the refreshed list of the commission create.
- Messages the server sends in place of the screen's own error text are left out.
- Floating point: amounts are exact reals. `toFixed(2)` is exact rounding half away from zero. The binary representation that can make `toFixed` round a stored half cent down is not modelled.
- JavaScript coercions are not modelled beyond the cases the types name. `Option` does not tell `null` from `undefined`: in OrderScreen.QuantityUnguardedTotal and OrderScreen.StrictProductTotal a `null` quantity multiplies to 0 in JavaScript, while the model's `None` stands for a missing one that gives NaN. An input's text reaches the model as a number or as an absent field; non-numeric text and string-versus-number comparisons are not modelled.
- Payments.PaymentErrorsFor: of the non-numeric amounts it models only the empty text, `undefined` and NaN.
- Inventory.AllocationErrorsFor: the quantity is a whole number. A fractional quantity such as 0.5 passes the source's `<= 0` test and is not modelled.
- An order always has a list of lines (`Order.products` is a sequence). The order screens reduce `order.products` unguarded (`src/pages/Order/OrderList.jsx:143` in `calculateDiscountAmount`, `:249` in `fetchData`), which throws on an order without `products`; in `fetchData` the catch then shows `Failed to load orders`. The helper guards it (`order.products?.reduce(...) || 0`). The model does not capture that failure.
- String lengths count characters. JavaScript's UTF-16 code units differ for characters outside the Basic Multilingual Plane.
- The email pattern of the technician form is not spelt out. Its outcome is the `emailMatches` parameter of `Technicians.TechnicianErrorsFor` and `Technicians.ValidateTechnician`.
- `new Date(...)` parsing and the local time zone are left out. A date input is its text plus a day number; the payment date column takes the calendar fields the `Date` getters return.
- The in-place mutation in `setNestedValue` is modelled on values. It writes into the object it is given, and the older screen passes a shallow copy of its state, so nested objects of the previous state are changed too. That aliasing is not captured; the model returns the updated object or `None` where strict mode would throw a `TypeError`.
- Reading a property of a primitive other than a string (for example `true.x`) yields `undefined` in the model; prototype properties are not modelled.
- The older draft handler's clearing of the field error and of the draft error message (`src/pages/Order/test.jsx:273-279`) is not modelled; only its use of `setNestedValue` is.
- The product-line editors `handleProductChange` of both order screens, which write `updatedProducts[index][field]` in place, are not modelled.
- The settlement figures (technician cut, outstanding amount, net amount) are computed by the server and only displayed here, so they are not modelled.
- The companies, users and installation pages, authentication, routing and layout are not modelled.
- The generic `handleChange` of the product, inventory and commission dialogs, which writes `[name]: value` into the form, is not modelled separately; the validators take the resulting form.
- The browser's own constraint validation is not modelled. Every dialog submits through a `<form onSubmit>` without `noValidate` (`src/pages/Order/OrderList.jsx:1910`, `src/pages/Payment/PaymentList.jsx:704`, `src/pages/Technicians/TechnicianList.jsx:583` and `:632`, `src/pages/Products/ProductList.jsx:347` and `:393`, `src/pages/Commission/CommisionList.jsx:429` and `:476`, `src/pages/Inventory/InventoryList.jsx:289`), and the inputs carry native limits: `min: 0, max: 100` on the two completion percentages (`OrderList.jsx:1990`, `:2001`), `min: 0.01`, `max` the chosen balance and `step: 0.01` on the payment amount (`PaymentList.jsx:438-442`), `required` on the technician fields (`TechnicianList.jsx:349-463`) and `min: 0` on the service rate (`:465`), and the like on the product, commission and inventory inputs. A browser refuses an input outside these limits with its own message before the screen's handler runs. The validators and submits of the model describe what the handler does once the browser lets the submit through, or when its checks are bypassed (a browser without constraint validation, a script filling the form).
- Payments.PaymentDialog.Submit: covers only submits past the browser; an amount above the chosen balance, below 0.01 or with more than two decimals is refused natively first.
- Payments.ChosenBalanceAccepted: a balance with more than two decimals (10.125) is accepted by the handler's check, but the native `step: 0.01` refuses that amount before the handler runs.
- Commissions.CreateAsWritten: its `NotSubmitted` case is the handler's check; a `required` or `min` attribute on the commission inputs refuses some of those forms natively first.

## Findings

| source | as written | input that shows it | evidently intended | confidence | as-written member | corrected member |
|---|---|---|---|---|---|---|
| src/pages/Order/OrderList.jsx:533-541 | `validateComplete` checks `completeForm.discountPercentage`, which the complete form never sets (its inputs are `productDiscountPercentage` and `miscDiscountPercentage`), so every form passes | an order with `discountPercentage` 150 opened in the complete dialog; in a browser the native `min: 0, max: 100` of the two inputs (lines 1990 and 2001, form at line 1910) refuse 150 first, so the dead check is masked and bites only when constraint validation is bypassed | each of the two percentages the form holds must lie in [0, 100] | low, not executed | OrderActions.AsWrittenAcceptsEveryForm | OrderActions.CompleteErrorsOnReachableForms |
| src/pages/Payment/PaymentList.jsx:116 | the prefill rounds the balance with `toFixed(2)`, which can round it up, and the same dialog then refuses the prefilled amount as exceeding the balance (lines 181-184) | a technician with outstanding balance 10.125; in a browser the native `max` (the balance) and `step: 0.01` of the amount input (lines 438-442) refuse the prefilled 10.13 first with the browser's message, and without them the handler refuses it; either way the prefill cannot be submitted unedited | a prefill the dialog accepts, at most the balance (10.12 passes the native `max` and `step` and the handler) | medium, not executed | Payments.PrefillRejectsOwnBalance | Payments.CorrectedPrefillAccepted |
| src/pages/Commission/CommisionList.jsx:164-171 | after a successful create (and likewise an update, lines 205-212) the refresh reads `commission.product.name` without the guard the initial fetch uses; a commission whose product or technician is gone throws, and the catch reports `Failed to create commission` (`Failed to update commission` for the update, Commissions.UpdateAsWrittenMisreports and Commissions.CorrectedUpdateLists) | a refreshed page holding a commission whose product is `null` | the guarded mapping with `N/A`, as at lines 61-68 and 242-249 | medium, not executed | Commissions.CreateAsWrittenMisreports | Commissions.CorrectedCreateLists |

=== FILE: Commissions.dfy ===
/**
 * The commission screen: the rows built from the fetched commissions, the
 * commission form and its validator, and the list refresh after a create.
 */
module Commissions {
  import opened Common

  /** A populated reference to a product or a technician; its name may be missing. */
  datatype Ref = Ref(id: string, name: Option<string>)

  /** A fetched commission; the product or the technician may have been removed. */
  datatype Commission = Commission(id: string, product: Option<Ref>, technician: Option<Ref>, amount: real)

  /** A grid row: the commission with the two names it shows (missing names are `undefined`). */
  datatype Row = Row(id: string, productName: Option<string>, technicianName: Option<string>, amount: real)

  const NotAvailable: string := "N/A"

  /** `ref?.name ?? 'N/A'` */
  function NameOrNA(r: Option<Ref>): (name: string)
    ensures r.Some? && r.value.name.Some? ==> name == r.value.name.value
    ensures r.None? || r.value.name.None? ==> name == NotAvailable
  {
    if r.Some? && r.value.name.Some? then r.value.name.value else NotAvailable
  }

  /** The guarded row mapping of the initial fetch and of the refresh after a delete. */
  function GuardedRows(cs: seq<Commission>): (rows: seq<Row>)
    ensures |rows| == |cs|
    ensures forall i :: 0 <= i < |cs| ==>
              rows[i] == Row(cs[i].id, Some(NameOrNA(cs[i].product)), Some(NameOrNA(cs[i].technician)), cs[i].amount)
  {
    seq(|cs|, i requires 0 <= i < |cs| =>
      Row(cs[i].id, Some(NameOrNA(cs[i].product)), Some(NameOrNA(cs[i].technician)), cs[i].amount))
  }

  /**
   * The unguarded row mapping of the refresh after a create or an update:
   * `commission.product.name` throws (here `None`) as soon as one row lacks
   * its product or its technician.
   */
  function StrictRows(cs: seq<Commission>): (rows: Option<seq<Row>>)
    ensures rows.None? <==> exists i :: 0 <= i < |cs| && (cs[i].product.None? || cs[i].technician.None?)
    ensures rows.Some? ==> |rows.value| == |cs|
    decreases |cs|
  {
    if |cs| == 0 then Some([])
    else if cs[0].product.None? || cs[0].technician.None? then None
    else
      var rest := StrictRows(cs[1..]);
      assert forall i :: 1 <= i < |cs| ==> cs[i] == cs[1..][i - 1];
      if rest.None? then None
      else Some([Row(cs[0].id, cs[0].product.value.name, cs[0].technician.value.name, cs[0].amount)] + rest.value)
  }

  /** Where the strict mapping succeeds and every name is present, it shows what the guarded one shows. */
  lemma {:induction false} StrictAgreesWhenComplete(cs: seq<Commission>)
    requires forall i :: 0 <= i < |cs| ==>
               cs[i].product.Some? && cs[i].technician.Some?
               && cs[i].product.value.name.Some? && cs[i].technician.value.name.Some?
    ensures StrictRows(cs) == Some(GuardedRows(cs))
    decreases |cs|
  {
    if |cs| > 0 {
      var tail := cs[1..];
      assert forall i :: 1 <= i < |cs| ==> cs[i] == tail[i - 1];
      StrictAgreesWhenComplete(tail);
      var all := GuardedRows(cs);
      var first := Row(cs[0].id, cs[0].product.value.name, cs[0].technician.value.name, cs[0].amount);
      assert all == [first] + GuardedRows(tail) by {
        assert all[0] == first;
        assert forall i :: 1 <= i < |cs| ==> all[i] == GuardedRows(tail)[i - 1];
      }
    }
  }

  // ------------------------------------------------------------------- form

  datatype CommissionForm = CommissionForm(productId: string, technicianId: string, commissionAmount: real)

  /** The form of `handleCreateOpen`. */
  const EmptyCommissionForm := CommissionForm("", "", 0.0)

  /** `handleEditOpen`: the ids of the populated product and technician and the stored amount; a missing one throws. */
  function EditForm(c: Commission): (f: Option<CommissionForm>)
    ensures f.None? <==> c.product.None? || c.technician.None?
    ensures f.Some? ==> f.value.productId == c.product.value.id && f.value.technicianId == c.technician.value.id
                        && f.value.commissionAmount == c.amount
  {
    if c.product.None? || c.technician.None? then None
    else Some(CommissionForm(c.product.value.id, c.technician.value.id, c.amount))
  }

  const ProductRequired: string := "Product is required"
  const TechnicianRequired: string := "Technician is required"
  const AmountNotPositive: string := "Commission amount must be a positive number"

  datatype CommissionErrors = CommissionErrors(productId: Option<string>, technicianId: Option<string>, commissionAmount: Option<string>)
  {
    predicate Empty() {
      productId.None? && technicianId.None? && commissionAmount.None?
    }
  }

  /** The errors of the form: both ids chosen and a positive amount. */
  function CommissionErrorsFor(f: CommissionForm): (e: CommissionErrors)
    ensures e.Empty() <==> |f.productId| > 0 && |f.technicianId| > 0 && f.commissionAmount > 0.0
    ensures e.productId.Some? <==> |f.productId| == 0
    ensures e.technicianId.Some? <==> |f.technicianId| == 0
    ensures e.commissionAmount.Some? <==> f.commissionAmount <= 0.0
    ensures e.productId.Some? ==> e.productId.value == ProductRequired
    ensures e.technicianId.Some? ==> e.technicianId.value == TechnicianRequired
    ensures e.commissionAmount.Some? ==> e.commissionAmount.value == AmountNotPositive
  {
    CommissionErrors(
      if |f.productId| == 0 then Some(ProductRequired) else None,
      if |f.technicianId| == 0 then Some(TechnicianRequired) else None,
      if f.commissionAmount <= 0.0 then Some(AmountNotPositive) else None)
  }

  /** `validateForm` of the commission dialogs. */
  method ValidateCommission(f: CommissionForm) returns (errors: CommissionErrors, valid: bool)
    ensures errors == CommissionErrorsFor(f)
    ensures valid <==> errors.Empty()
  {
    errors := CommissionErrors(None, None, None);
    if |f.productId| == 0 {
      errors := errors.(productId := Some(ProductRequired));
    }
    if |f.technicianId| == 0 {
      errors := errors.(technicianId := Some(TechnicianRequired));
    }
    if f.commissionAmount <= 0.0 {
      errors := errors.(commissionAmount := Some(AmountNotPositive));
    }
    valid := errors.Empty();
  }

  /** The dialog as created is refused on all three fields. */
  lemma EmptyFormRefused()
    ensures var e := CommissionErrorsFor(EmptyCommissionForm);
            e.productId.Some? && e.technicianId.Some? && e.commissionAmount.Some?
  {
  }

  /** Editing a stored commission with both references, non-empty ids and a positive amount can be saved as it stands. */
  lemma EditOfCompleteCommissionAccepted(c: Commission)
    requires c.product.Some? && c.technician.Some?
    requires |c.product.value.id| > 0 && |c.technician.value.id| > 0 && c.amount > 0.0
    ensures EditForm(c).Some? && CommissionErrorsFor(EditForm(c).value).Empty()
  {
  }

  // ------------------------------------------------------- create and refresh

  /** What the screen shows after submitting the create or the edit dialog. */
  datatype CreateOutcome =
    | NotSubmitted(errors: CommissionErrors)
    | CreateFailed(message: string)
    | Listed(rows: seq<Row>)

  const CreateFailedMessage: string := "Failed to create commission"

  /**
   * `handleCreate` as written: after a successful create the dialog closes and
   * the page is refetched through the strict mapping; if that throws, the
   * catch reports the create itself as failed.
   */
  function CreateAsWritten(f: CommissionForm, created: bool, refreshed: seq<Commission>): (o: CreateOutcome)
    ensures !CommissionErrorsFor(f).Empty() ==> o == NotSubmitted(CommissionErrorsFor(f))
    ensures CommissionErrorsFor(f).Empty() && !created ==> o == CreateFailed(CreateFailedMessage)
    ensures CommissionErrorsFor(f).Empty() && created && StrictRows(refreshed).Some? ==> o == Listed(StrictRows(refreshed).value)
    ensures CommissionErrorsFor(f).Empty() && created && StrictRows(refreshed).None? ==> o == CreateFailed(CreateFailedMessage)
  {
    var e := CommissionErrorsFor(f);
    if !e.Empty() then NotSubmitted(e)
    else if !created then CreateFailed(CreateFailedMessage)
    else match StrictRows(refreshed)
      case None => CreateFailed(CreateFailedMessage)
      case Some(rows) => Listed(rows)
  }

  /** A commission whose product was removed makes a successful create report failure. */
  lemma CreateAsWrittenMisreports()
    ensures var f := CommissionForm("p1", "t1", 50.0);
            var orphan := Commission("c0", None, Some(Ref("t1", Some("Ravi"))), 20.0);
            CreateAsWritten(f, true, [orphan]) == CreateFailed(CreateFailedMessage)
  {
    var orphan := Commission("c0", None, Some(Ref("t1", Some("Ravi"))), 20.0);
    assert StrictRows([orphan]).None? by {
      assert [orphan][0].product.None?;
    }
  }

  /** `handleCreate` with the guarded mapping the fetch and the delete use. */
  function CreateCorrected(f: CommissionForm, created: bool, refreshed: seq<Commission>): (o: CreateOutcome)
    ensures !CommissionErrorsFor(f).Empty() ==> o == NotSubmitted(CommissionErrorsFor(f))
    ensures CommissionErrorsFor(f).Empty() && !created ==> o == CreateFailed(CreateFailedMessage)
  {
    var e := CommissionErrorsFor(f);
    if !e.Empty() then NotSubmitted(e)
    else if !created then CreateFailed(CreateFailedMessage)
    else Listed(GuardedRows(refreshed))
  }

  /**
   * With the guarded mapping a successful create always ends in the refreshed
   * list, one row per commission, and agrees with the code as written
   * whenever every reference and name is present.
   */
  lemma CorrectedCreateLists(f: CommissionForm, refreshed: seq<Commission>)
    requires CommissionErrorsFor(f).Empty()
    ensures CreateCorrected(f, true, refreshed).Listed?
    ensures |CreateCorrected(f, true, refreshed).rows| == |refreshed|
    ensures (forall i :: 0 <= i < |refreshed| ==>
               refreshed[i].product.Some? && refreshed[i].technician.Some?
               && refreshed[i].product.value.name.Some? && refreshed[i].technician.value.name.Some?)
            ==> CreateCorrected(f, true, refreshed) == CreateAsWritten(f, true, refreshed)
  {
    if forall i :: 0 <= i < |refreshed| ==>
         refreshed[i].product.Some? && refreshed[i].technician.Some?
         && refreshed[i].product.value.name.Some? && refreshed[i].technician.value.name.Some? {
      StrictAgreesWhenComplete(refreshed);
    }
  }

  // ------------------------------------------------------- update and refresh

  const UpdateFailedMessage: string := "Failed to update commission"

  /**
   * `handleUpdate` as written: no selected commission, or one without a
   * product or technician to read `_id` from, throws inside the `try`; a
   * successful update refetches through the strict mapping. Every throw
   * reaches the catch, which reports the update as failed.
   */
  function UpdateAsWritten(f: CommissionForm, selected: Option<Commission>, updated: bool, refreshed: seq<Commission>): (o: CreateOutcome)
    ensures !CommissionErrorsFor(f).Empty() ==> o == NotSubmitted(CommissionErrorsFor(f))
    ensures CommissionErrorsFor(f).Empty() && (selected.None? || selected.value.technician.None? || selected.value.product.None?)
            ==> o == CreateFailed(UpdateFailedMessage)
    ensures CommissionErrorsFor(f).Empty() && !updated ==> o == CreateFailed(UpdateFailedMessage)
    ensures o.Listed? <==> CommissionErrorsFor(f).Empty() && selected.Some? && selected.value.technician.Some?
                           && selected.value.product.Some? && updated && StrictRows(refreshed).Some?
    ensures o.Listed? ==> o.rows == StrictRows(refreshed).value
  {
    var e := CommissionErrorsFor(f);
    if !e.Empty() then NotSubmitted(e)
    else if selected.None? || selected.value.technician.None? || selected.value.product.None? then CreateFailed(UpdateFailedMessage)
    else if !updated then CreateFailed(UpdateFailedMessage)
    else match StrictRows(refreshed)
      case None => CreateFailed(UpdateFailedMessage)
      case Some(rows) => Listed(rows)
  }

  /** A commission whose technician was removed makes a successful update report failure. */
  lemma UpdateAsWrittenMisreports()
    ensures var f := CommissionForm("p1", "t1", 75.0);
            var selected := Commission("c1", Some(Ref("p1", Some("Filter"))), Some(Ref("t1", Some("Ravi"))), 50.0);
            var orphan := Commission("c0", Some(Ref("p2", Some("Pump"))), None, 20.0);
            UpdateAsWritten(f, Some(selected), true, [selected, orphan]) == CreateFailed(UpdateFailedMessage)
  {
    var selected := Commission("c1", Some(Ref("p1", Some("Filter"))), Some(Ref("t1", Some("Ravi"))), 50.0);
    var orphan := Commission("c0", Some(Ref("p2", Some("Pump"))), None, 20.0);
    assert StrictRows([selected, orphan]).None? by {
      assert [selected, orphan][1].technician.None?;
    }
  }

  /** `handleUpdate` with the guarded mapping the fetch and the delete use. */
  function UpdateCorrected(f: CommissionForm, selected: Option<Commission>, updated: bool, refreshed: seq<Commission>): (o: CreateOutcome)
    ensures !CommissionErrorsFor(f).Empty() ==> o == NotSubmitted(CommissionErrorsFor(f))
    ensures CommissionErrorsFor(f).Empty() && !updated ==> o == CreateFailed(UpdateFailedMessage)
  {
    var e := CommissionErrorsFor(f);
    if !e.Empty() then NotSubmitted(e)
    else if selected.None? || selected.value.technician.None? || selected.value.product.None? then CreateFailed(UpdateFailedMessage)
    else if !updated then CreateFailed(UpdateFailedMessage)
    else Listed(GuardedRows(refreshed))
  }

  /**
   * With the guarded mapping a successful update of a commission with both
   * references always ends in the refreshed list, and agrees with the code as
   * written whenever every reference and name is present.
   */
  lemma CorrectedUpdateLists(f: CommissionForm, selected: Commission, refreshed: seq<Commission>)
    requires CommissionErrorsFor(f).Empty() && selected.product.Some? && selected.technician.Some?
    ensures UpdateCorrected(f, Some(selected), true, refreshed).Listed?
    ensures |UpdateCorrected(f, Some(selected), true, refreshed).rows| == |refreshed|
    ensures (forall i :: 0 <= i < |refreshed| ==>
               refreshed[i].product.Some? && refreshed[i].technician.Some?
               && refreshed[i].product.value.name.Some? && refreshed[i].technician.value.name.Some?)
            ==> UpdateCorrected(f, Some(selected), true, refreshed) == UpdateAsWritten(f, Some(selected), true, refreshed)
  {
    if forall i :: 0 <= i < |refreshed| ==>
         refreshed[i].product.Some? && refreshed[i].technician.Some?
         && refreshed[i].product.value.name.Some? && refreshed[i].technician.value.name.Some? {
      StrictAgreesWhenComplete(refreshed);
    }
  }
}

=== FILE: Common.dfy ===
/** Small value wrappers shared by every screen model. */
module Common {

  /** A value that may be absent (JS `null` / `undefined`). */
  datatype Option<+T> = None | Some(value: T) {
    /** `x ?? default` */
    function GetOr(default: T): T {
      match this
      case Some(v) => v
      case None => default
    }
  }

  /** `xs.find(p)`: the first element satisfying `p`, if any. */
  function FindFirst<T>(xs: seq<T>, p: T -> bool): (r: Option<T>)
    ensures r.None? <==> forall i :: 0 <= i < |xs| ==> !p(xs[i])
    ensures r.Some? ==> exists i :: 0 <= i < |xs| && xs[i] == r.value && p(xs[i])
                                    && forall j :: 0 <= j < i ==> !p(xs[j])
  {
    if |xs| == 0 then None
    else if p(xs[0]) then Some(xs[0])
    else
      var r := FindFirst(xs[1..], p);
      assert forall i :: 1 <= i < |xs| ==> xs[i] == xs[1..][i - 1];
      r
  }
}

=== FILE: DateRangeExport.dfy ===
/**
 * The date-range export card: a range is exportable when both dates are
 * picked and the end falls 0 to 90 days after the start; the download is
 * named after the prefix and the two dates.
 */
module DateRangeExport {
  import opened Text

  const MillisPerDay: int := 1000 * 60 * 60 * 24
  const MaxRangeDays: int := 90

  /**
   * The value of an `<input type="date">`: its text (`""` when nothing is
   * picked, otherwise `YYYY-MM-DD`) and the day it denotes, counted from the
   * epoch, as `new Date(text)` reads it at UTC midnight.
   */
  datatype DateField = DateField(text: string, day: int)

  /** `isDateRangeValid`: the millisecond difference, in days, lies in [0, 90]. */
  function IsDateRangeValid(start: DateField, end: DateField): (valid: bool)
    ensures valid <==> start.text != "" && end.text != "" && 0 <= end.day - start.day <= MaxRangeDays
  {
    if start.text == "" || end.text == "" then false
    else
      var diffInDays := ((end.day - start.day) * MillisPerDay) as real / (MillisPerDay as real);
      0.0 <= diffInDays <= MaxRangeDays as real
  }

  /** The range edges: the same day and exactly 90 days are accepted, 91 days and a reversed range are not. */
  lemma RangeEdges(startText: string, endText: string, day: int)
    requires startText != "" && endText != ""
    ensures IsDateRangeValid(DateField(startText, day), DateField(endText, day))
    ensures IsDateRangeValid(DateField(startText, day), DateField(endText, day + 90))
    ensures !IsDateRangeValid(DateField(startText, day), DateField(endText, day + 91))
    ensures !IsDateRangeValid(DateField(startText, day + 1), DateField(endText, day))
  {
  }

  /** `${filePrefix}_${startDate}_to_${endDate}.xlsx` */
  function ExportFileName(prefix: string, startDate: string, endDate: string): (name: string)
    ensures |name| > |prefix| + 5 && name[..|prefix|] == prefix && name[|name| - 5..] == ".xlsx"
  {
    prefix + "_" + startDate + "_to_" + endDate + ".xlsx"
  }

  /**
   * When neither the prefix nor the dates contain `_`, the file name splits
   * back into the prefix, the start date, `to` and the end date.
   */
  lemma {:induction false} ExportFileNameFields(prefix: string, startDate: string, endDate: string)
    requires '_' !in prefix && '_' !in startDate && '_' !in endDate
    ensures Split(ExportFileName(prefix, startDate, endDate), '_') == [prefix, startDate, "to", endDate + ".xlsx"]
  {
    var tail := endDate + ".xlsx";
    assert '_' !in tail;
    assert ExportFileName(prefix, startDate, endDate) == prefix + ['_'] + (startDate + ['_'] + ("to" + ['_'] + tail));
    SplitNoSep(prefix, '_');
    SplitNoSep(startDate, '_');
    SplitNoSep("to", '_');
    SplitNoSep(tail, '_');
    SplitAppend("to", tail, '_');
    SplitAppend(startDate, "to" + ['_'] + tail, '_');
    SplitAppend(prefix, startDate + ['_'] + ("to" + ['_'] + tail), '_');
  }

  /** What pressing Export does: an alert and nothing else, or an export request for the two dates. */
  datatype ExportOutcome =
    | Rejected(alert: string)
    | Requested(startDate: string, endDate: string, fileName: string)

  const RangeAlert: string := "Date range must be within 90 days and valid."

  /** `handleExport`: an invalid range stops before any request is made. */
  function HandleExport(prefix: string, start: DateField, end: DateField): (r: ExportOutcome)
    ensures r.Rejected? <==> !IsDateRangeValid(start, end)
    ensures r.Rejected? ==> r.alert == RangeAlert
    ensures r.Requested? ==> r.startDate == start.text && r.endDate == end.text
                             && r.fileName == ExportFileName(prefix, start.text, end.text)
  {
    if !IsDateRangeValid(start, end) then Rejected(RangeAlert)
    else Requested(start.text, end.text, ExportFileName(prefix, start.text, end.text))
  }

  /** The Export button is enabled only for a valid range while no export is running. */
  function ExportEnabled(start: DateField, end: DateField, exportLoading: bool): (enabled: bool)
    ensures enabled ==> forall prefix :: HandleExport(prefix, start, end).Requested?
    ensures enabled <==> !exportLoading && IsDateRangeValid(start, end)
  {
    !(!IsDateRangeValid(start, end) || exportLoading)
  }
}

=== FILE: Inventory.dfy ===
/**
 * The inventory screen: the allocation dialog that hands a quantity of a
 * product to a technician, and its validator.
 */
module Inventory {
  import opened Common
  import opened Text
  import opened Products

  /** The allocation dialog's fields; `productId` is matched against the products' ids. */
  datatype AllocationForm = AllocationForm(productId: string, technicianId: string, quantity: int)

  /** The form of `handleOpenModal`. */
  const EmptyAllocationForm := AllocationForm("", "", 0)

  const ProductRequired: string := "Product is required"
  const TechnicianRequired: string := "Technician is required"
  const InvalidProduct: string := "Invalid product selection"

  const QuantityRangePrefix: string := "Quantity must be between 1 and "

  /** The message for a quantity outside `1..available`; a count that is not negative reads back from its tail. */
  function QuantityOutOfRange(available: int): (msg: string)
    ensures |msg| > |QuantityRangePrefix| && msg[..|QuantityRangePrefix|] == QuantityRangePrefix
    ensures available >= 0 ==>
              AllDigits(msg[|QuantityRangePrefix|..]) && DecimalValue(msg[|QuantityRangePrefix|..]) == available
  {
    var msg := QuantityRangePrefix + IntToString(available);
    assert msg[|QuantityRangePrefix|..] == IntToString(available);
    if available >= 0 then
      NatToStringRoundTrip(available);
      msg
    else msg
  }

  /** The error object of `validateForm`. */
  datatype AllocationErrors = AllocationErrors(productId: Option<string>, technicianId: Option<string>, quantity: Option<string>)
  {
    predicate Empty() {
      productId.None? && technicianId.None? && quantity.None?
    }
  }

  const NoAllocationErrors := AllocationErrors(None, None, None)

  /** Position `i` holds the first product carrying `id`. */
  ghost predicate FirstWithId(products: seq<Product>, id: string, i: int)
  {
    0 <= i < |products| && products[i].id == id && forall j :: 0 <= j < i ==> products[j].id != id
  }

  /** `products.find(p => p._id === productId)` */
  function SelectedProduct(products: seq<Product>, productId: string): (r: Option<Product>)
    ensures r.None? <==> forall i :: 0 <= i < |products| ==> products[i].id != productId
    ensures r.Some? ==> exists i :: FirstWithId(products, productId, i) && products[i] == r.value
  {
    FindFirst(products, (p: Product) => p.id == productId)
  }

  /** The product `find` returns is the one at the first position carrying the id. */
  lemma SelectedIsFirst(products: seq<Product>, id: string)
    ensures SelectedProduct(products, id).Some? ==>
              forall i :: FirstWithId(products, id, i) ==> products[i] == SelectedProduct(products, id).value
    ensures SelectedProduct(products, id).None? ==> forall i :: !FirstWithId(products, id, i)
  {
    var r := SelectedProduct(products, id);
    if r.Some? {
      var k :| FirstWithId(products, id, k) && products[k] == r.value;
      forall i | FirstWithId(products, id, i) ensures products[i] == r.value {
        assert !(i < k) && !(k < i);
      }
    }
  }

  /**
   * The errors of an allocation: a product and a technician must be chosen,
   * the product must be one of the listed ones, and the quantity must lie
   * between 1 and what that product still has available.
   */
  function AllocationErrorsFor(f: AllocationForm, products: seq<Product>): (e: AllocationErrors)
    ensures e.productId == (if |f.productId| == 0 then Some(ProductRequired) else None)
    ensures e.technicianId == (if |f.technicianId| == 0 then Some(TechnicianRequired) else None)
    ensures e.quantity.None? <==>
              exists i :: FirstWithId(products, f.productId, i) && 1 <= f.quantity <= Available(products[i])
    ensures SelectedProduct(products, f.productId).None? ==> e.quantity == Some(InvalidProduct)
    ensures SelectedProduct(products, f.productId).Some? && e.quantity.Some? ==>
              e.quantity.value == QuantityOutOfRange(Available(SelectedProduct(products, f.productId).value))
  {
    var selected := SelectedProduct(products, f.productId);
    SelectedIsFirst(products, f.productId);
    AllocationErrors(
      if |f.productId| == 0 then Some(ProductRequired) else None,
      if |f.technicianId| == 0 then Some(TechnicianRequired) else None,
      if selected.None? then Some(InvalidProduct)
      else if f.quantity > Available(selected.value) || f.quantity <= 0 then Some(QuantityOutOfRange(Available(selected.value)))
      else None)
  }

  /** `validateForm` of the allocation dialog. */
  method ValidateAllocation(f: AllocationForm, products: seq<Product>) returns (errors: AllocationErrors, valid: bool)
    ensures errors == AllocationErrorsFor(f, products)
    ensures valid <==> errors.Empty()
  {
    errors := NoAllocationErrors;
    if |f.productId| == 0 {
      errors := errors.(productId := Some(ProductRequired));
    }
    if |f.technicianId| == 0 {
      errors := errors.(technicianId := Some(TechnicianRequired));
    }
    var selected := SelectedProduct(products, f.productId);
    if selected.Some? {
      var available := Available(selected.value);
      if f.quantity > available || f.quantity <= 0 {
        errors := errors.(quantity := Some(QuantityOutOfRange(available)));
      }
    } else {
      errors := errors.(quantity := Some(InvalidProduct));
    }
    valid := errors.Empty();
  }

  /**
   * An accepted allocation names a listed product and a technician, and the
   * product's allocated count plus the new quantity stays within its total.
   */
  lemma AcceptedAllocationFitsStock(f: AllocationForm, products: seq<Product>)
    requires AllocationErrorsFor(f, products).Empty()
    ensures |f.technicianId| > 0 && f.quantity >= 1
    ensures exists p :: p in products && p.id == f.productId
              && p.allocatedCount + f.quantity <= p.totalCount
  {
    var i :| FirstWithId(products, f.productId, i) && 1 <= f.quantity <= Available(products[i]);
    assert products[i] in products;
  }

  /** When the ids are distinct, the quantity is accepted exactly when the product with that id has that much available. */
  lemma DistinctIdsQuantityCheck(f: AllocationForm, products: seq<Product>)
    requires forall i, j :: 0 <= i < j < |products| ==> products[i].id != products[j].id
    ensures AllocationErrorsFor(f, products).quantity.None? <==>
              exists p :: p in products && p.id == f.productId && 1 <= f.quantity <= Available(p)
  {
    if p :| p in products && p.id == f.productId && 1 <= f.quantity <= Available(p) {
      var k :| 0 <= k < |products| && products[k] == p;
      assert FirstWithId(products, f.productId, k);
    }
    if AllocationErrorsFor(f, products).quantity.None? {
      var i :| FirstWithId(products, f.productId, i) && 1 <= f.quantity <= Available(products[i]);
      assert products[i] in products;
    }
  }

  /** The dialog as opened can never be submitted: no product, no technician, quantity 0. */
  lemma OpenedFormRefused(products: seq<Product>)
    ensures var e := AllocationErrorsFor(EmptyAllocationForm, products);
            e.productId == Some(ProductRequired) && e.technicianId == Some(TechnicianRequired) && e.quantity.Some?
  {
  }

  /** A product whose stock is fully allocated cannot be allocated further, whatever the quantity. */
  lemma ExhaustedProductRefused(f: AllocationForm, products: seq<Product>)
    requires forall i :: 0 <= i < |products| && products[i].id == f.productId ==> Available(products[i]) <= 0
    ensures AllocationErrorsFor(f, products).quantity.Some?
  {
  }
}

=== FILE: LegacyOrders.dfy ===
/**
 * The older revision of the order list screen: one discount percentage over
 * products, installation and miscellaneous cost, a single owner/technician
 * split, and the local list of orders that approving, rejecting, creating,
 * updating and completing an order rewrite.
 */
module LegacyOrders {
  import opened Common
  import opened Money
  import opened Orders
  import opened OrderScreen

  /**
   * `calculateDiscountAmount` of the older screen: `discountPercentage`
   * percent of products, installation and miscellaneous cost, every field
   * defaulting to 0; no order gives 0.
   */
  function LegacyDiscount(order: Option<Order>): (r: real)
    ensures order.None? ==> r == 0.0
    ensures order.Some? && OrZero(order.value.discountPercentage) == 0.0 ==> r == 0.0
    ensures order.Some? && RowSubtotal(order.value) >= 0.0 && 0.0 <= OrZero(order.value.discountPercentage) <= 100.0
            ==> 0.0 <= r <= RowSubtotal(order.value)
  {
    match order
    case None => 0.0
    case Some(o) =>
      var base := RowSubtotal(o);
      var pct := OrZero(o.discountPercentage);
      PercentWithin(base, pct);
      base * (pct / 100.0)
  }

  /** The row total the older screen computes on fetch, create, update and complete is the subtotal less this discount. */
  lemma RowTotalIsSubtotalLessLegacyDiscount(o: Order)
    ensures RowTotal(o) == RowSubtotal(o) - LegacyDiscount(Some(o))
  {
    PercentWithin(RowSubtotal(o), OrZero(o.discountPercentage));
  }

  /** With one percentage for both channels, the older discount is the sum of the current view dialog's two. */
  lemma LegacyDiscountIsBothChannels(o: Order)
    requires OrZero(o.miscDiscountPercentage) == OrZero(o.discountPercentage)
    ensures var v := ViewDialogFigures(o);
            LegacyDiscount(Some(o)) == v.product.discount + v.misc.discount
  {
    RowTotalSplitsIntoChannels(o);
    RowTotalIsSubtotalLessLegacyDiscount(o);
  }

  // ------------------------------------------------------------ order rows

  /** `discountApproved` of a row: not decided, `'approved'` or `'rejected'`. */
  datatype DiscountApproval = NotDecided | DiscountApproved | DiscountRejected

  /** One row of the grid: the server's order with its id and the total computed on the client. */
  datatype OrderRow = OrderRow(id: string, order: Order, discountApproved: DiscountApproval, totalAmount: real)

  /** The `formattedOrder` built from an order the server returns: `id` from `_id`, the row total attached. */
  function FormatRow(id: string, o: Order, approval: DiscountApproval): (row: OrderRow)
    ensures row.id == id && row.order == o && row.discountApproved == approval
    ensures row.totalAmount == RowSubtotal(o) - LegacyDiscount(Some(o))
  {
    RowTotalIsSubtotalLessLegacyDiscount(o);
    OrderRow(id, o, approval, RowTotal(o))
  }

  /** `rows.map(r => r.id === id ? f(r) : r)` */
  function MapMatching(rows: seq<OrderRow>, id: string, f: OrderRow -> OrderRow): (r: seq<OrderRow>)
    ensures |r| == |rows|
    ensures forall i :: 0 <= i < |rows| ==> r[i] == (if rows[i].id == id then f(rows[i]) else rows[i])
    decreases |rows|
  {
    if |rows| == 0 then []
    else [if rows[0].id == id then f(rows[0]) else rows[0]] + MapMatching(rows[1..], id, f)
  }

  /** `{ ...order, status: 'completed', discountApproved: 'approved' }` */
  function Approve(row: OrderRow): (r: OrderRow)
    ensures r.id == row.id && r.totalAmount == row.totalAmount
    ensures r.order.status == Completed && r.discountApproved == DiscountApproved
  {
    row.(order := row.order.(status := Completed), discountApproved := DiscountApproved)
  }

  /** `{ ...order, discountApproved: 'rejected' }` */
  function Reject(row: OrderRow): (r: OrderRow)
    ensures r.id == row.id && r.totalAmount == row.totalAmount && r.order == row.order
    ensures r.discountApproved == DiscountRejected
  {
    row.(discountApproved := DiscountRejected)
  }

  /** Approving changes the status and decision of the selected order's rows and nothing else. */
  lemma ApproveOnlySelected(rows: seq<OrderRow>, id: string, i: nat)
    requires i < |rows|
    ensures var r := MapMatching(rows, id, Approve);
            |r| == |rows| && r[i].id == rows[i].id && r[i].totalAmount == rows[i].totalAmount
            && (rows[i].id != id ==> r[i] == rows[i])
            && (rows[i].id == id ==> r[i].order.status == Completed && r[i].discountApproved == DiscountApproved
                                     && r[i].order.(status := rows[i].order.status) == rows[i].order)
  {
  }

  /** Rejecting records the decision on the selected order's rows and keeps their status. */
  lemma RejectKeepsStatus(rows: seq<OrderRow>, id: string, i: nat)
    requires i < |rows|
    ensures var r := MapMatching(rows, id, Reject);
            |r| == |rows| && r[i].order == rows[i].order && r[i].id == rows[i].id
            && (rows[i].id != id ==> r[i] == rows[i])
            && (rows[i].id == id ==> r[i].discountApproved == DiscountRejected)
  {
  }

  /** Updating the selected order replaces exactly its rows, in place. */
  lemma ReplaceOnlySelected(rows: seq<OrderRow>, id: string, row: OrderRow, i: nat)
    requires i < |rows|
    ensures var r := MapMatching(rows, id, _ => row);
            |r| == |rows| && (rows[i].id == id ==> r[i] == row) && (rows[i].id != id ==> r[i] == rows[i])
  {
  }

  /** A list without the id is left as it is. */
  lemma {:induction false} MapMatchingAbsent(rows: seq<OrderRow>, id: string, f: OrderRow -> OrderRow)
    requires forall i :: 0 <= i < |rows| ==> rows[i].id != id
    ensures MapMatching(rows, id, f) == rows
    decreases |rows|
  {
    if |rows| > 0 {
      MapMatchingAbsent(rows[1..], id, f);
    }
  }

  /** Approving twice is approving once. */
  lemma {:induction false} ApproveIdempotent(rows: seq<OrderRow>, id: string)
    ensures MapMatching(MapMatching(rows, id, Approve), id, Approve) == MapMatching(rows, id, Approve)
    decreases |rows|
  {
    if |rows| > 0 {
      ApproveIdempotent(rows[1..], id);
    }
  }

  // ------------------------------------------------------- complete validator

  const InvalidPercentage := "Invalid discount percentage"

  /** `validateComplete` of the older screen: the one percentage the form holds must lie in [0, 100]. */
  method ValidateLegacyComplete(discountPercentage: real) returns (errors: map<string, string>, valid: bool)
    ensures "discountPercentage" in errors <==> discountPercentage < 0.0 || discountPercentage > 100.0
    ensures errors.Keys <= {"discountPercentage"}
    ensures forall k :: k in errors ==> errors[k] == InvalidPercentage
    ensures valid <==> 0.0 <= discountPercentage <= 100.0
  {
    errors := map[];
    if discountPercentage < 0.0 || discountPercentage > 100.0 {
      errors := errors["discountPercentage" := InvalidPercentage];
    }
    valid := |errors| == 0;
  }

  // ------------------------------------------------------------- the screen

  /**
   * The state of the older screen: the grid's rows, the single discount
   * split, the selected row and the complete-order form (its products are
   * not modelled).
   */
  class LegacyOrderBoard {
    var orders: seq<OrderRow>
    var discountSplit: Split
    var selected: Option<OrderRow>
    var completeMiscellaneousCost: real
    var completeDiscountPercentage: real

    ghost predicate Valid()
      reads this
    {
      WholeSplit(discountSplit)
    }

    /** The initial `useState` values. */
    constructor ()
      ensures Valid()
      ensures orders == [] && selected == None
      ensures discountSplit == DefaultSplit()
      ensures completeMiscellaneousCost == 0.0 && completeDiscountPercentage == 0.0
    {
      orders := [];
      discountSplit := DefaultSplit();
      selected := None;
      completeMiscellaneousCost := 0.0;
      completeDiscountPercentage := 0.0;
    }

    /** `handleDiscountOpen`: select the row and reset the split to owner-only. */
    method OpenDiscount(row: OrderRow)
      modifies this
      ensures Valid()
      ensures selected == Some(row) && discountSplit == DefaultSplit()
      ensures orders == old(orders)
      ensures completeMiscellaneousCost == old(completeMiscellaneousCost)
      ensures completeDiscountPercentage == old(completeDiscountPercentage)
    {
      selected := Some(row);
      discountSplit := DefaultSplit();
    }

    /** `handleDiscountSplitChange`: the technician takes what the owner does not. */
    method ChangeSplit(newValue: int)
      requires Valid() && SliderPosition(newValue)
      modifies this
      ensures Valid()
      ensures discountSplit == SliderSplit(newValue as real)
      ensures orders == old(orders) && selected == old(selected)
      ensures completeMiscellaneousCost == old(completeMiscellaneousCost)
      ensures completeDiscountPercentage == old(completeDiscountPercentage)
    {
      discountSplit := SliderSplit(newValue as real);
    }

    /**
     * `handleApproveDiscount`: the request carries the split; when the
     * server accepts it (`accepted`), the selected order's rows become
     * completed and approved.
     */
    method ApproveDiscount(accepted: bool) returns (payload: Split)
      requires Valid() && selected.Some?
      modifies this
      ensures Valid()
      ensures payload == discountSplit && WholeSplit(payload)
      ensures orders == (if accepted then MapMatching(old(orders), old(selected.value.id), Approve) else old(orders))
      ensures selected == old(selected) && discountSplit == old(discountSplit)
      ensures completeMiscellaneousCost == old(completeMiscellaneousCost)
      ensures completeDiscountPercentage == old(completeDiscountPercentage)
    {
      payload := discountSplit;
      if accepted {
        orders := MapMatching(orders, selected.value.id, Approve);
      }
    }

    /** `handleRejectDiscount`: when the server accepts it, the selected order's rows become rejected. */
    method RejectDiscount(accepted: bool)
      requires Valid() && selected.Some?
      modifies this
      ensures Valid()
      ensures orders == (if accepted then MapMatching(old(orders), old(selected.value.id), Reject) else old(orders))
      ensures selected == old(selected) && discountSplit == old(discountSplit)
      ensures completeMiscellaneousCost == old(completeMiscellaneousCost)
      ensures completeDiscountPercentage == old(completeDiscountPercentage)
    {
      if accepted {
        orders := MapMatching(orders, selected.value.id, Reject);
      }
    }

    /** `createDraftOrder` after the server returns the new order: it goes first in the grid. */
    method Created(id: string, o: Order, approval: DiscountApproval)
      requires Valid()
      modifies this
      ensures Valid()
      ensures orders == [FormatRow(id, o, approval)] + old(orders)
      ensures selected == old(selected) && discountSplit == old(discountSplit)
      ensures completeMiscellaneousCost == old(completeMiscellaneousCost)
      ensures completeDiscountPercentage == old(completeDiscountPercentage)
    {
      orders := [FormatRow(id, o, approval)] + orders;
    }

    /**
     * `updateDraftOrder` and `completeOrder` after the server returns the
     * order: the rows of the selected order are replaced by the returned one.
     */
    method Replaced(id: string, o: Order, approval: DiscountApproval)
      requires Valid() && selected.Some?
      modifies this
      ensures Valid()
      ensures orders == MapMatching(old(orders), old(selected.value.id), _ => FormatRow(id, o, approval))
      ensures selected == old(selected) && discountSplit == old(discountSplit)
      ensures completeMiscellaneousCost == old(completeMiscellaneousCost)
      ensures completeDiscountPercentage == old(completeDiscountPercentage)
    {
      orders := MapMatching(orders, selected.value.id, _ => FormatRow(id, o, approval));
    }

    /** `handleCompleteOpen`: the form starts from the order's cost and percentage, 0 when absent. */
    method OpenComplete(row: OrderRow)
      requires Valid()
      modifies this
      ensures Valid()
      ensures selected == Some(row)
      ensures completeMiscellaneousCost == OrZero(row.order.miscellaneousCost)
      ensures completeDiscountPercentage == OrZero(row.order.discountPercentage)
      ensures orders == old(orders) && discountSplit == old(discountSplit)
    {
      selected := Some(row);
      completeMiscellaneousCost := OrZero(row.order.miscellaneousCost);
      completeDiscountPercentage := OrZero(row.order.discountPercentage);
    }

    /** `handleCompleteChange` on the percentage input. */
    method ChangeCompleteDiscount(value: real)
      requires Valid()
      modifies this
      ensures Valid()
      ensures completeDiscountPercentage == value
      ensures completeMiscellaneousCost == old(completeMiscellaneousCost)
      ensures orders == old(orders) && selected == old(selected) && discountSplit == old(discountSplit)
    {
      completeDiscountPercentage := value;
    }

    /** `completeOrder`'s guard: the form's percentage is checked, so an out-of-range order is stopped. */
    method ValidateComplete() returns (errors: map<string, string>, valid: bool)
      ensures valid <==> 0.0 <= completeDiscountPercentage <= 100.0
      ensures valid <==> |errors| == 0
    {
      errors, valid := ValidateLegacyComplete(completeDiscountPercentage);
    }
  }
}

=== FILE: Money.dfy ===
/**
 * Numeric primitives the order screens rely on: the `Number(x) || 0`
 * default, `Math.min` / `Math.max`, and `Number(x.toFixed(2))`.
 */
module Money {
  import opened Common

  /** `Number(x) || 0` on a field that is either absent or a number. */
  function OrZero(x: Option<real>): real {
    x.GetOr(0.0)
  }

  function Min(a: real, b: real): (r: real)
    ensures r <= a && r <= b && (r == a || r == b)
  {
    if a <= b then a else b
  }

  function Max(a: real, b: real): (r: real)
    ensures r >= a && r >= b && (r == a || r == b)
  {
    if a >= b then a else b
  }

  /** `Math.max(lo, Math.min(hi, x))` */
  function Clamp(x: real, lo: real, hi: real): (r: real)
    requires lo <= hi
    ensures lo <= r <= hi
    ensures lo <= x <= hi ==> r == x
    ensures x < lo ==> r == lo
    ensures x > hi ==> r == hi
  {
    Max(lo, Min(hi, x))
  }

  /** `pct` percent of a non-negative base lies between 0 and the base. */
  lemma PercentWithin(base: real, pct: real)
    ensures base * (pct / 100.0) == (base * pct) / 100.0
    ensures base >= 0.0 && 0.0 <= pct <= 100.0 ==> 0.0 <= base * (pct / 100.0) <= base
    ensures pct == 0.0 ==> base * (pct / 100.0) == 0.0
  {
    if base >= 0.0 && 0.0 <= pct <= 100.0 {
      assert base * (pct / 100.0) <= base * 1.0;
    }
  }

  /** Rounds a non-negative amount to whole cents, a half cent going up. */
  function RoundHalfUpCents(x: real): (r: real)
    requires x >= 0.0
  {
    ((x * 100.0 + 0.5).Floor as real) / 100.0
  }

  /**
   * `Number(x.toFixed(2))` on the exact value: the nearest multiple of 0.01,
   * a tie going away from zero (toFixed rounds the magnitude and keeps the sign).
   */
  function Round2(x: real): real {
    if x >= 0.0 then RoundHalfUpCents(x) else -RoundHalfUpCents(-x)
  }

  /** `k` cents as an amount. */
  function Cents(k: int): real {
    (k as real) / 100.0
  }

  /** A real that is a whole number of cents. */
  ghost predicate IsCents(x: real) {
    exists k: int :: x == Cents(k)
  }

  lemma {:induction false} RoundHalfUpCentsNear(x: real)
    requires x >= 0.0
    ensures 0.0 <= RoundHalfUpCents(x)
    ensures x - 0.005 < RoundHalfUpCents(x) <= x + 0.005
  {
    var n := (x * 100.0 + 0.5).Floor;
    assert (n as real) <= x * 100.0 + 0.5 < (n as real) + 1.0;
  }

  /** Rounding moves an amount by at most half a cent and keeps its sign. */
  lemma {:induction false} Round2Near(x: real)
    ensures x - 0.005 <= Round2(x) <= x + 0.005
    ensures x >= 0.0 ==> Round2(x) >= 0.0
    ensures x <= 0.0 ==> Round2(x) <= 0.0
  {
    if x >= 0.0 {
      RoundHalfUpCentsNear(x);
    } else {
      RoundHalfUpCentsNear(-x);
    }
  }

  /** The result of rounding is a whole number of cents. */
  lemma {:induction false} Round2IsCents(x: real)
    ensures IsCents(Round2(x))
  {
    if x >= 0.0 {
      var n := (x * 100.0 + 0.5).Floor;
      assert Round2(x) == Cents(n);
    } else {
      var n := (-x * 100.0 + 0.5).Floor;
      assert Round2(x) == Cents(-n);
    }
  }

  /** A whole number of cents is left as it is. */
  lemma {:induction false} Round2OfCents(k: int)
    ensures Round2(Cents(k)) == Cents(k)
  {
    var x := Cents(k);
    if k >= 0 {
      assert x * 100.0 + 0.5 == (k as real) + 0.5;
      assert (x * 100.0 + 0.5).Floor == k;
    } else {
      assert -x * 100.0 + 0.5 == ((-k) as real) + 0.5;
      assert (-x * 100.0 + 0.5).Floor == -k;
    }
  }

  /** Rounding twice is rounding once. */
  lemma Round2Idempotent(x: real)
    ensures Round2(Round2(x)) == Round2(x)
  {
    Round2IsCents(x);
    var k: int :| Round2(x) == Cents(k);
    Round2OfCents(k);
  }

  lemma {:induction false} RoundHalfUpCentsMonotone(x: real, y: real)
    requires 0.0 <= x <= y
    ensures RoundHalfUpCents(x) <= RoundHalfUpCents(y)
  {
    var a := x * 100.0 + 0.5;
    var b := y * 100.0 + 0.5;
    assert a <= b;
    assert a.Floor <= b.Floor;
  }

  /** Rounding never reverses the order of two amounts. */
  lemma {:induction false} Round2Monotone(x: real, y: real)
    requires x <= y
    ensures Round2(x) <= Round2(y)
  {
    if 0.0 <= x {
      RoundHalfUpCentsMonotone(x, y);
    } else if y < 0.0 {
      RoundHalfUpCentsMonotone(-y, -x);
    } else {
      Round2Near(x);
      Round2Near(y);
    }
  }

  /** Truncates a non-negative amount to whole cents. */
  function FloorCents(x: real): (r: real)
    requires x >= 0.0
    ensures 0.0 <= r <= x && x - 0.01 < r
    ensures x >= 0.01 ==> r >= 0.01
  {
    var n := (x * 100.0).Floor;
    assert (n as real) <= x * 100.0 < (n as real) + 1.0;
    assert x >= 0.01 ==> n >= 1;
    (n as real) / 100.0
  }
}

=== FILE: NestedPath.dfy ===
/**
 * Updates of a draft form addressed by a dotted field name such as
 * `customer.contact.phone`, over a value model of JavaScript objects.
 *
 * Two implementations live in the order screens: the current
 * `handleDraftChange`, which copies every object along the path with
 * `{ ...x }` and writes the leaf into the last copy, and the older
 * `setNestedValue`, which walks the path in place, creating an empty object
 * wherever the step is missing or falsy.
 */
module NestedPath {
  import opened Common
  import opened Text

  /** A JavaScript value as the draft form holds it. */
  datatype Js = Undefined | Null | Bool(b: bool) | Num(n: real) | Str(s: string) | Obj(fields: map<string, Js>)

  /** JavaScript truthiness (NaN is not a value of this model). */
  predicate Truthy(v: Js) {
    match v
    case Undefined => false
    case Null => false
    case Bool(b) => b
    case Num(n) => n != 0.0
    case Str(s) => |s| > 0
    case Obj(_) => true
  }

  /** A primitive that is truthy: a property cannot be created on it. */
  predicate TruthyPrimitive(v: Js) {
    Truthy(v) && !v.Obj?
  }

  /** `obj[key]` on an object: a missing key reads `undefined`. */
  function Lookup(obj: map<string, Js>, key: string): (v: Js)
    ensures key !in obj ==> v == Undefined
    ensures key in obj ==> v == obj[key]
  {
    if key in obj then obj[key] else Undefined
  }

  /** The value at a path of keys; a step through anything but an object reads `undefined`. */
  function GetPath(obj: map<string, Js>, path: seq<string>): Js
    requires |path| >= 1
    decreases |path|
  {
    var head := Lookup(obj, path[0]);
    if |path| == 1 then head
    else if head.Obj? then GetPath(head.fields, path[1..])
    else Undefined
  }

  /** The keys `{ ...s }` gives a string: one per character, by index. */
  function SpreadString(s: string): map<string, Js>
    decreases |s|
  {
    if |s| == 0 then map[]
    else SpreadString(s[..|s| - 1])[NatToString(|s| - 1) := Str([s[|s| - 1]])]
  }

  /** Index `i` of a spread string holds its `i`-th character. */
  lemma {:induction false} SpreadStringIndexes(s: string)
    ensures forall i :: 0 <= i < |s| ==> NatToString(i) in SpreadString(s) && SpreadString(s)[NatToString(i)] == Str([s[i]])
    decreases |s|
  {
    if |s| > 0 {
      var last := |s| - 1;
      var init := s[..last];
      var key := NatToString(last);
      var m := SpreadString(init);
      var full := m[key := Str([s[last]])];
      assert SpreadString(s) == full;
      SpreadStringIndexes(init);
      forall i | 0 <= i < |s|
        ensures NatToString(i) in full && full[NatToString(i)] == Str([s[i]])
      {
        if i < last {
          NatToStringRoundTrip(i);
          NatToStringRoundTrip(last);
          assert NatToString(i) != key;
          assert init[i] == s[i];
        }
      }
    }
  }

  /** `k` is the decimal index of one of the first `n` characters. */
  ghost predicate IsIndexKey(k: string, n: nat) {
    exists i :: 0 <= i < n && k == NatToString(i)
  }

  /** Every key of a spread string is the index of one of its characters. */
  lemma {:induction false} SpreadStringKeys(s: string)
    ensures forall k :: k in SpreadString(s) ==> IsIndexKey(k, |s|)
    decreases |s|
  {
    if |s| > 0 {
      var last := |s| - 1;
      var m := SpreadString(s[..last]);
      assert SpreadString(s) == m[NatToString(last) := Str([s[last]])];
      SpreadStringKeys(s[..last]);
      forall k | k in SpreadString(s)
        ensures IsIndexKey(k, |s|)
      {
        if k == NatToString(last) {
          assert 0 <= last < |s| && k == NatToString(last);
        } else {
          assert k in m && IsIndexKey(k, last);
          var i :| 0 <= i < last && k == NatToString(i);
          assert 0 <= i < |s| && k == NatToString(i);
        }
      }
    }
  }

  /** `{ ...v }`: the own fields of an object, the characters of a string by index, nothing otherwise. */
  function Spread(v: Js): (m: map<string, Js>)
    ensures v.Obj? ==> m == v.fields
    ensures !v.Obj? && !v.Str? ==> m == map[]
    ensures v.Str? ==> forall i :: 0 <= i < |v.s| ==> NatToString(i) in m && m[NatToString(i)] == Str([v.s[i]])
    ensures v.Str? ==> forall k :: k in m ==> IsIndexKey(k, |v.s|)
  {
    match v
    case Obj(f) => f
    case Str(s) => SpreadStringIndexes(s); SpreadStringKeys(s); SpreadString(s)
    case _ => map[]
  }

  // ------------------------------------------------------ copy along a path

  /**
   * The object `handleDraftChange` builds: every object along the path is a
   * spread copy of the value found there, and the leaf holds `value`.
   */
  function CopyAlong(obj: map<string, Js>, path: seq<string>, value: Js): (r: map<string, Js>)
    requires |path| >= 1
    ensures r.Keys == obj.Keys + {path[0]}
    ensures forall k :: k in obj && k != path[0] ==> r[k] == obj[k]
    ensures |path| == 1 ==> r[path[0]] == value
    ensures |path| >= 2 ==> r[path[0]].Obj?
    decreases |path|
  {
    if |path| == 1 then obj[path[0] := value]
    else obj[path[0] := Obj(CopyAlong(Spread(Lookup(obj, path[0])), path[1..], value))]
  }

  /** Reading the path back after the update gives the value written. */
  lemma {:induction false} CopyAlongReachesLeaf(obj: map<string, Js>, path: seq<string>, value: Js)
    requires |path| >= 1
    ensures GetPath(CopyAlong(obj, path, value), path) == value
    decreases |path|
  {
    if |path| >= 2 {
      CopyAlongReachesLeaf(Spread(Lookup(obj, path[0])), path[1..], value);
    }
  }

  /** Every proper prefix of `path` leads to an object in `obj`. */
  predicate ObjectsAlong(obj: map<string, Js>, path: seq<string>)
    decreases |path|
  {
    |path| <= 1
    || (Lookup(obj, path[0]).Obj? && ObjectsAlong(Lookup(obj, path[0]).fields, path[1..]))
  }

  /**
   * A path that leaves the updated one before its end reads what it read
   * before, as long as the objects along the updated path were objects.
   */
  lemma {:induction false} CopyAlongKeepsSiblings(obj: map<string, Js>, path: seq<string>, value: Js, other: seq<string>, j: nat)
    requires |path| >= 1 && j < |path| && j < |other|
    requires other[..j] == path[..j] && other[j] != path[j]
    requires ObjectsAlong(obj, path)
    ensures GetPath(CopyAlong(obj, path, value), other) == GetPath(obj, other)
    decreases j
  {
    if j > 0 {
      assert other[0] == path[0] by { assert other[..j][0] == path[..j][0]; }
      assert other[1..][..j - 1] == other[..j][1..];
      assert path[1..][..j - 1] == path[..j][1..];
      CopyAlongKeepsSiblings(Lookup(obj, path[0]).fields, path[1..], value, other[1..], j - 1);
    }
  }

  /**
   * The loop of `handleDraftChange` for a dotted name: copy each object
   * along `keys` with `{ ...x }`, then write the leaf into the innermost copy.
   * The copies are nested into each other from the inside out once the leaf
   * is written, which is what the shared references of the loop achieve.
   */
  method UpdateNestedCopy(prev: map<string, Js>, keys: seq<string>, value: Js) returns (updated: map<string, Js>)
    requires |keys| >= 1
    ensures updated == CopyAlong(prev, keys, value)
  {
    var levels: seq<map<string, Js>> := [prev];
    var i := 0;
    while i < |keys| - 1
      invariant 0 <= i <= |keys| - 1
      invariant |levels| == i + 1 && levels[0] == prev
      invariant forall j :: 0 <= j < i ==> levels[j + 1] == Spread(Lookup(levels[j], keys[j]))
    {
      levels := levels + [Spread(Lookup(levels[i], keys[i]))];
      i := i + 1;
    }
    var d := |keys| - 1;
    var current := levels[d][keys[d] := value];
    while d > 0
      invariant 0 <= d <= |keys| - 1
      invariant current == CopyAlong(levels[d], keys[d..], value)
    {
      d := d - 1;
      assert keys[d..][1..] == keys[d + 1..];
      current := levels[d][keys[d] := Obj(current)];
    }
    updated := current;
  }

  // ------------------------------------------------------------ draft change

  /** The target of a change event of the draft form. */
  datatype InputEvent = InputEvent(name: string, value: string, isCheckbox: bool, checked: bool)

  /**
   * `handleDraftChange`: a checkbox stores its state, a company change clears
   * the technician, a dotted name updates the nested field, anything else is
   * a flat field.
   */
  method HandleDraftChange(prev: map<string, Js>, e: InputEvent) returns (next: map<string, Js>)
    ensures e.isCheckbox ==> next == prev[e.name := Bool(e.checked)]
    ensures !e.isCheckbox && e.name == "company" ==> next == prev["company" := Str(e.value)]["technician" := Str("")]
    ensures !e.isCheckbox && e.name != "company" && '.' in e.name ==> next == CopyAlong(prev, Split(e.name, '.'), Str(e.value))
    ensures !e.isCheckbox && e.name != "company" && '.' !in e.name ==> next == prev[e.name := Str(e.value)]
  {
    if e.isCheckbox {
      next := prev[e.name := Bool(e.checked)];
    } else if e.name == "company" {
      next := prev["company" := Str(e.value)]["technician" := Str("")];
    } else if '.' in e.name {
      next := UpdateNestedCopy(prev, Split(e.name, '.'), Str(e.value));
    } else {
      next := prev[e.name := Str(e.value)];
    }
  }

  /**
   * A text change to a dotted field: the field reads the new text, a field
   * on another branch reads what it read, the other top-level fields stay.
   */
  lemma DottedChangeUpdatesOnlyLeaf(prev: map<string, Js>, name: string, text: string, other: seq<string>, j: nat)
    requires '.' in name && name != "company"
    requires var keys := Split(name, '.'); ObjectsAlong(prev, keys) && j < |keys| && j < |other| && other[..j] == keys[..j] && other[j] != keys[j]
    ensures var keys := Split(name, '.');
            var next := CopyAlong(prev, keys, Str(text));
            GetPath(next, keys) == Str(text) && GetPath(next, other) == GetPath(prev, other)
  {
    var keys := Split(name, '.');
    CopyAlongReachesLeaf(prev, keys, Str(text));
    CopyAlongKeepsSiblings(prev, keys, Str(text), other, j);
  }

  /** A company change keeps every field but the company and the technician. */
  lemma CompanyChangeKeepsOthers(prev: map<string, Js>, text: string, k: string)
    requires k in prev && k != "company" && k != "technician"
    ensures var next := prev["company" := Str(text)]["technician" := Str("")];
            next["technician"] == Str("") && next["company"] == Str(text) && next[k] == prev[k]
  {
  }

  // ---------------------------------------------------------- set in place

  /**
   * `setNestedValue`: walk the path, replacing a missing or falsy step by
   * `{}`, then write the leaf. A truthy primitive along the path is `None`:
   * in strict mode, creating a property on it throws a `TypeError`.
   */
  function SetAlong(obj: map<string, Js>, path: seq<string>, value: Js): Option<map<string, Js>>
    requires |path| >= 1
    decreases |path|
  {
    if |path| == 1 then Some(obj[path[0] := value])
    else
      var step := Lookup(obj, path[0]);
      if TruthyPrimitive(step) then None
      else
        var inner := SetAlong(if step.Obj? then step.fields else map[], path[1..], value);
        if inner.None? then None else Some(obj[path[0] := Obj(inner.value)])
  }

  /** The step `setNestedValue`'s `reduce` takes into `key`: the object found there, or a new `{}`. */
  function Descend(obj: map<string, Js>, key: string): map<string, Js> {
    var step := Lookup(obj, key);
    if step.Obj? then step.fields else map[]
  }

  /** Some step of the path, before its leaf, is a truthy primitive. */
  predicate Blocked(obj: map<string, Js>, path: seq<string>)
    decreases |path|
  {
    |path| >= 2
    && (TruthyPrimitive(Lookup(obj, path[0])) || Blocked(Descend(obj, path[0]), path[1..]))
  }

  /** `setNestedValue` throws exactly when a truthy primitive stands in the way. */
  lemma {:induction false} SetAlongFailsIffBlocked(obj: map<string, Js>, path: seq<string>, value: Js)
    requires |path| >= 1
    ensures SetAlong(obj, path, value).None? <==> Blocked(obj, path)
    decreases |path|
  {
    if |path| >= 2 && !TruthyPrimitive(Lookup(obj, path[0])) {
      SetAlongFailsIffBlocked(Descend(obj, path[0]), path[1..], value);
    }
  }

  /**
   * When it does not throw, `setNestedValue` and the copying update of the
   * current screen build the same form: a falsy step and `{ ...falsy }` both
   * become `{}`, and an object is kept or copied with the same fields.
   */
  lemma {:induction false} SetAlongAgreesWithCopy(obj: map<string, Js>, path: seq<string>, value: Js)
    requires |path| >= 1 && !Blocked(obj, path)
    ensures SetAlong(obj, path, value) == Some(CopyAlong(obj, path, value))
    decreases |path|
  {
    if |path| >= 2 {
      var step := Lookup(obj, path[0]);
      assert Spread(step) == Descend(obj, path[0]) by {
        if step.Str? { assert |step.s| == 0; }
      }
      SetAlongAgreesWithCopy(Descend(obj, path[0]), path[1..], value);
    }
  }

  /** After a successful `setNestedValue` the path reads the value written. */
  lemma SetAlongReachesLeaf(obj: map<string, Js>, path: seq<string>, value: Js)
    requires |path| >= 1 && !Blocked(obj, path)
    ensures SetAlong(obj, path, value).Some? && GetPath(SetAlong(obj, path, value).value, path) == value
  {
    SetAlongAgreesWithCopy(obj, path, value);
    CopyAlongReachesLeaf(obj, path, value);
  }

  /** One step of the walk: past a step that is not a truthy primitive, the result is decided one level down. */
  lemma SetAlongStep(obj: map<string, Js>, path: seq<string>, value: Js)
    requires |path| >= 2 && !TruthyPrimitive(Lookup(obj, path[0]))
    ensures var inner := SetAlong(Descend(obj, path[0]), path[1..], value);
            (inner.None? ==> SetAlong(obj, path, value).None?)
            && (inner.Some? ==> SetAlong(obj, path, value) == Some(obj[path[0] := Obj(inner.value)]))
  {
  }

  /**
   * `setNestedValue(obj, path, value)`: split the path on dots, then walk
   * and write.
   */
  method SetNestedValue(obj: map<string, Js>, path: string, value: Js) returns (r: Option<map<string, Js>>)
    ensures r == SetAlong(obj, Split(path, '.'), value)
  {
    r := WalkAndSet(obj, Split(path, '.'), value);
  }

  /**
   * The `reduce` of `setNestedValue` descends into every key but the last,
   * creating `{}` for a missing or falsy step; the last key receives the
   * value. `None` is the `TypeError` of a truthy primitive on the way.
   */
  method WalkAndSet(obj: map<string, Js>, keys: seq<string>, value: Js) returns (r: Option<map<string, Js>>)
    requires |keys| >= 1
    ensures r == SetAlong(obj, keys, value)
  {
    var levels: seq<map<string, Js>> := [obj];
    var i := 0;
    while i < |keys| - 1
      invariant 0 <= i <= |keys| - 1
      invariant |levels| == i + 1 && levels[0] == obj
      invariant forall j :: 0 <= j < i ==> !TruthyPrimitive(Lookup(levels[j], keys[j])) && levels[j + 1] == Descend(levels[j], keys[j])
      invariant SetAlong(levels[i], keys[i..], value).None? ==> SetAlong(obj, keys, value).None?
    {
      if TruthyPrimitive(Lookup(levels[i], keys[i])) {
        return None;
      }
      SetAlongStep(levels[i], keys[i..], value);
      assert keys[i..][1..] == keys[i + 1..];
      levels := levels + [Descend(levels[i], keys[i])];
      i := i + 1;
    }
    var d := |keys| - 1;
    var current := levels[d][keys[d] := value];
    while d > 0
      invariant 0 <= d <= |keys| - 1
      invariant SetAlong(levels[d], keys[d..], value) == Some(current)
    {
      d := d - 1;
      SetAlongStep(levels[d], keys[d..], value);
      assert keys[d..][1..] == keys[d + 1..];
      current := levels[d][keys[d] := Obj(current)];
    }
    assert keys[0..] == keys;
    r := Some(current);
  }
}

=== FILE: OrderActions.dfy ===
/**
 * The rules of the order list screen that decide what a user may do: the
 * actions a grid row offers, the draft-order validator, the complete-order
 * validator and the guarded export of orders by date range.
 */
module OrderActions {
  import opened Common
  import opened Text
  import opened Orders
  import DateRangeExport

  // ------------------------------------------------------------ row actions

  datatype RowAction = View | Edit | Complete | Delete | ApproveDiscount

  /** The buttons of a grid row for an order in `status`, shown to a user whose role is `role`. */
  function RowActions(status: Status, role: string): (actions: set<RowAction>)
    ensures View in actions
    ensures Edit in actions <==> status == Draft
    ensures Complete in actions <==> status == Draft
    ensures Delete in actions <==> status == Draft && role == "admin"
    ensures ApproveDiscount in actions <==> status == PendingApproval
  {
    {View}
    + (if status == Draft then {Edit, Complete} else {})
    + (if status == Draft && role == "admin" then {Delete} else {})
    + (if status == PendingApproval then {ApproveDiscount} else {})
  }

  /** Only a draft can be changed from the grid, and approving a discount is never offered on a draft. */
  lemma RowActionsExclusive(status: Status, role: string)
    ensures var actions := RowActions(status, role);
            (actions * {Edit, Complete, Delete} != {} ==> status == Draft)
            && !(ApproveDiscount in actions && Edit in actions)
  {
  }

  // ---------------------------------------------------------- draft validator

  /** The fields `validateDraft` reads from the draft form (an absent field is `None`). */
  datatype DraftForm = DraftForm(
    tcrNumber: Option<string>,
    company: string,
    technician: string,
    customerName: Option<string>,
    phone: Option<string>,
    pincode: Option<string>)

  /** `!x?.trim()`: absent, or nothing but white space. */
  predicate Blank(x: Option<string>) {
    x.None? || IsBlank(x.value)
  }

  /** A field that must hold exactly `n` digits. */
  predicate DigitsField(x: Option<string>, n: nat) {
    x.Some? && IsDigitString(x.value, n)
  }

  /**
   * The error object `validateDraft` fills: one optional message per key
   * (`TCRNumber`, `company`, `technician`, `customer.name`,
   * `customer.contact.phone`, `customer.address.pincode`).
   */
  datatype DraftErrors = DraftErrors(
    tcrNumber: Option<string>,
    company: Option<string>,
    technician: Option<string>,
    customerName: Option<string>,
    phone: Option<string>,
    pincode: Option<string>)
  {
    /** `Object.keys(errors).length === 0` */
    predicate Empty() {
      tcrNumber.None? && company.None? && technician.None? && customerName.None? && phone.None? && pincode.None?
    }
  }

  const TcrRequired: string := "TCR Number required"
  const CompanyRequired: string := "Company required"
  const TechnicianRequired: string := "Technician required"
  const NameRequired: string := "Name required"
  const PhoneRequired: string := "Primary phone required"
  const PhoneInvalid: string := "Invalid phone number (10 digits required)"
  const PincodeRequired: string := "Pincode required"
  const PincodeInvalid: string := "Invalid pincode (6 digits required)"

  const NoDraftErrors := DraftErrors(None, None, None, None, None, None)

  /**
   * What each key of the error object holds once `validateDraft` has run:
   * one error per failing field; a phone must be 10 digits and a pincode 6,
   * the message telling an absent or empty field from a malformed one (a
   * field of blanks only is malformed, not missing).
   */
  function DraftErrorsFor(f: DraftForm): (e: DraftErrors)
    ensures e.Empty() <==> !Blank(f.tcrNumber) && |f.company| > 0 && |f.technician| > 0 && !Blank(f.customerName)
                           && DigitsField(f.phone, 10) && DigitsField(f.pincode, 6)
    ensures e.tcrNumber.Some? <==> Blank(f.tcrNumber)
    ensures e.company.Some? <==> |f.company| == 0
    ensures e.technician.Some? <==> |f.technician| == 0
    ensures e.customerName.Some? <==> Blank(f.customerName)
    ensures e.phone.Some? <==> !DigitsField(f.phone, 10)
    ensures e.pincode.Some? <==> !DigitsField(f.pincode, 6)
    ensures e.tcrNumber.Some? ==> e.tcrNumber.value == TcrRequired
    ensures e.company.Some? ==> e.company.value == CompanyRequired
    ensures e.technician.Some? ==> e.technician.value == TechnicianRequired
    ensures e.customerName.Some? ==> e.customerName.value == NameRequired
    ensures e.phone.Some? ==>
              e.phone.value == (if f.phone.None? || |f.phone.value| == 0 then PhoneRequired else PhoneInvalid)
    ensures e.pincode.Some? ==>
              e.pincode.value == (if f.pincode.None? || |f.pincode.value| == 0 then PincodeRequired else PincodeInvalid)
  {
    DigitsFieldIsNotBlank(f.phone, 10);
    DigitsFieldIsNotBlank(f.pincode, 6);
    DraftErrors(
      if Blank(f.tcrNumber) then Some(TcrRequired) else None,
      if |f.company| == 0 then Some(CompanyRequired) else None,
      if |f.technician| == 0 then Some(TechnicianRequired) else None,
      if Blank(f.customerName) then Some(NameRequired) else None,
      if DigitsField(f.phone, 10) then None
      else if f.phone.None? || |f.phone.value| == 0 then Some(PhoneRequired) else Some(PhoneInvalid),
      if DigitsField(f.pincode, 6) then None
      else if f.pincode.None? || |f.pincode.value| == 0 then Some(PincodeRequired) else Some(PincodeInvalid))
  }

  /** `validateDraft`: the checks run in `validateDraft`'s order, the format check overwriting the missing-field one. */
  method ValidateDraft(f: DraftForm) returns (errors: DraftErrors, valid: bool)
    ensures errors == DraftErrorsFor(f)
    ensures valid <==> errors.Empty()
  {
    DigitsFieldIsNotBlank(f.phone, 10);
    DigitsFieldIsNotBlank(f.pincode, 6);
    errors := NoDraftErrors;
    if Blank(f.tcrNumber) { errors := errors.(tcrNumber := Some(TcrRequired)); }
    if |f.company| == 0 { errors := errors.(company := Some(CompanyRequired)); }
    if |f.technician| == 0 { errors := errors.(technician := Some(TechnicianRequired)); }
    if Blank(f.customerName) { errors := errors.(customerName := Some(NameRequired)); }
    if Blank(f.phone) { errors := errors.(phone := Some(PhoneRequired)); }
    if Blank(f.pincode) { errors := errors.(pincode := Some(PincodeRequired)); }
    if f.phone.Some? && |f.phone.value| > 0 && !IsDigitString(f.phone.value, 10) {
      errors := errors.(phone := Some(PhoneInvalid));
    }
    if f.pincode.Some? && |f.pincode.value| > 0 && !IsDigitString(f.pincode.value, 6) {
      errors := errors.(pincode := Some(PincodeInvalid));
    }
    valid := errors.Empty();
  }

  /** A field of `n` digits is not blank, and an empty field is. */
  lemma DigitsFieldIsNotBlank(x: Option<string>, n: nat)
    requires n > 0
    ensures DigitsField(x, n) ==> !Blank(x)
    ensures x.Some? && |x.value| == 0 ==> Blank(x)
  {
    if DigitsField(x, n) && Blank(x) {
      BlankIsNotDigits(x.value, n);
    }
  }

  // ------------------------------------------------------- complete validator

  /**
   * The complete-order form of the current screen. `discountPercentage` is
   * the key `validateComplete` reads; no input of the form writes it.
   */
  datatype CompleteForm = CompleteForm(
    miscellaneousCost: Option<real>,
    fittingCost: Option<real>,
    productDiscountPercentage: Option<real>,
    miscDiscountPercentage: Option<real>,
    discountPercentage: Option<real>)

  /** The inputs of the complete-order dialog that `handleCompleteChange` serves. */
  datatype CompleteField = MiscellaneousCostField | FittingCostField | ProductDiscountField | MiscDiscountField

  /** `handleCompleteOpen`: the form starts from the order, the product percentage from `discountPercentage`. */
  function OpenCompleteForm(o: Order): (f: CompleteForm)
    ensures f.productDiscountPercentage == o.discountPercentage
    ensures f.miscDiscountPercentage == o.miscDiscountPercentage
    ensures f.discountPercentage.None?
  {
    CompleteForm(Some(if o.miscellaneousCost.Some? && o.miscellaneousCost.value != 0.0 then o.miscellaneousCost.value else 0.0),
                 None, o.discountPercentage, o.miscDiscountPercentage, None)
  }

  /** `handleCompleteChange`: `{ ...completeForm, [name]: value }`. */
  function ChangeCompleteField(f: CompleteForm, field: CompleteField, value: real): (g: CompleteForm)
    ensures g.discountPercentage == f.discountPercentage
  {
    match field
    case MiscellaneousCostField => f.(miscellaneousCost := Some(value))
    case FittingCostField => f.(fittingCost := Some(value))
    case ProductDiscountField => f.(productDiscountPercentage := Some(value))
    case MiscDiscountField => f.(miscDiscountPercentage := Some(value))
  }

  /** A run of edits to the form, first to last. */
  function ApplyChanges(f: CompleteForm, changes: seq<(CompleteField, real)>): CompleteForm
    decreases |changes|
  {
    if |changes| == 0 then f
    else ApplyChanges(ChangeCompleteField(f, changes[0].0, changes[0].1), changes[1..])
  }

  /** No edit made through the dialog ever sets `discountPercentage`. */
  lemma {:induction false} ChangesKeepDiscountPercentage(f: CompleteForm, changes: seq<(CompleteField, real)>)
    ensures ApplyChanges(f, changes).discountPercentage == f.discountPercentage
    decreases |changes|
  {
    if |changes| > 0 {
      ChangesKeepDiscountPercentage(ChangeCompleteField(f, changes[0].0, changes[0].1), changes[1..]);
    }
  }

  /** A percentage outside [0, 100]; an absent one compares false both ways. */
  predicate OutOfRange(p: Option<real>) {
    p.Some? && (p.value < 0.0 || p.value > 100.0)
  }

  const InvalidPercentage := "Invalid discount percentage"

  /** `validateComplete` as written: it checks only `discountPercentage`. */
  function CompleteErrorsAsWritten(f: CompleteForm): (errors: map<string, string>)
    ensures "discountPercentage" in errors <==> OutOfRange(f.discountPercentage)
    ensures errors.Keys <= {"discountPercentage"}
    ensures forall k :: k in errors ==> errors[k] == InvalidPercentage
  {
    if OutOfRange(f.discountPercentage) then map["discountPercentage" := InvalidPercentage] else map[]
  }

  /** Every form the dialog can reach passes the as-written check, whatever its percentages. */
  lemma AsWrittenAcceptsEveryForm(o: Order, changes: seq<(CompleteField, real)>)
    ensures CompleteErrorsAsWritten(ApplyChanges(OpenCompleteForm(o), changes)) == map[]
  {
    ChangesKeepDiscountPercentage(OpenCompleteForm(o), changes);
  }

  /**
   * `validateComplete` checking the percentages the form actually holds:
   * each of the product and misc percentages must lie in [0, 100].
   */
  function CompleteErrors(f: CompleteForm): (errors: map<string, string>)
    ensures "productDiscountPercentage" in errors <==> OutOfRange(f.productDiscountPercentage)
    ensures "miscDiscountPercentage" in errors <==> OutOfRange(f.miscDiscountPercentage)
    ensures errors.Keys <= {"productDiscountPercentage", "miscDiscountPercentage"}
    ensures forall k :: k in errors ==> errors[k] == InvalidPercentage
  {
    var product := if OutOfRange(f.productDiscountPercentage) then map["productDiscountPercentage" := InvalidPercentage] else map[];
    if OutOfRange(f.miscDiscountPercentage) then product["miscDiscountPercentage" := InvalidPercentage] else product
  }

  /** The corrected check accepts a reachable form exactly when both of its percentages are in range. */
  lemma CompleteErrorsOnReachableForms(o: Order, changes: seq<(CompleteField, real)>)
    ensures var f := ApplyChanges(OpenCompleteForm(o), changes);
            CompleteErrors(f) == map[] <==> !OutOfRange(f.productDiscountPercentage) && !OutOfRange(f.miscDiscountPercentage)
  {
    var f := ApplyChanges(OpenCompleteForm(o), changes);
    if CompleteErrors(f) == map[] {
      assert "productDiscountPercentage" !in CompleteErrors(f);
    }
  }

  /** An order carrying a 150% discount: the as-written check lets it through, the corrected one does not. */
  lemma CompleteOutOfRangeExample()
    ensures var o := Order([], None, None, None, NoDiscount, Some(150.0), None, None, None, None, Draft);
            var f := OpenCompleteForm(o);
            f.productDiscountPercentage == Some(150.0)
            && CompleteErrorsAsWritten(f) == map[]
            && CompleteErrors(f) == map["productDiscountPercentage" := InvalidPercentage]
  {
  }

  // ------------------------------------------------------------------ export

  /** The order screen's own export: the shared date-range rule with the `Orders` prefix. */
  function ExportOrders(start: DateRangeExport.DateField, end: DateRangeExport.DateField): (r: DateRangeExport.ExportOutcome)
    ensures r.Rejected? <==> !DateRangeExport.IsDateRangeValid(start, end)
    ensures r.Requested? ==> r.fileName == "Orders_" + start.text + "_to_" + end.text + ".xlsx"
  {
    DateRangeExport.HandleExport("Orders", start, end)
  }
}

=== FILE: OrderHelper.dfy ===
/**
 * `getFinalAmountAfterDiscount`: the amount an order comes to once its
 * unified discount is applied to the gross subtotal (products, installation,
 * miscellaneous and fitting).
 */
module OrderHelper {
  import opened Common
  import opened Money
  import opened Orders

  /** `Number(item.salePrice ?? item.product?.price) || 0`: the sale price wins whenever it is present. */
  function LinePrice(l: Line): (r: real)
    ensures l.salePrice.Some? ==> r == l.salePrice.value
    ensures l.salePrice.None? && CatalogPrice(l).Some? ==> r == CatalogPrice(l).value
    ensures l.salePrice.None? && CatalogPrice(l).None? ==> r == 0.0
  {
    OrZero(if l.salePrice.Some? then l.salePrice else CatalogPrice(l))
  }

  /** What one line adds to the product total; a missing quantity counts as 0. */
  function LineAmount(l: Line): (r: real)
    ensures l.quantity.None? ==> r == 0.0
    ensures LinePrice(l) >= 0.0 && OrZero(l.quantity) >= 0.0 ==> r >= 0.0
  {
    LinePrice(l) * OrZero(l.quantity)
  }

  /** The `reduce` over the lines, from the first to the last. */
  function ProductTotal(lines: seq<Line>): (r: real)
    ensures (forall i :: 0 <= i < |lines| ==> lines[i].quantity.None?) ==> r == 0.0
    decreases |lines|
  {
    if |lines| == 0 then 0.0
    else ProductTotal(lines[..|lines| - 1]) + LineAmount(lines[|lines| - 1])
  }

  /** The product total of two runs of lines is the sum of their totals. */
  lemma {:induction false} ProductTotalAppend(a: seq<Line>, b: seq<Line>)
    ensures ProductTotal(a + b) == ProductTotal(a) + ProductTotal(b)
    decreases |b|
  {
    if |b| == 0 {
      assert a + b == a;
    } else {
      var b' := b[..|b| - 1];
      assert (a + b)[..|a + b| - 1] == a + b';
      ProductTotalAppend(a, b');
    }
  }

  /** With no negative price or quantity on any line, the product total is not negative. */
  lemma {:induction false} ProductTotalNonNegative(lines: seq<Line>)
    requires forall i :: 0 <= i < |lines| ==> LinePrice(lines[i]) >= 0.0 && OrZero(lines[i].quantity) >= 0.0
    ensures ProductTotal(lines) >= 0.0
    decreases |lines|
  {
    if |lines| > 0 {
      ProductTotalNonNegative(lines[..|lines| - 1]);
      var l := lines[|lines| - 1];
      assert LinePrice(l) * OrZero(l.quantity) >= 0.0;
    }
  }

  /** Products plus installation, miscellaneous and fitting charges, each defaulting to 0. */
  function GrossSubtotal(o: Order): real {
    ProductTotal(o.products) + OrZero(o.installationCharge) + OrZero(o.miscellaneousCost) + OrZero(o.fittingCost)
  }

  /**
   * The discount taken off the gross: a percentage clamped to [0, 100], or an
   * amount capped at the gross; an unrecognised or missing type takes nothing.
   */
  function DiscountAmount(gross: real, d: Discount): (r: real)
    ensures d.NoDiscount? ==> r == 0.0
    ensures d.Percentage? && gross >= 0.0 ==> 0.0 <= r <= gross
    ensures d.Percentage? && OrZero(d.value) >= 100.0 ==> r == gross
    ensures d.Percentage? && OrZero(d.value) <= 0.0 ==> r == 0.0
    ensures d.Percentage? && 0.0 <= OrZero(d.value) <= 100.0 ==> r == gross * (OrZero(d.value) / 100.0)
    ensures d.Amount? ==> r <= gross && (r == gross || r == OrZero(d.value))
    ensures d.Amount? && OrZero(d.value) <= gross ==> r == OrZero(d.value)
  {
    match d
    case NoDiscount => 0.0
    case Percentage(v) =>
      var pct := Clamp(OrZero(v), 0.0, 100.0);
      assert 0.0 <= pct <= 100.0;
      PercentWithin(gross, pct);
      gross * (pct / 100.0)
    case Amount(v) => Min(gross, OrZero(v))
  }

  /** `getFinalAmountAfterDiscount(order)`: 0 for a missing order. */
  function FinalAmount(order: Option<Order>): (r: real)
    ensures order.None? ==> r == 0.0
  {
    match order
    case None => 0.0
    case Some(o) =>
      var gross := GrossSubtotal(o);
      Round2(gross - DiscountAmount(gross, o.discount))
  }

  /** The final amount is a whole number of cents within half a cent of gross minus discount. */
  lemma FinalAmountIsRoundedNet(o: Order)
    ensures var gross := GrossSubtotal(o);
            var net := gross - DiscountAmount(gross, o.discount);
            IsCents(FinalAmount(Some(o))) && net - 0.005 <= FinalAmount(Some(o)) <= net + 0.005
  {
    var gross := GrossSubtotal(o);
    Round2IsCents(gross - DiscountAmount(gross, o.discount));
    Round2Near(gross - DiscountAmount(gross, o.discount));
  }

  /** With no usable discount the final amount is the rounded gross. */
  lemma NoDiscountFinal(o: Order)
    requires o.discount.NoDiscount?
    ensures FinalAmount(Some(o)) == Round2(GrossSubtotal(o))
  {
  }

  /** A percentage discount on a non-negative gross leaves a final amount between 0 and the rounded gross. */
  lemma PercentageFinalBounds(o: Order)
    requires o.discount.Percentage? && GrossSubtotal(o) >= 0.0
    ensures 0.0 <= FinalAmount(Some(o)) <= Round2(GrossSubtotal(o))
  {
    var gross := GrossSubtotal(o);
    var net := gross - DiscountAmount(gross, o.discount);
    Round2Near(net);
    Round2Monotone(net, gross);
  }

  /** An amount discount never drives the final amount below 0, whatever the gross. */
  lemma AmountFinalNonNegative(o: Order)
    requires o.discount.Amount?
    ensures FinalAmount(Some(o)) >= 0.0
  {
    var gross := GrossSubtotal(o);
    Round2Near(gross - DiscountAmount(gross, o.discount));
  }

  /**
   * A negative amount is not clamped: the discount is negative, so the order
   * costs more than its gross.
   */
  lemma NegativeAmountRaisesFinal(o: Order)
    requires o.discount.Amount? && OrZero(o.discount.value) < 0.0
    ensures var gross := GrossSubtotal(o);
            DiscountAmount(gross, o.discount) < 0.0 && gross - DiscountAmount(gross, o.discount) > gross
    ensures FinalAmount(Some(o)) >= Round2(GrossSubtotal(o))
  {
    var gross := GrossSubtotal(o);
    Round2Monotone(gross, gross - DiscountAmount(gross, o.discount));
  }

  /** A product of 100 bought twice, installation 50, 10% off: 225. */
  lemma ScenarioPercentage()
    ensures var o := Order([Line(Some(Product(Some(100.0))), Some(2.0), None)], Some(50.0), None, None,
                           Percentage(Some(10.0)), None, None, None, None, None, Draft);
            GrossSubtotal(o) == 250.0 && DiscountAmount(250.0, o.discount) == 25.0 && FinalAmount(Some(o)) == 225.0
  {
    var o := Order([Line(Some(Product(Some(100.0))), Some(2.0), None)], Some(50.0), None, None,
                   Percentage(Some(10.0)), None, None, None, None, None, Draft);
    assert o.products[..0] == [];
    Round2OfCents(22500);
  }

  /** The same order with a fixed 300 off: the discount is capped at the gross of 250 and nothing is left to pay. */
  lemma ScenarioAmountCapped()
    ensures var o := Order([Line(Some(Product(Some(100.0))), Some(2.0), None)], Some(50.0), None, None,
                           Amount(Some(300.0)), None, None, None, None, None, Draft);
            DiscountAmount(GrossSubtotal(o), o.discount) == 250.0 && FinalAmount(Some(o)) == 0.0
  {
    var o := Order([Line(Some(Product(Some(100.0))), Some(2.0), None)], Some(50.0), None, None,
                   Amount(Some(300.0)), None, None, None, None, None, Draft);
    assert o.products[..0] == [];
    Round2OfCents(0);
  }
}

=== FILE: OrderScreen.dfy ===
/**
 * The arithmetic of the current order list screen: the row total shown in
 * the grid, the two-channel discount of the view and approval dialogs, the
 * per-order `calculateDiscountAmount`, and the owner/technician split state
 * of the approval dialog. Each formula is kept as the screen writes it; they
 * are not reconciled with one another or with the unified helper.
 */
module OrderScreen {
  import opened Common
  import opened Money
  import opened Orders
  import OrderHelper

  /** `(item.product?.price || 0) * (item.quantity || 0)` */
  function GuardedLineAmount(l: Line): (r: real)
    ensures l.quantity.None? || CatalogPrice(l).None? ==> r == 0.0
  {
    OrZero(CatalogPrice(l)) * OrZero(l.quantity)
  }

  /** The `reduce` of the grid and the view dialog, every field guarded. */
  function GuardedProductTotal(lines: seq<Line>): (r: real)
    ensures (forall i :: 0 <= i < |lines| ==> lines[i].quantity.None? || CatalogPrice(lines[i]).None?) ==> r == 0.0
    decreases |lines|
  {
    if |lines| == 0 then 0.0
    else GuardedProductTotal(lines[..|lines| - 1]) + GuardedLineAmount(lines[|lines| - 1])
  }

  /** On lines without a sale price the helper's product total is the screens' guarded total. */
  lemma {:induction false} HelperTotalWithoutSalePrice(lines: seq<Line>)
    requires forall i :: 0 <= i < |lines| ==> lines[i].salePrice.None?
    ensures OrderHelper.ProductTotal(lines) == GuardedProductTotal(lines)
    decreases |lines|
  {
    if |lines| > 0 {
      HelperTotalWithoutSalePrice(lines[..|lines| - 1]);
    }
  }

  // ---------------------------------------------------------------- row total

  /** Products, installation and miscellaneous cost; fitting is not part of it. */
  function RowSubtotal(o: Order): real {
    GuardedProductTotal(o.products) + OrZero(o.installationCharge) + OrZero(o.miscellaneousCost)
  }

  /** The `totalAmount` of a grid row: the subtotal less `discountPercentage` percent of it. */
  function RowTotal(o: Order): (r: real)
    ensures OrZero(o.discountPercentage) == 0.0 ==> r == RowSubtotal(o)
    ensures OrZero(o.discountPercentage) == 100.0 ==> r == 0.0
    ensures RowSubtotal(o) >= 0.0 && 0.0 <= OrZero(o.discountPercentage) <= 100.0 ==> 0.0 <= r <= RowSubtotal(o)
  {
    var subtotal := RowSubtotal(o);
    var pct := OrZero(o.discountPercentage);
    PercentWithin(subtotal, pct);
    subtotal - (subtotal * pct) / 100.0
  }

  /**
   * Where the helper and the grid can be compared (no sale prices, no fitting
   * cost, the helper's discount a percentage equal to `discountPercentage` in
   * [0, 100]) the helper's amount is the grid total rounded to cents.
   */
  lemma HelperAgreesWithRowTotal(o: Order)
    requires forall i :: 0 <= i < |o.products| ==> o.products[i].salePrice.None?
    requires OrZero(o.fittingCost) == 0.0
    requires o.discount == Percentage(o.discountPercentage) && 0.0 <= OrZero(o.discountPercentage) <= 100.0
    ensures OrderHelper.FinalAmount(Some(o)) == Round2(RowTotal(o))
  {
    HelperTotalWithoutSalePrice(o.products);
    var gross := OrderHelper.GrossSubtotal(o);
    assert gross == RowSubtotal(o);
    var pct := OrZero(o.discountPercentage);
    var discount := OrderHelper.DiscountAmount(gross, o.discount);
    assert discount == gross * (pct / 100.0);
    PercentWithin(gross, pct);
    assert RowTotal(o) == gross - (gross * pct) / 100.0;
    assert gross - discount == RowTotal(o);
    assert OrderHelper.FinalAmount(Some(o)) == Round2(gross - discount);
  }

  // ------------------------------------------------------- calculateDiscountAmount

  /**
   * `order.products.reduce((sum, item) => sum + (item.product?.price || 0) * item.quantity, 0)`:
   * the quantity is not guarded, so a line without one makes the total NaN (`None`).
   */
  function QuantityUnguardedTotal(lines: seq<Line>): (r: Option<real>)
    decreases |lines|
  {
    if |lines| == 0 then Some(0.0)
    else
      var last := lines[|lines| - 1];
      match QuantityUnguardedTotal(lines[..|lines| - 1])
      case None => None
      case Some(sum) =>
        if last.quantity.None? then None
        else Some(sum + OrZero(CatalogPrice(last)) * last.quantity.value)
  }

  /** The unguarded total is a number exactly when every line has a quantity, and then it is the guarded total. */
  lemma {:induction false} QuantityUnguardedTotalIsGuarded(lines: seq<Line>)
    ensures QuantityUnguardedTotal(lines).Some? <==> forall i :: 0 <= i < |lines| ==> lines[i].quantity.Some?
    ensures QuantityUnguardedTotal(lines).Some? ==> QuantityUnguardedTotal(lines).value == GuardedProductTotal(lines)
    decreases |lines|
  {
    if |lines| > 0 {
      var init := lines[..|lines| - 1];
      QuantityUnguardedTotalIsGuarded(init);
      assert forall i :: 0 <= i < |init| ==> init[i] == lines[i];
    }
  }

  /** The two discounts `calculateDiscountAmount` returns; `None` stands for NaN. */
  datatype DiscountPair = DiscountPair(product: Option<real>, misc: real)

  /**
   * `calculateDiscountAmount`: `productDiscountPercentage` percent of the
   * product total (installation is not in this base) and
   * `miscDiscountPercentage` percent of the miscellaneous cost.
   */
  function CalculateDiscountAmount(order: Option<Order>): (r: DiscountPair)
    ensures order.None? ==> r == DiscountPair(Some(0.0), 0.0)
    ensures order.Some? ==> (r.product.Some? <==> forall i :: 0 <= i < |order.value.products| ==> order.value.products[i].quantity.Some?)
    ensures order.Some? && r.product.Some? ==>
              r.product.value == GuardedProductTotal(order.value.products) * (OrZero(order.value.productDiscountPercentage) / 100.0)
    ensures order.Some? ==> r.misc == OrZero(order.value.miscellaneousCost) * (OrZero(order.value.miscDiscountPercentage) / 100.0)
  {
    match order
    case None => DiscountPair(Some(0.0), 0.0)
    case Some(o) =>
      QuantityUnguardedTotalIsGuarded(o.products);
      var total := QuantityUnguardedTotal(o.products);
      var product := if total.None? then None else Some(total.value * (OrZero(o.productDiscountPercentage) / 100.0));
      DiscountPair(product, OrZero(o.miscellaneousCost) * (OrZero(o.miscDiscountPercentage) / 100.0))
  }

  // ------------------------------------------------------------- view dialog

  /** `split?.technicianPercentage || 0` */
  function TechnicianPercentage(split: Option<Split>): real {
    match split
    case None => 0.0
    case Some(s) => s.technicianPercentage
  }

  /** The technician's part of a discount under a stored split; a missing split gives the technician nothing. */
  function TechnicianShare(discount: real, split: Option<Split>): (r: real)
    ensures split.None? ==> r == 0.0
    ensures discount >= 0.0 && 0.0 <= TechnicianPercentage(split) <= 100.0 ==> 0.0 <= r <= discount
  {
    var pct := TechnicianPercentage(split);
    PercentWithin(discount, pct);
    discount * (pct / 100.0)
  }

  /** One discount channel of the view dialog: its base, the discount taken and the technician's part of it. */
  datatype Channel = Channel(base: real, discount: real, technicianShare: real)

  /** `base * ((pct || 0) / 100)` and the technician's part of it under `split`. */
  function DiscountChannel(base: real, pct: Option<real>, split: Option<Split>): (c: Channel)
    ensures c.base == base
    ensures OrZero(pct) == 0.0 ==> c.discount == 0.0 && c.technicianShare == 0.0
    ensures split.None? ==> c.technicianShare == 0.0
    ensures base >= 0.0 && 0.0 <= OrZero(pct) <= 100.0 ==> 0.0 <= c.discount <= base
    ensures base >= 0.0 && 0.0 <= OrZero(pct) <= 100.0 && 0.0 <= TechnicianPercentage(split) <= 100.0
            ==> 0.0 <= c.technicianShare <= c.discount
  {
    PercentWithin(base, OrZero(pct));
    var discount := base * (OrZero(pct) / 100.0);
    Channel(base, discount, TechnicianShare(discount, split))
  }

  /** The two channels of the view dialog. */
  datatype ViewFigures = ViewFigures(product: Channel, misc: Channel)

  /**
   * `renderViewModal`: the product channel's base is products plus
   * installation, the misc channel's base is the miscellaneous cost alone,
   * and fitting is in neither.
   */
  function ViewDialogFigures(o: Order): (v: ViewFigures)
    ensures v.product.base == GuardedProductTotal(o.products) + OrZero(o.installationCharge)
    ensures v.misc.base == OrZero(o.miscellaneousCost)
    ensures v.product.discount == v.product.base * (OrZero(o.discountPercentage) / 100.0)
    ensures v.misc.discount == v.misc.base * (OrZero(o.miscDiscountPercentage) / 100.0)
  {
    ViewFigures(
      DiscountChannel(GuardedProductTotal(o.products) + OrZero(o.installationCharge), o.discountPercentage, o.discountSplit),
      DiscountChannel(OrZero(o.miscellaneousCost), o.miscDiscountPercentage, o.miscDiscountSplit))
  }

  /**
   * The grid takes one discount off products, installation and misc; the view
   * dialog takes two. When both dialog percentages equal the grid's, the grid
   * total is the subtotal less the two dialog discounts.
   */
  lemma RowTotalSplitsIntoChannels(o: Order)
    requires OrZero(o.miscDiscountPercentage) == OrZero(o.discountPercentage)
    ensures var v := ViewDialogFigures(o);
            RowTotal(o) == RowSubtotal(o) - (v.product.discount + v.misc.discount)
  {
    var pt := GuardedProductTotal(o.products);
    var inst := OrZero(o.installationCharge);
    var misc := OrZero(o.miscellaneousCost);
    var pct := OrZero(o.discountPercentage);
    assert (pt + inst + misc) * pct / 100.0 == (pt + inst) * (pct / 100.0) + misc * (pct / 100.0);
  }

  /** The product channel of `calculateDiscountAmount` leaves installation out; the view dialog's does not. */
  lemma CalculateDiscountOmitsInstallation(o: Order)
    requires forall i :: 0 <= i < |o.products| ==> o.products[i].quantity.Some?
    requires OrZero(o.productDiscountPercentage) == OrZero(o.discountPercentage)
    ensures var d := CalculateDiscountAmount(Some(o));
            d.product.Some?
            && ViewDialogFigures(o).product.discount - d.product.value == OrZero(o.installationCharge) * (OrZero(o.discountPercentage) / 100.0)
            && d.misc == ViewDialogFigures(o).misc.discount
  {
    QuantityUnguardedTotalIsGuarded(o.products);
  }

  // --------------------------------------------------------- approval dialog

  /**
   * `item.product.price * item.quantity`, nothing guarded: a line without a
   * product throws, one without a price or quantity gives NaN (`None` either way).
   */
  function StrictProductTotal(lines: seq<Line>): (r: Option<real>)
    decreases |lines|
  {
    if |lines| == 0 then Some(0.0)
    else
      var last := lines[|lines| - 1];
      match StrictProductTotal(lines[..|lines| - 1])
      case None => None
      case Some(sum) =>
        match last.product
        case None => None
        case Some(p) =>
          if p.price.None? || last.quantity.None? then None
          else Some(sum + p.price.value * last.quantity.value)
  }

  /** Every field the approval dialog multiplies is present. */
  predicate CompleteLine(l: Line) {
    l.product.Some? && l.product.value.price.Some? && l.quantity.Some?
  }

  /** The strict total is a number exactly when every line is complete, and then it is the guarded total. */
  lemma {:induction false} StrictProductTotalIsGuarded(lines: seq<Line>)
    ensures StrictProductTotal(lines).Some? <==> forall i :: 0 <= i < |lines| ==> CompleteLine(lines[i])
    ensures StrictProductTotal(lines).Some? ==> StrictProductTotal(lines).value == GuardedProductTotal(lines)
    decreases |lines|
  {
    if |lines| > 0 {
      var init := lines[..|lines| - 1];
      StrictProductTotalIsGuarded(init);
      assert forall i :: 0 <= i < |init| ==> init[i] == lines[i];
    }
  }

  /** The owner-only split: `{ ownerPercentage: 100, technicianPercentage: 0 }`. */
  function DefaultSplit(): (s: Split)
    ensures s.ownerPercentage + s.technicianPercentage == 100.0 && s.technicianPercentage == 0.0
  {
    Split(100.0, 0.0)
  }

  /** `order.discountSplit || { ownerPercentage: 100, technicianPercentage: 0 }` */
  function StoredSplit(split: Option<Split>): (s: Split)
    ensures split.None? ==> s == DefaultSplit()
    ensures split.Some? ==> s == split.value
  {
    split.GetOr(DefaultSplit())
  }

  /** Every line names a product, so the approval dialog's `item.product.price` does not throw. */
  predicate EveryLineHasProduct(lines: seq<Line>) {
    forall i :: 0 <= i < |lines| ==> lines[i].product.Some?
  }

  /**
   * What the approval dialog shows. The product base and the product discount
   * are `None` where the product total is NaN; the misc figures and the
   * splits never depend on it.
   */
  datatype ApprovalFigures = ApprovalFigures(
    productBase: Option<real>, miscBase: real,
    productDiscount: Option<real>, miscDiscount: real,
    productSplit: Split, miscSplit: Split)

  /** `(base * percentage) / 100`, the approval dialog's discount formula. */
  function ApprovalDiscount(base: real, pct: real): (d: real)
    ensures d == base * (pct / 100.0)
  {
    (base * pct) / 100.0
  }

  /**
   * `renderDiscountModal`'s figures. A line without a product makes the
   * `reduce` throw, and nothing is shown (`None`); a line lacking only a price
   * or a quantity makes the product total NaN, which reaches the product base
   * and the product discount and nothing else.
   */
  function ApprovalDialogFigures(o: Order): (r: Option<ApprovalFigures>)
    ensures r.Some? <==> EveryLineHasProduct(o.products)
    ensures r.Some? ==> r.value.miscBase == OrZero(o.miscellaneousCost)
                        && r.value.productSplit == StoredSplit(o.discountSplit)
                        && r.value.miscSplit == StoredSplit(o.miscDiscountSplit)
    ensures r.Some? ==> (r.value.productBase.Some? <==> r.value.productDiscount.Some?)
  {
    if !EveryLineHasProduct(o.products) then None
    else
      var miscBase := OrZero(o.miscellaneousCost);
      var miscDiscount := ApprovalDiscount(miscBase, OrZero(o.miscDiscountPercentage));
      var productSplit := StoredSplit(o.discountSplit);
      var miscSplit := StoredSplit(o.miscDiscountSplit);
      match StrictProductTotal(o.products)
      case None => Some(ApprovalFigures(None, miscBase, None, miscDiscount, productSplit, miscSplit))
      case Some(productsTotal) =>
        var productBase := productsTotal + OrZero(o.installationCharge);
        Some(ApprovalFigures(Some(productBase), miscBase,
                             Some(ApprovalDiscount(productBase, OrZero(o.discountPercentage))), miscDiscount,
                             productSplit, miscSplit))
  }

  /**
   * Unless a line lacks its product, the approval dialog shows the view
   * dialog's misc base, misc discount and the stored splits; it shows product
   * figures exactly when every line is complete, and then the view dialog's.
   */
  lemma ApprovalAgreesWithView(o: Order)
    requires EveryLineHasProduct(o.products)
    ensures var a := ApprovalDialogFigures(o).value;
            var v := ViewDialogFigures(o);
            a.miscBase == v.misc.base && a.miscDiscount == v.misc.discount
            && a.productSplit == StoredSplit(o.discountSplit) && a.miscSplit == StoredSplit(o.miscDiscountSplit)
    ensures var a := ApprovalDialogFigures(o).value;
            a.productDiscount.Some? <==> forall i :: 0 <= i < |o.products| ==> CompleteLine(o.products[i])
    ensures var a := ApprovalDialogFigures(o).value;
            var v := ViewDialogFigures(o);
            a.productDiscount.Some? ==> a.productBase == Some(v.product.base) && a.productDiscount.value == v.product.discount
  {
    StrictProductTotalIsGuarded(o.products);
  }

  /** A line with a product but no quantity leaves the misc figures of the approval dialog in place. */
  lemma MissingQuantityKeepsMiscFigures()
    ensures var o := Order([Line(Some(Product(Some(100.0))), None, None)], None, Some(200.0), None,
                           NoDiscount, None, None, Some(10.0), None, None, PendingApproval);
            var a := ApprovalDialogFigures(o);
            a.Some? && a.value.miscDiscount == 20.0 && a.value.productDiscount.None?
  {
  }

  /** Fitting cost never enters a discount base or the row total of the order screen. */
  lemma FittingNeverInScreenBases(o: Order, fitting: Option<real>)
    ensures var o' := o.(fittingCost := fitting);
            RowTotal(o') == RowTotal(o)
            && CalculateDiscountAmount(Some(o')) == CalculateDiscountAmount(Some(o))
            && ViewDialogFigures(o') == ViewDialogFigures(o)
            && ApprovalDialogFigures(o') == ApprovalDialogFigures(o)
  {
    FittingNotInCalculateDiscount(o, fitting);
    FittingNotInApprovalFigures(o, fitting);
  }

  /** The fitting cost does not enter `calculateDiscountAmount`. */
  lemma FittingNotInCalculateDiscount(o: Order, fitting: Option<real>)
    ensures CalculateDiscountAmount(Some(o.(fittingCost := fitting))) == CalculateDiscountAmount(Some(o))
  {
    var c', c := CalculateDiscountAmount(Some(o.(fittingCost := fitting))), CalculateDiscountAmount(Some(o));
    assert c'.product.Some? == c.product.Some?;
    assert c'.product.Some? ==> c'.product.value == c.product.value;
  }

  /** The fitting cost does not enter the approval dialog's figures. */
  lemma FittingNotInApprovalFigures(o: Order, fitting: Option<real>)
    ensures ApprovalDialogFigures(o.(fittingCost := fitting)) == ApprovalDialogFigures(o)
  {
    var a', a := ApprovalDialogFigures(o.(fittingCost := fitting)), ApprovalDialogFigures(o);
    assert a'.Some? == a.Some?;
    assert a'.Some? ==> a'.value == a.value;
  }

  /** `{ owner: Number(val), technician: 100 - Number(val) }` from a slider position. */
  function SliderSplit(owner: real): (s: Split)
    ensures s.ownerPercentage == owner && s.ownerPercentage + s.technicianPercentage == 100.0
    ensures 0.0 <= owner <= 100.0 ==> 0.0 <= s.technicianPercentage <= 100.0
  {
    Split(owner, 100.0 - owner)
  }

  /** A split the dialog can hold: the two parts add up to 100 and each lies in [0, 100]. */
  predicate WholeSplit(s: Split) {
    s.ownerPercentage + s.technicianPercentage == 100.0 && 0.0 <= s.ownerPercentage <= 100.0
  }

  /** Under a whole split the owner's and the technician's parts of a discount add up to the discount. */
  lemma WholeSplitSharesDiscount(discount: real, s: Split)
    requires WholeSplit(s)
    ensures discount * (s.ownerPercentage / 100.0) + TechnicianShare(discount, Some(s)) == discount
  {
    assert s.ownerPercentage / 100.0 + s.technicianPercentage / 100.0 == 1.0;
    assert discount * (s.ownerPercentage / 100.0) + discount * (s.technicianPercentage / 100.0)
        == discount * (s.ownerPercentage / 100.0 + s.technicianPercentage / 100.0);
  }

  /** A position of the split slider: `min={0} max={100} step={5}`. */
  predicate SliderPosition(val: int) {
    0 <= val <= 100 && val % 5 == 0
  }

  /**
   * The approval dialog's state: the order being approved and the two splits
   * that `handleApproveDiscount` sends as `productSplit` and `miscSplit`.
   */
  class ApprovalDialog {
    var selected: Option<Order>
    var productSplit: Split
    var miscSplit: Split
    var open: bool

    ghost predicate Valid()
      reads this
    {
      WholeSplit(productSplit) && WholeSplit(miscSplit)
    }

    /** The initial `useState` values: both splits owner-only, nothing selected. */
    constructor ()
      ensures Valid()
      ensures selected == None && !open
      ensures productSplit == DefaultSplit() && miscSplit == DefaultSplit()
    {
      selected := None;
      productSplit := DefaultSplit();
      miscSplit := DefaultSplit();
      open := false;
    }

    /** `handleDiscountOpen`: select the order and reset both splits to owner-only. */
    method Open(o: Order)
      modifies this
      ensures Valid()
      ensures selected == Some(o) && open
      ensures productSplit == DefaultSplit() && miscSplit == DefaultSplit()
    {
      selected := Some(o);
      productSplit := DefaultSplit();
      miscSplit := DefaultSplit();
      open := true;
    }

    /** Moving the product slider sets the product split only. */
    method SlideProduct(val: int)
      requires Valid() && SliderPosition(val)
      modifies this
      ensures Valid()
      ensures productSplit == SliderSplit(val as real)
      ensures miscSplit == old(miscSplit) && selected == old(selected) && open == old(open)
    {
      productSplit := SliderSplit(val as real);
    }

    /** Moving the misc slider sets the misc split only. */
    method SlideMisc(val: int)
      requires Valid() && SliderPosition(val)
      modifies this
      ensures Valid()
      ensures miscSplit == SliderSplit(val as real)
      ensures productSplit == old(productSplit) && selected == old(selected) && open == old(open)
    {
      miscSplit := SliderSplit(val as real);
    }

    /** The body of the approval request: both splits add up to 100. */
    function Payload(): (r: (Split, Split))
      reads this
      requires Valid()
      ensures WholeSplit(r.0) && WholeSplit(r.1)
      ensures r.0.technicianPercentage == 100.0 - r.0.ownerPercentage
      ensures r.1.technicianPercentage == 100.0 - r.1.ownerPercentage
    {
      (productSplit, miscSplit)
    }
  }
}

=== FILE: Orders.dfy ===
/**
 * The order record as the order screens receive it from the server, with
 * every optional field explicit. A field a screen reads through
 * `x || 0` or `Number(x) || 0` is an `Option<real>`.
 */
module Orders {
  import opened Common

  /** The catalog product an order line points to (`item.product`). */
  datatype Product = Product(price: Option<real>)

  /** One order line: the product, the quantity and an optional sale price. */
  datatype Line = Line(product: Option<Product>, quantity: Option<real>, salePrice: Option<real>)

  /** The unified discount of the helper: `{ type: "percentage" | "amount", value }`; any other or missing type is `NoDiscount`. */
  datatype Discount = NoDiscount | Percentage(value: Option<real>) | Amount(value: Option<real>)

  /** A stored owner/technician split of a discount. */
  datatype Split = Split(ownerPercentage: real, technicianPercentage: real)

  datatype Status = Draft | PendingApproval | Approved | Completed | Rejected

  datatype Order = Order(
    products: seq<Line>,
    installationCharge: Option<real>,
    miscellaneousCost: Option<real>,
    fittingCost: Option<real>,
    discount: Discount,
    discountPercentage: Option<real>,
    productDiscountPercentage: Option<real>,
    miscDiscountPercentage: Option<real>,
    discountSplit: Option<Split>,
    miscDiscountSplit: Option<Split>,
    status: Status)

  /** `item.product?.price` */
  function CatalogPrice(l: Line): Option<real> {
    match l.product
    case Some(p) => p.price
    case None => None
  }
}

=== FILE: Payments.dfy ===
/**
 * The payment screen: recording a payment against a technician's
 * outstanding balance. The dialog's form, its prefill from the balance, the
 * validator, the enable rule of the row button and the date column.
 */
module Payments {
  import opened Common
  import opened Text
  import opened Money

  /** A technician as the screen sees it: the balances list and the dropdown list share the id. */
  datatype Technician = Technician(id: string, outstandingBalance: Option<real>)

  /**
   * The amount field: the empty text of a fresh form, `undefined` (a
   * technician without a balance), a text that is not a number (`'NaN'`)
   * or a number.
   */
  datatype Amount = EmptyText | Missing | NotANumber | Entered(value: real)

  /** The dialog's `formData`; `paymentMethod` holds the value kept under the key `method`, a word Dafny reserves. */
  datatype PaymentForm = PaymentForm(technicianId: string, amount: Amount, paymentMethod: string, reference: string, notes: string)

  /** The form of a payment with nobody selected. */
  const BlankForm := PaymentForm("", EmptyText, "bank_transfer", "", "")

  const TechnicianRequired: string := "Technician is required"
  const ValidAmountRequired: string := "Valid amount is required"
  const AmountExceeds: string := "Amount exceeds outstanding balance"
  const MethodRequired: string := "Payment method is required"

  /** The balance of the technician the check compares against, when there is one and it has a balance. */
  function Balance(technician: Option<Technician>): Option<real> {
    if technician.Some? then technician.value.outstandingBalance else None
  }

  /** `!amount || amount <= 0`: empty, `undefined`, or a number that is not positive. */
  predicate AmountMissing(a: Amount) {
    a.EmptyText? || a.Missing? || (a.Entered? && a.value <= 0.0)
  }

  /** `amount > outstandingBalance`, the empty text reading as 0 and `undefined` or NaN comparing false. */
  predicate ExceedsBalance(a: Amount, balance: Option<real>) {
    balance.Some? && ((a.EmptyText? && 0.0 > balance.value) || (a.Entered? && a.value > balance.value))
  }

  /** The error object of `validateForm`: one optional message per key. */
  datatype PaymentErrors = PaymentErrors(technicianId: Option<string>, amount: Option<string>, paymentMethod: Option<string>)
  {
    predicate Empty() {
      technicianId.None? && amount.None? && paymentMethod.None?
    }
  }

  const NoPaymentErrors := PaymentErrors(None, None, None)

  /**
   * The errors `validateForm` leaves for a form checked against
   * `technician`: a technician and a method are required, and an amount
   * must be a positive number no larger than a known balance; exceeding the
   * balance is reported over a missing amount.
   */
  function PaymentErrorsFor(f: PaymentForm, technician: Option<Technician>): (e: PaymentErrors)
    ensures e.technicianId.Some? <==> |f.technicianId| == 0
    ensures e.paymentMethod.Some? <==> |f.paymentMethod| == 0
    ensures e.amount.None? <==>
              (f.amount.NotANumber? || f.amount.Entered?)
              && (f.amount.Entered? ==> 0.0 < f.amount.value
                                        && (Balance(technician).Some? ==> f.amount.value <= Balance(technician).value))
    ensures e.technicianId.Some? ==> e.technicianId.value == TechnicianRequired
    ensures e.paymentMethod.Some? ==> e.paymentMethod.value == MethodRequired
    ensures e.amount.Some? ==> e.amount.value == (if ExceedsBalance(f.amount, Balance(technician)) then AmountExceeds else ValidAmountRequired)
  {
    PaymentErrors(
      if |f.technicianId| == 0 then Some(TechnicianRequired) else None,
      if ExceedsBalance(f.amount, Balance(technician)) then Some(AmountExceeds)
      else if AmountMissing(f.amount) then Some(ValidAmountRequired)
      else None,
      if |f.paymentMethod| == 0 then Some(MethodRequired) else None)
  }

  /** `selectedTechnician || technicians.find(t => t._id === formData.technicianId)` */
  function KnownTechnician(selected: Option<Technician>, technicians: seq<Technician>, id: string): (t: Option<Technician>)
    ensures selected.Some? ==> t == selected
    ensures selected.None? && t.Some? ==> t.value.id == id && t.value in technicians
    ensures selected.None? && t.None? ==> forall i :: 0 <= i < |technicians| ==> technicians[i].id != id
  {
    if selected.Some? then selected else FindFirst(technicians, (t: Technician) => t.id == id)
  }

  /** `validateForm`: the checks in `validateForm`'s order, the balance check overwriting the amount message. */
  method ValidatePayment(f: PaymentForm, selected: Option<Technician>, technicians: seq<Technician>)
    returns (errors: PaymentErrors, valid: bool)
    ensures errors == PaymentErrorsFor(f, KnownTechnician(selected, technicians, f.technicianId))
    ensures valid <==> errors.Empty()
  {
    errors := NoPaymentErrors;
    if |f.technicianId| == 0 {
      errors := errors.(technicianId := Some(TechnicianRequired));
    }
    if AmountMissing(f.amount) {
      errors := errors.(amount := Some(ValidAmountRequired));
    }
    var technician := KnownTechnician(selected, technicians, f.technicianId);
    if technician.Some? && ExceedsBalance(f.amount, technician.value.outstandingBalance) {
      errors := errors.(amount := Some(AmountExceeds));
    }
    if |f.paymentMethod| == 0 {
      errors := errors.(paymentMethod := Some(MethodRequired));
    }
    valid := errors.Empty();
  }

  /** A numeric amount the check accepts against a technician with a balance is positive and within it. */
  lemma AcceptedAmountWithinBalance(f: PaymentForm, technician: Technician)
    requires PaymentErrorsFor(f, Some(technician)).Empty()
    requires technician.outstandingBalance.Some? && f.amount.Entered?
    ensures 0.0 < f.amount.value <= technician.outstandingBalance.value
    ensures |f.technicianId| > 0 && |f.paymentMethod| > 0
  {
  }

  // ------------------------------------------------------------ the prefill

  /**
   * `handlePaymentOpen`: a technician's row prefills its id and its balance
   * as `Math.min(b, b).toFixed(2)`; no technician gives the blank form. A
   * technician without a balance spells `'NaN'`.
   */
  function OpenForm(technician: Option<Technician>): (f: PaymentForm)
    ensures technician.None? ==> f == BlankForm
    ensures technician.Some? ==> f.technicianId == technician.value.id && f.paymentMethod == "bank_transfer"
    ensures technician.Some? && technician.value.outstandingBalance.None? ==> f.amount == NotANumber
    ensures technician.Some? && technician.value.outstandingBalance.Some? ==>
              var b := technician.value.outstandingBalance.value;
              f.amount == Entered(Round2(b)) && b - 0.005 <= f.amount.value <= b + 0.005
  {
    match technician
    case None => BlankForm
    case Some(t) => PaymentForm(t.id, PrefillAmount(t.outstandingBalance), "bank_transfer", "", "")
  }

  /** `Math.min(b, b).toFixed(2)`, read back as a number by the comparisons of the check. */
  function PrefillAmount(balance: Option<real>): (a: Amount)
    ensures balance.None? ==> a == NotANumber
    ensures balance.Some? ==> a == Entered(Round2(balance.value)) && balance.value - 0.005 <= a.value <= balance.value + 0.005
  {
    if balance.None? then NotANumber
    else
      var b := balance.value;
      Round2Near(b);
      Entered(Round2(Min(b, b)))
  }

  /** The prefilled form is rejected for its amount exactly when rounding moved the balance up. */
  lemma PrefillExceedsIffRoundedUp(t: Technician)
    requires t.outstandingBalance.Some? && t.outstandingBalance.value >= 0.005
    ensures var b := t.outstandingBalance.value;
            PaymentErrorsFor(OpenForm(Some(t)), Some(t)).amount == Some(AmountExceeds) <==> Round2(b) > b
  {
    var b := t.outstandingBalance.value;
    Round2Near(b);
    Round2Monotone(0.005, b);
    assert Round2(0.005) == 0.01 by {
      assert (0.005 * 100.0 + 0.5).Floor == 1;
    }
  }

  /** A balance of 10.125 prefills 10.13, which the same dialog then refuses as exceeding the balance. */
  lemma PrefillRejectsOwnBalance()
    ensures var t := Technician("t1", Some(10.125));
            OpenForm(Some(t)).amount == Entered(10.13)
            && PaymentErrorsFor(OpenForm(Some(t)), Some(t)).amount == Some(AmountExceeds)
  {
    assert (10.125 * 100.0 + 0.5).Floor == 1013;
  }

  /** The prefill truncated to whole cents instead of rounded: never above the balance. */
  function OpenFormCorrected(technician: Option<Technician>): (f: PaymentForm)
    ensures technician.None? ==> f == BlankForm
    ensures technician.Some? ==> f.technicianId == technician.value.id && f.paymentMethod == "bank_transfer"
    ensures technician.Some? && technician.value.outstandingBalance.Some? && technician.value.outstandingBalance.value >= 0.0 ==>
              f.amount.Entered? && f.amount.value <= technician.value.outstandingBalance.value
              && technician.value.outstandingBalance.value - 0.01 < f.amount.value
  {
    match technician
    case None => BlankForm
    case Some(t) =>
      var amount :=
        if t.outstandingBalance.None? then NotANumber
        else if t.outstandingBalance.value >= 0.0 then Entered(FloorCents(t.outstandingBalance.value))
        else Entered(Round2(t.outstandingBalance.value));
      PaymentForm(t.id, amount, "bank_transfer", "", "")
  }

  /** With the corrected prefill, a technician owed at least a cent can be paid in full cents without editing the form. */
  lemma CorrectedPrefillAccepted(t: Technician)
    requires |t.id| > 0 && t.outstandingBalance.Some? && t.outstandingBalance.value >= 0.01
    ensures PaymentErrorsFor(OpenFormCorrected(Some(t)), Some(t)).Empty()
  {
  }

  /**
   * `handleTechnicianChange`: the id picked from the dropdown, and the
   * technician's balance as it stands (`undefined` without one), or the
   * empty text for an unknown id.
   */
  function ChooseTechnician(f: PaymentForm, id: string, technicians: seq<Technician>): (g: PaymentForm)
    ensures g.technicianId == id && g.paymentMethod == f.paymentMethod && g.reference == f.reference && g.notes == f.notes
    ensures (forall i :: 0 <= i < |technicians| ==> technicians[i].id != id) ==> g.amount == EmptyText
    ensures var t := FindFirst(technicians, (t: Technician) => t.id == id);
            t.Some? ==> g.amount == (if t.value.outstandingBalance.Some? then Entered(t.value.outstandingBalance.value) else Missing)
    ensures forall i ::
              (0 <= i < |technicians| && technicians[i].id == id && (forall j :: 0 <= j < i ==> technicians[j].id != id)
               && technicians[i].outstandingBalance.Some?)
              ==> g.amount == Entered(technicians[i].outstandingBalance.value)
  {
    var found := FindFirst(technicians, (t: Technician) => t.id == id);
    var amount :=
      if found.None? then EmptyText
      else if found.value.outstandingBalance.Some? then Entered(found.value.outstandingBalance.value)
      else Missing;
    f.(technicianId := id, amount := amount)
  }

  /** Choosing a technician with a positive balance leaves an amount the check accepts against that technician. */
  lemma ChosenBalanceAccepted(f: PaymentForm, id: string, technicians: seq<Technician>)
    requires |id| > 0 && |f.paymentMethod| > 0
    requires FindFirst(technicians, (t: Technician) => t.id == id).Some?
    requires var t := FindFirst(technicians, (t: Technician) => t.id == id).value;
             t.outstandingBalance.Some? && t.outstandingBalance.value > 0.0
    ensures var t := FindFirst(technicians, (t: Technician) => t.id == id);
            PaymentErrorsFor(ChooseTechnician(f, id, technicians), t).Empty()
  {
  }

  /** `disabled={!b || b <= 0}`: the row button is live only for a positive balance. */
  function RecordPaymentEnabled(balance: Option<real>): (enabled: bool)
    ensures enabled <==> balance.Some? && balance.value > 0.0
  {
    !(balance.None? || balance.value == 0.0 || balance.value <= 0.0)
  }

  /** An enabled button opens a form whose amount passes the positivity check once the balance is at least half a cent. */
  lemma EnabledPrefillIsPositive(t: Technician)
    requires RecordPaymentEnabled(t.outstandingBalance) && t.outstandingBalance.value >= 0.005
    ensures !AmountMissing(OpenForm(Some(t)).amount)
  {
    Round2Monotone(0.005, t.outstandingBalance.value);
    assert (0.005 * 100.0 + 0.5).Floor == 1;
  }

  // ------------------------------------------------------------- the dialog

  /** The payment dialog's state: the form, the technician it was opened for or picked, and the shown errors. */
  class PaymentDialog {
    var form: PaymentForm
    var selectedTechnician: Option<Technician>
    var formErrors: PaymentErrors
    var open: bool

    constructor ()
      ensures form == BlankForm && selectedTechnician == None && formErrors == NoPaymentErrors && !open
    {
      form := BlankForm;
      selectedTechnician := None;
      formErrors := NoPaymentErrors;
      open := false;
    }

    /** `handlePaymentOpen`: prefill from the technician's row, clear the errors, open. */
    method Open(technician: Option<Technician>)
      modifies this
      ensures form == OpenForm(technician) && selectedTechnician == technician
      ensures formErrors == NoPaymentErrors && open
    {
      form := OpenForm(technician);
      selectedTechnician := technician;
      formErrors := NoPaymentErrors;
      open := true;
    }

    /** `handleTechnicianChange`: pick from the dropdown and clear the technician and amount errors. */
    method ChangeTechnician(id: string, technicians: seq<Technician>)
      modifies this
      ensures form == ChooseTechnician(old(form), id, technicians)
      ensures selectedTechnician == FindFirst(technicians, (t: Technician) => t.id == id)
      ensures formErrors == old(formErrors).(technicianId := None, amount := None)
      ensures open == old(open)
    {
      form := ChooseTechnician(form, id, technicians);
      selectedTechnician := FindFirst(technicians, (t: Technician) => t.id == id);
      formErrors := formErrors.(technicianId := None, amount := None);
    }

    /** `handleChange` on the amount input: the new amount, its error cleared. */
    method ChangeAmount(amount: Amount)
      modifies this
      ensures form == old(form).(amount := amount)
      ensures formErrors == old(formErrors).(amount := None)
      ensures selectedTechnician == old(selectedTechnician) && open == old(open)
    {
      form := form.(amount := amount);
      formErrors := formErrors.(amount := None);
    }

    /** `handleRecordPayment`'s guard: validate, show the errors, go on only when there are none. */
    method Submit(technicians: seq<Technician>) returns (valid: bool)
      modifies this
      ensures formErrors == PaymentErrorsFor(form, KnownTechnician(selectedTechnician, technicians, form.technicianId))
      ensures valid <==> formErrors.Empty()
      ensures form == old(form) && selectedTechnician == old(selectedTechnician) && open == old(open)
    {
      var errors;
      errors, valid := ValidatePayment(form, selectedTechnician, technicians);
      formErrors := errors;
    }
  }

  // ------------------------------------------------------------ date column

  /** The local calendar fields of `new Date(collectedAt)`: `getFullYear`, `getMonth` (0-based), `getDate`. */
  datatype CivilDate = CivilDate(year: int, monthIndex: int, day: int)

  /** What the `Date` getters return: a month index in [0, 11] and a day of the month in [1, 31]. */
  predicate GetterRanges(d: CivilDate) {
    0 <= d.monthIndex <= 11 && 1 <= d.day <= 31
  }

  /** The `collectedAt` column: `DD-MM-YYYY` with a 1-based month, `'N/A'` without a date. */
  function FormatCollectedAt(collectedAt: Option<CivilDate>): (r: string)
    requires collectedAt.Some? ==> GetterRanges(collectedAt.value)
    ensures collectedAt.None? ==> r == "N/A"
    ensures collectedAt.Some? ==> |r| >= 7 && r[2] == '-' && r[5] == '-'
  {
    match collectedAt
    case None => "N/A"
    case Some(d) =>
      var day := PadStart2(NatToString(d.day));
      var month := PadStart2(NatToString(d.monthIndex + 1));
      assert |day| == 2 && |month| == 2;
      day + "-" + month + "-" + IntToString(d.year)
  }

  /** A one- or two-digit number padded to two places reads back as itself. */
  lemma PadStart2ReadsBack(n: nat)
    requires n < 100
    ensures var s := PadStart2(NatToString(n)); |s| == 2 && AllDigits(s) && DecimalValue(s) == n
  {
    NatToStringRoundTrip(n);
    if n < 10 {
      LeadingZero(NatToString(n));
    }
  }

  /** Two two-character fields and a third, joined by dashes, are cut back apart at 2, 3..5 and 6. */
  lemma DashFields(a: string, b: string, c: string)
    requires |a| == 2 && |b| == 2
    ensures var r := a + "-" + b + "-" + c;
            r[..2] == a && r[3..5] == b && r[6..] == c
  {
    var r := a + "-" + b + "-" + c;
    assert r == a + ("-" + b + "-" + c);
  }

  /** The column's three fields, cut where the dashes stand. */
  lemma CollectedAtFields(d: CivilDate)
    requires GetterRanges(d)
    ensures var r := FormatCollectedAt(Some(d));
            r[..2] == PadStart2(NatToString(d.day)) && r[3..5] == PadStart2(NatToString(d.monthIndex + 1))
            && r[6..] == IntToString(d.year)
  {
    DashFields(PadStart2(NatToString(d.day)), PadStart2(NatToString(d.monthIndex + 1)), IntToString(d.year));
  }

  /** The column reads back: its day, month and year fields spell the date's day, 1-based month and year. */
  lemma CollectedAtReadsBack(d: CivilDate)
    requires GetterRanges(d)
    ensures var r := FormatCollectedAt(Some(d));
            AllDigits(r[..2]) && AllDigits(r[3..5])
            && DecimalValue(r[..2]) == d.day && DecimalValue(r[3..5]) == d.monthIndex + 1
            && r[6..] == IntToString(d.year)
  {
    PadStart2ReadsBack(d.day);
    PadStart2ReadsBack(d.monthIndex + 1);
    CollectedAtFields(d);
  }
}

=== FILE: Products.dfy ===
/**
 * The product catalog screen: the product form's validator, the available
 * column and the local removal of a deleted product.
 */
module Products {
  import opened Common
  import opened Text

  /** A catalog product; the counts are whole units and the unit may be missing. */
  datatype Product = Product(id: string, name: string, price: real, totalCount: int, allocatedCount: int, unitOfMeasure: Option<string>)

  /** The stock not yet handed to technicians, as the Available column shows it. */
  function Available(p: Product): (n: int)
    ensures n >= 0 <==> p.allocatedCount <= p.totalCount
    ensures n + p.allocatedCount == p.totalCount
  {
    p.totalCount - p.allocatedCount
  }

  // -------------------------------------------------------------- validator

  /** The fields of the create and edit dialogs. */
  datatype ProductForm = ProductForm(name: string, price: real, totalCount: int, unitOfMeasure: string)

  /** The form of `handleCreateOpen`. */
  const EmptyProductForm := ProductForm("", 0.0, 0, "")

  /** The form of `handleEditOpen`: the product's own fields, a missing unit read as empty. */
  function EditForm(p: Product): (f: ProductForm)
    ensures f.name == p.name && f.price == p.price && f.totalCount == p.totalCount
    ensures p.unitOfMeasure.Some? ==> f.unitOfMeasure == p.unitOfMeasure.value
    ensures p.unitOfMeasure.None? ==> |f.unitOfMeasure| == 0
  {
    ProductForm(p.name, p.price, p.totalCount, p.unitOfMeasure.GetOr(""))
  }

  /** The longest name the check lets through. */
  const MaxNameLength := 100

  const NameRequired: string := "Product name is required"
  const NameTooLong: string := "Name must be less than 100 characters"
  const UnitRequired: string := "Unit of Measure is required"
  const PriceNotPositive: string := "Price must be a positive number"
  const CountNegative: string := "Available count cannot be negative"

  /** The error object of `validateForm`: one optional message per key. */
  datatype ProductErrors = ProductErrors(name: Option<string>, unitOfMeasure: Option<string>, price: Option<string>, totalCount: Option<string>)
  {
    predicate Empty() {
      name.None? && unitOfMeasure.None? && price.None? && totalCount.None?
    }
  }

  const NoProductErrors := ProductErrors(None, None, None, None)

  /**
   * The errors of the product form: a name that is not blank and at most
   * 100 characters long counted before trimming, a unit that is not blank,
   * a positive price and a total count that is not negative.
   */
  function ProductErrorsFor(f: ProductForm): (e: ProductErrors)
    ensures e.name.Some? <==> IsBlank(f.name) || |f.name| > MaxNameLength
    ensures e.name.Some? ==> e.name.value == (if IsBlank(f.name) then NameRequired else NameTooLong)
    ensures e.unitOfMeasure == (if IsBlank(f.unitOfMeasure) then Some(UnitRequired) else None)
    ensures e.price.Some? <==> f.price <= 0.0
    ensures e.price.Some? ==> e.price.value == PriceNotPositive
    ensures e.totalCount.Some? <==> f.totalCount < 0
    ensures e.totalCount.Some? ==> e.totalCount.value == CountNegative
  {
    ProductErrors(
      if IsBlank(f.name) then Some(NameRequired) else if |f.name| > MaxNameLength then Some(NameTooLong) else None,
      if IsBlank(f.unitOfMeasure) then Some(UnitRequired) else None,
      if f.price <= 0.0 then Some(PriceNotPositive) else None,
      if f.totalCount < 0 then Some(CountNegative) else None)
  }

  /** `validateForm` of the product dialog. */
  method ValidateProduct(f: ProductForm) returns (errors: ProductErrors, valid: bool)
    ensures errors == ProductErrorsFor(f)
    ensures valid <==> errors.Empty()
  {
    errors := NoProductErrors;
    if IsBlank(f.name) {
      errors := errors.(name := Some(NameRequired));
    } else if |f.name| > MaxNameLength {
      errors := errors.(name := Some(NameTooLong));
    }
    if IsBlank(f.unitOfMeasure) {
      errors := errors.(unitOfMeasure := Some(UnitRequired));
    }
    if f.price <= 0.0 {
      errors := errors.(price := Some(PriceNotPositive));
    }
    if f.totalCount < 0 {
      errors := errors.(totalCount := Some(CountNegative));
    }
    valid := errors.Empty();
  }

  /** The empty form of the create dialog is refused on its name, unit and price, and only on those. */
  lemma EmptyFormRefused()
    ensures var e := ProductErrorsFor(EmptyProductForm);
            e.name == Some(NameRequired) && e.unitOfMeasure == Some(UnitRequired)
            && e.price == Some(PriceNotPositive) && e.totalCount.None?
  {
  }

  /** Editing a product stored without a unit cannot be saved until a unit is entered. */
  lemma EditWithoutUnitRefused(p: Product)
    requires p.unitOfMeasure.None?
    ensures ProductErrorsFor(EditForm(p)).unitOfMeasure == Some(UnitRequired)
  {
  }

  /** A name of exactly 100 characters is accepted, though the message speaks of fewer than 100. */
  lemma HundredCharacterNameAccepted(f: ProductForm)
    requires |f.name| == MaxNameLength && !IsBlank(f.name)
    ensures ProductErrorsFor(f).name.None?
  {
  }

  // ----------------------------------------------------------------- delete

  /** `products.filter(p => p.id !== id)` */
  function Without(products: seq<Product>, id: string): (r: seq<Product>)
    ensures |r| <= |products|
    ensures forall i :: 0 <= i < |r| ==> r[i].id != id
    ensures forall i :: 0 <= i < |products| && products[i].id != id ==> products[i] in r
    ensures forall p :: p in r ==> p in products
    decreases |products|
  {
    if |products| == 0 then []
    else
      var rest := Without(products[1..], id);
      assert forall i :: 1 <= i < |products| ==> products[i] == products[1..][i - 1];
      if products[0].id == id then rest else [products[0]] + rest
  }

  /** The filter keeps the order of what it keeps: it distributes over concatenation. */
  lemma {:induction false} WithoutAppend(a: seq<Product>, b: seq<Product>, id: string)
    ensures Without(a + b, id) == Without(a, id) + Without(b, id)
    decreases |a|
  {
    if |a| == 0 {
      assert a + b == b;
    } else {
      assert (a + b)[1..] == a[1..] + b;
      WithoutAppend(a[1..], b, id);
    }
  }

  /** Deleting an id that is not listed changes nothing. */
  lemma {:induction false} WithoutAbsent(products: seq<Product>, id: string)
    requires forall i :: 0 <= i < |products| ==> products[i].id != id
    ensures Without(products, id) == products
    decreases |products|
  {
    if |products| > 0 {
      WithoutAbsent(products[1..], id);
    }
  }

  /** The positions of the rows carrying the id. */
  ghost function Matching(products: seq<Product>, id: string): set<int>
  {
    set i | 0 <= i < |products| && products[i].id == id
  }

  /** Appending one row adds its position to the matching ones exactly when it carries the id. */
  lemma MatchingSnoc(init: seq<Product>, last: Product, id: string)
    ensures |Matching(init + [last], id)| == |Matching(init, id)| + (if last.id == id then 1 else 0)
  {
    var products := init + [last];
    var n := |init|;
    var extra: set<int> := if last.id == id then {n} else {};
    assert Matching(products, id) == Matching(init, id) + extra by {
      forall i | i in Matching(products, id) ensures i in Matching(init, id) + extra {
        if i < n {
          assert products[i] == init[i];
        }
      }
      forall i | i in Matching(init, id) ensures i in Matching(products, id) {
        assert products[i] == init[i];
      }
    }
    assert n !in Matching(init, id);
  }

  /** Exactly the rows carrying the id disappear: the kept ones and the removed ones make up the list. */
  lemma {:induction false} WithoutCounts(products: seq<Product>, id: string)
    ensures |Without(products, id)| + |Matching(products, id)| == |products|
    decreases |products|
  {
    if |products| > 0 {
      var n := |products| - 1;
      var init := products[..n];
      assert init + [products[n]] == products;
      WithoutCounts(init, id);
      WithoutAppend(init, [products[n]], id);
      assert [products[n]][1..] == [];
      MatchingSnoc(init, products[n], id);
    }
  }

  /** Deleting twice is deleting once. */
  lemma WithoutIdempotent(products: seq<Product>, id: string)
    ensures Without(Without(products, id), id) == Without(products, id)
  {
    WithoutAbsent(Without(products, id), id);
  }
}

=== FILE: Technicians.dfy ===
/**
 * The technician screen: the technician form with its nested address, the
 * change handler that writes `address.<key>` inputs into the address, the
 * form validator and the local block toggle.
 */
module Technicians {
  import opened Common
  import opened Text

  datatype Address = Address(street: string, city: string, state: string, pincode: string)

  /** A company as the technician rows carry it. */
  datatype Company = Company(id: string, name: string)

  /** A technician row; `id` is the row id copied from the stored `_id`. */
  datatype Technician = Technician(
    id: string, name: string, phone: string, email: string, address: Address,
    aadhaar: string, pan: string, serviceRate: real, companies: seq<Company>, isBlocked: bool)

  /** The create and edit dialogs' fields; `companies` holds company ids. */
  datatype TechnicianForm = TechnicianForm(
    name: string, phone: string, email: string, address: Address,
    aadhaar: string, pan: string, serviceRate: real, companies: seq<string>, isBlocked: bool)

  /** The form of `handleCreateOpen`. */
  const EmptyTechnicianForm := TechnicianForm("", "", "", Address("", "", "", ""), "", "", 0.0, [], false)

  /** The form of `handleEditOpen`: the technician's fields with its companies replaced by their ids. */
  function EditForm(t: Technician): (f: TechnicianForm)
    ensures |f.companies| == |t.companies|
    ensures forall i :: 0 <= i < |t.companies| ==> f.companies[i] == t.companies[i].id
    ensures f.address == t.address && f.name == t.name && f.phone == t.phone && f.email == t.email
    ensures f.aadhaar == t.aadhaar && f.pan == t.pan && f.serviceRate == t.serviceRate && f.isBlocked == t.isBlocked
  {
    TechnicianForm(t.name, t.phone, t.email, t.address, t.aadhaar, t.pan, t.serviceRate,
                   seq(|t.companies|, i requires 0 <= i < |t.companies| => t.companies[i].id), t.isBlocked)
  }

  // ------------------------------------------------------------- validator

  /** `/^[6-9]\d{9}$/`: ten digits, the first of them 6 to 9. */
  predicate IsIndianMobile(s: string) {
    IsDigitString(s, 10) && '6' <= s[0] <= '9'
  }

  /** `/^[A-Z]{5}[0-9]{4}[A-Z]{1}$/`: five capitals, four digits, one capital. */
  predicate IsPan(s: string) {
    |s| == 10
    && (forall i :: 0 <= i < 5 ==> IsUpper(s[i]))
    && (forall i :: 5 <= i < 9 ==> IsDigit(s[i]))
    && IsUpper(s[9])
  }

  const NameRequired: string := "Name is required"
  const PhoneInvalid: string := "Invalid Indian mobile number"
  const EmailInvalid: string := "Invalid email format"
  const StreetRequired: string := "Street is required"
  const CityRequired: string := "City is required"
  const StateRequired: string := "State is required"
  const PincodeInvalid: string := "Invalid 6-digit PIN code"
  const AadhaarInvalid: string := "12-digit number required"
  const PanInvalid: string := "Invalid PAN format"
  const RateNotPositive: string := "Must be positive number"
  const CompaniesRequired: string := "At least one company required"

  /** The error object of `validateForm`; the address errors sit under the address keys themselves. */
  datatype TechnicianErrors = TechnicianErrors(
    name: Option<string>, phone: Option<string>, email: Option<string>,
    street: Option<string>, city: Option<string>, state: Option<string>, pincode: Option<string>,
    aadhaar: Option<string>, pan: Option<string>, serviceRate: Option<string>, companies: Option<string>)
  {
    predicate Empty() {
      name.None? && phone.None? && email.None? && street.None? && city.None? && state.None?
      && pincode.None? && aadhaar.None? && pan.None? && serviceRate.None? && companies.None?
    }
  }

  const NoTechnicianErrors := TechnicianErrors(None, None, None, None, None, None, None, None, None, None, None)

  /**
   * The errors of the technician form. `emailMatches` is whether the email
   * matches the email pattern, which this model does not spell out.
   */
  function TechnicianErrorsFor(f: TechnicianForm, emailMatches: bool): (e: TechnicianErrors)
    ensures e.Empty() <==>
              !IsBlank(f.name) && IsIndianMobile(f.phone) && emailMatches
              && !IsBlank(f.address.street) && !IsBlank(f.address.city) && !IsBlank(f.address.state)
              && IsDigitString(f.address.pincode, 6) && IsDigitString(f.aadhaar, 12) && IsPan(f.pan)
              && f.serviceRate > 0.0 && |f.companies| > 0
    ensures e.name == (if IsBlank(f.name) then Some(NameRequired) else None)
    ensures e.phone == (if IsIndianMobile(f.phone) then None else Some(PhoneInvalid))
    ensures e.email == (if emailMatches then None else Some(EmailInvalid))
    ensures e.street == (if IsBlank(f.address.street) then Some(StreetRequired) else None)
    ensures e.city == (if IsBlank(f.address.city) then Some(CityRequired) else None)
    ensures e.state == (if IsBlank(f.address.state) then Some(StateRequired) else None)
    ensures e.pincode == (if IsDigitString(f.address.pincode, 6) then None else Some(PincodeInvalid))
    ensures e.aadhaar == (if IsDigitString(f.aadhaar, 12) then None else Some(AadhaarInvalid))
    ensures e.pan == (if IsPan(f.pan) then None else Some(PanInvalid))
    ensures e.serviceRate == (if f.serviceRate <= 0.0 then Some(RateNotPositive) else None)
    ensures e.companies == (if |f.companies| == 0 then Some(CompaniesRequired) else None)
  {
    TechnicianErrors(
      if IsBlank(f.name) then Some(NameRequired) else None,
      if IsIndianMobile(f.phone) then None else Some(PhoneInvalid),
      if emailMatches then None else Some(EmailInvalid),
      if IsBlank(f.address.street) then Some(StreetRequired) else None,
      if IsBlank(f.address.city) then Some(CityRequired) else None,
      if IsBlank(f.address.state) then Some(StateRequired) else None,
      if IsDigitString(f.address.pincode, 6) then None else Some(PincodeInvalid),
      if IsDigitString(f.aadhaar, 12) then None else Some(AadhaarInvalid),
      if IsPan(f.pan) then None else Some(PanInvalid),
      if f.serviceRate <= 0.0 then Some(RateNotPositive) else None,
      if |f.companies| == 0 then Some(CompaniesRequired) else None)
  }

  /** The address part of `validateForm`: each message under the address key it concerns. */
  method ValidateAddress(a: Address) returns (street: Option<string>, city: Option<string>, state: Option<string>, pincode: Option<string>)
    ensures street == (if IsBlank(a.street) then Some(StreetRequired) else None)
    ensures city == (if IsBlank(a.city) then Some(CityRequired) else None)
    ensures state == (if IsBlank(a.state) then Some(StateRequired) else None)
    ensures pincode == (if IsDigitString(a.pincode, 6) then None else Some(PincodeInvalid))
  {
    street, city, state, pincode := None, None, None, None;
    if IsBlank(a.street) { street := Some(StreetRequired); }
    if IsBlank(a.city) { city := Some(CityRequired); }
    if IsBlank(a.state) { state := Some(StateRequired); }
    if !IsDigitString(a.pincode, 6) { pincode := Some(PincodeInvalid); }
  }

  /** `validateForm` of the technician dialogs. */
  method ValidateTechnician(f: TechnicianForm, emailMatches: bool) returns (errors: TechnicianErrors, valid: bool)
    ensures errors == TechnicianErrorsFor(f, emailMatches)
    ensures valid <==> errors.Empty()
  {
    var name, phone, email, aadhaar, pan, rate, companies := None, None, None, None, None, None, None;
    if IsBlank(f.name) { name := Some(NameRequired); }
    if !IsIndianMobile(f.phone) { phone := Some(PhoneInvalid); }
    if !emailMatches { email := Some(EmailInvalid); }
    var street, city, state, pincode := ValidateAddress(f.address);
    if !IsDigitString(f.aadhaar, 12) { aadhaar := Some(AadhaarInvalid); }
    if !IsPan(f.pan) { pan := Some(PanInvalid); }
    if f.serviceRate <= 0.0 { rate := Some(RateNotPositive); }
    if |f.companies| == 0 { companies := Some(CompaniesRequired); }
    errors := TechnicianErrors(name, phone, email, street, city, state, pincode, aadhaar, pan, rate, companies);
    valid := errors.Empty();
  }

  /** The dialog as created is refused on every field. */
  lemma EmptyFormRefusedEverywhere(emailMatches: bool)
    ensures var e := TechnicianErrorsFor(EmptyTechnicianForm, emailMatches);
            e.name.Some? && e.phone.Some? && e.street.Some? && e.city.Some? && e.state.Some?
            && e.pincode.Some? && e.aadhaar.Some? && e.pan.Some? && e.serviceRate.Some? && e.companies.Some?
  {
  }

  /** A PAN always has digits in the middle, so it is never a valid mobile number, and the reverse. */
  lemma PanIsNotMobile(s: string)
    requires IsPan(s)
    ensures !IsIndianMobile(s)
  {
    assert IsUpper(s[0]) && !IsDigit(s[0]);
  }

  // ---------------------------------------------------------- change handler

  /** The input events of the dialog: a named text field, or the numeric service rate. */
  datatype TechnicianInput = TextInput(name: string, value: string) | RateInput(rate: real)

  const AddressPrefix: string := "address."

  /**
   * `{...address, [key]: value}`: one of the four address fields replaced; any
   * other key adds a property that nothing reads, so the fields stay.
   */
  function SetAddressField(a: Address, key: string, value: string): (r: Address)
    ensures key == "street" ==> r == a.(street := value)
    ensures key == "city" ==> r == a.(city := value)
    ensures key == "state" ==> r == a.(state := value)
    ensures key == "pincode" ==> r == a.(pincode := value)
    ensures key !in {"street", "city", "state", "pincode"} ==> r == a
  {
    if key == "street" then a.(street := value)
    else if key == "city" then a.(city := value)
    else if key == "state" then a.(state := value)
    else if key == "pincode" then a.(pincode := value)
    else a
  }

  /** The keys of the error object that `validateForm` fills. */
  predicate IsErrorKey(key: string) {
    key == "name" || key == "phone" || key == "email" || key == "street" || key == "city" || key == "state"
    || key == "pincode" || key == "aadhaar" || key == "pan" || key == "serviceRate" || key == "companies"
  }

  /** `{...formErrors, [key]: null}` on the keys the validator uses; other keys name no message. */
  function ClearError(e: TechnicianErrors, key: string): (r: TechnicianErrors)
    ensures key == "name" ==> r == e.(name := None)
    ensures key == "phone" ==> r == e.(phone := None)
    ensures key == "email" ==> r == e.(email := None)
    ensures key == "street" ==> r == e.(street := None)
    ensures key == "city" ==> r == e.(city := None)
    ensures key == "state" ==> r == e.(state := None)
    ensures key == "pincode" ==> r == e.(pincode := None)
    ensures key == "aadhaar" ==> r == e.(aadhaar := None)
    ensures key == "pan" ==> r == e.(pan := None)
    ensures key == "serviceRate" ==> r == e.(serviceRate := None)
    ensures key == "companies" ==> r == e.(companies := None)
    ensures !IsErrorKey(key) ==> r == e
  {
    if key == "name" then e.(name := None)
    else if key == "phone" then e.(phone := None)
    else if key == "email" then e.(email := None)
    else if key == "street" then e.(street := None)
    else if key == "city" then e.(city := None)
    else if key == "state" then e.(state := None)
    else if key == "pincode" then e.(pincode := None)
    else if key == "aadhaar" then e.(aadhaar := None)
    else if key == "pan" then e.(pan := None)
    else if key == "serviceRate" then e.(serviceRate := None)
    else if key == "companies" then e.(companies := None)
    else e
  }

  /** The top-level text inputs of the form. */
  predicate IsTextField(name: string) {
    name == "name" || name == "phone" || name == "email" || name == "aadhaar" || name == "pan"
  }

  /** `{...formData, [name]: value}` for the top-level text fields; a key the form does not hold changes none of its fields. */
  function SetTextField(f: TechnicianForm, name: string, value: string): (g: TechnicianForm)
    ensures name == "name" ==> g == f.(name := value)
    ensures name == "phone" ==> g == f.(phone := value)
    ensures name == "email" ==> g == f.(email := value)
    ensures name == "aadhaar" ==> g == f.(aadhaar := value)
    ensures name == "pan" ==> g == f.(pan := value)
    ensures !IsTextField(name) ==> g == f
  {
    if name == "name" then f.(name := value)
    else if name == "phone" then f.(phone := value)
    else if name == "email" then f.(email := value)
    else if name == "aadhaar" then f.(aadhaar := value)
    else if name == "pan" then f.(pan := value)
    else f
  }

  /**
   * `handleChange`: an `address.<key>` input writes `<key>` of the address and
   * clears the error under `<key>`; any other input writes its own field and
   * clears the error under its own name.
   */
  function HandleChange(f: TechnicianForm, errors: TechnicianErrors, input: TechnicianInput): (r: (TechnicianForm, TechnicianErrors))
    ensures input.RateInput? ==> r == (f.(serviceRate := input.rate), errors.(serviceRate := None))
    ensures input.TextInput? && !StartsWith(input.name, AddressPrefix) ==> r.0.address == f.address
    ensures input.TextInput? && input.name == "name" ==> r == (f.(name := input.value), errors.(name := None))
    ensures input.TextInput? && input.name == "phone" ==> r == (f.(phone := input.value), errors.(phone := None))
    ensures input.TextInput? && input.name == "email" ==> r == (f.(email := input.value), errors.(email := None))
    ensures input.TextInput? && input.name == "aadhaar" ==> r == (f.(aadhaar := input.value), errors.(aadhaar := None))
    ensures input.TextInput? && input.name == "pan" ==> r == (f.(pan := input.value), errors.(pan := None))
    ensures input.TextInput? && !StartsWith(input.name, AddressPrefix) && !IsTextField(input.name) ==> r.0 == f
    ensures input.TextInput? && StartsWith(input.name, AddressPrefix) ==>
              r.0 == f.(address := r.0.address)
  {
    match input
    case RateInput(rate) => (f.(serviceRate := rate), errors.(serviceRate := None))
    case TextInput(name, value) =>
      if StartsWith(name, AddressPrefix) then
        assert '.' in name by { assert name[7] == '.'; }
        var key := Split(name, '.')[1];
        (f.(address := SetAddressField(f.address, key, value)), ClearError(errors, key))
      else
        (SetTextField(f, name, value), ClearError(errors, name))
  }

  /** `"address." + key` splits into `address` and the key when the key holds no dot. */
  lemma SplitAddressName(key: string)
    requires '.' !in key
    ensures Split(AddressPrefix + key, '.') == ["address", key]
  {
    var head := "address";
    assert AddressPrefix + key == head + ['.'] + key;
    assert '.' !in head;
    SplitPair(head, key, '.');
  }

  /**
   * Typing into `address.<key>` sets exactly that address field, clears exactly
   * the error shown under it, and leaves every other field and error as it was.
   */
  lemma AddressChangeUpdatesOnlyThatField(f: TechnicianForm, errors: TechnicianErrors, key: string, value: string)
    requires key in {"street", "city", "state", "pincode"}
    ensures var r := HandleChange(f, errors, TextInput(AddressPrefix + key, value));
            r.0 == f.(address := SetAddressField(f.address, key, value))
            && (key == "street" ==> r.0.address == f.address.(street := value) && r.1 == errors.(street := None))
            && (key == "city" ==> r.0.address == f.address.(city := value) && r.1 == errors.(city := None))
            && (key == "state" ==> r.0.address == f.address.(state := value) && r.1 == errors.(state := None))
            && (key == "pincode" ==> r.0.address == f.address.(pincode := value) && r.1 == errors.(pincode := None))
  {
    var name := AddressPrefix + key;
    assert StartsWith(name, AddressPrefix) by { assert name[..|AddressPrefix|] == AddressPrefix; }
    SplitAddressName(key);
  }

  /** A valid pincode typed into the address clears its error and passes the pincode check. */
  lemma PincodeChangeRevalidates(f: TechnicianForm, errors: TechnicianErrors, value: string, emailMatches: bool)
    requires IsDigitString(value, 6)
    ensures var r := HandleChange(f, errors, TextInput(AddressPrefix + "pincode", value));
            r.1.pincode.None? && TechnicianErrorsFor(r.0, emailMatches).pincode.None?
  {
    AddressChangeUpdatesOnlyThatField(f, errors, "pincode", value);
  }

  // ------------------------------------------------------------ block toggle

  /** `technicians.map(t => t.id === id ? {...t, isBlocked: !isBlocked} : t)` */
  function ToggleBlocked(technicians: seq<Technician>, id: string, isBlocked: bool): (r: seq<Technician>)
    ensures |r| == |technicians|
    ensures forall i :: 0 <= i < |r| ==>
              r[i] == (if technicians[i].id == id then technicians[i].(isBlocked := !isBlocked) else technicians[i])
  {
    seq(|technicians|, i requires 0 <= i < |technicians| =>
      if technicians[i].id == id then technicians[i].(isBlocked := !isBlocked) else technicians[i])
  }

  /**
   * The rows with the id end with the opposite of the flag the button showed;
   * every other row is untouched. With the flag read from those rows, the
   * toggle undoes itself.
   */
  lemma ToggleTwiceRestores(technicians: seq<Technician>, id: string, isBlocked: bool)
    requires forall i :: 0 <= i < |technicians| && technicians[i].id == id ==> technicians[i].isBlocked == isBlocked
    ensures ToggleBlocked(ToggleBlocked(technicians, id, isBlocked), id, !isBlocked) == technicians
  {
    var once := ToggleBlocked(technicians, id, isBlocked);
    var twice := ToggleBlocked(once, id, !isBlocked);
    assert forall i :: 0 <= i < |technicians| ==> twice[i] == technicians[i];
  }

  /** After the toggle, every row with the id shows the new flag. */
  lemma ToggleSetsFlag(technicians: seq<Technician>, id: string, isBlocked: bool)
    ensures forall t :: t in ToggleBlocked(technicians, id, isBlocked) && t.id == id ==> t.isBlocked == !isBlocked
    ensures forall t :: t in ToggleBlocked(technicians, id, isBlocked) && t.id != id ==> t in technicians
  {
  }
}

=== FILE: Text.dfy ===
/**
 * String helpers that stand for the JavaScript built-ins the screens use:
 * `trim()` emptiness, the `\d{n}` patterns, `split('.')`, `startsWith`,
 * `String(n)` of an integer and `padStart(2, '0')`.
 */
module Text {

  /** The characters `String.prototype.trim` removes (white space and line terminators). */
  predicate IsJsWhitespace(c: char) {
    c == ' ' || c == '\t' || c == '\n' || c == '\r' || c == '\U{B}' || c == '\U{C}'
    || c == '\U{A0}' || c == '\U{FEFF}' || c == '\U{1680}' || ('\U{2000}' <= c <= '\U{200A}')
    || c == '\U{2028}' || c == '\U{2029}' || c == '\U{202F}' || c == '\U{205F}' || c == '\U{3000}'
  }

  /** `!s.trim()`: the string is empty once trimmed. */
  predicate IsBlank(s: string)
    decreases |s|
  {
    |s| == 0 || (IsJsWhitespace(s[0]) && IsBlank(s[1..]))
  }

  /** `\d`: an ASCII decimal digit. */
  predicate IsDigit(c: char) {
    '0' <= c <= '9'
  }

  /** `[A-Z]` */
  predicate IsUpper(c: char) {
    'A' <= c <= 'Z'
  }

  predicate AllDigits(s: string) {
    forall i :: 0 <= i < |s| ==> IsDigit(s[i])
  }

  /** `/^\d{n}$/.test(s)` */
  predicate IsDigitString(s: string, n: nat) {
    |s| == n && AllDigits(s)
  }

  /** A string of digits is never blank, so a blank field always fails a digit pattern. */
  lemma BlankIsNotDigits(s: string, n: nat)
    requires IsBlank(s) && n > 0
    ensures !IsDigitString(s, n)
  {
    if |s| == n {
      assert IsJsWhitespace(s[0]) && !IsDigit(s[0]);
    }
  }

  predicate StartsWith(s: string, prefix: string) {
    |prefix| <= |s| && s[..|prefix|] == prefix
  }

  /** `s.split(sep)`: always at least one part; no part contains `sep`. */
  function Split(s: string, sep: char): (parts: seq<string>)
    ensures |parts| >= 1
    ensures forall i :: 0 <= i < |parts| ==> sep !in parts[i]
    ensures sep in s <==> |parts| >= 2
    decreases |s|
  {
    if |s| == 0 then [""]
    else
      var rest := Split(s[1..], sep);
      assert sep in s <==> s[0] == sep || sep in s[1..];
      if s[0] == sep then [""] + rest
      else [[s[0]] + rest[0]] + rest[1..]
  }

  /** A string without the separator splits into itself alone. */
  lemma SplitNoSep(s: string, sep: char)
    requires sep !in s
    ensures Split(s, sep) == [s]
  {
    var parts := Split(s, sep);
    assert |parts| == 1;
    SplitJoin(s, sep);
  }

  /** One character put in front of the parts of a split: a separator opens a new part, any other character joins the first. */
  function SplitCons(c: char, parts: seq<string>, sep: char): seq<string>
    requires |parts| >= 1
  {
    if c == sep then [""] + parts else [[c] + parts[0]] + parts[1..]
  }

  /** Splitting a non-empty string puts its first character in front of the split of the rest. */
  lemma SplitUnfold(s: string, sep: char)
    requires |s| > 0
    ensures Split(s, sep) == SplitCons(s[0], Split(s[1..], sep), sep)
  {
  }

  /** Putting a character in front commutes with appending further parts. */
  lemma SplitConsAppend(c: char, xs: seq<string>, ys: seq<string>, sep: char)
    requires |xs| >= 1
    ensures SplitCons(c, xs + ys, sep) == SplitCons(c, xs, sep) + ys
  {
    if c != sep {
      assert (xs + ys)[1..] == xs[1..] + ys;
    }
  }

  /** Splitting `a + sep + b` splits `a` and `b` separately. */
  lemma {:induction false} SplitAppend(a: string, b: string, sep: char)
    ensures Split(a + [sep] + b, sep) == Split(a, sep) + Split(b, sep)
    decreases |a|
  {
    var s := a + [sep] + b;
    SplitUnfold(s, sep);
    if |a| == 0 {
      assert s[1..] == b;
    } else {
      assert s[1..] == a[1..] + [sep] + b;
      SplitAppend(a[1..], b, sep);
      SplitUnfold(a, sep);
      SplitConsAppend(a[0], Split(a[1..], sep), Split(b, sep), sep);
    }
  }

  /** Two separator-free strings joined by the separator split back into the two. */
  lemma SplitPair(a: string, b: string, sep: char)
    requires sep !in a && sep !in b
    ensures Split(a + [sep] + b, sep) == [a, b]
  {
    SplitAppend(a, b, sep);
    SplitNoSep(a, sep);
    SplitNoSep(b, sep);
  }

  /** `parts.join(sep)` */
  function Join(parts: seq<string>, sep: char): string
    requires |parts| >= 1
    decreases |parts|
  {
    if |parts| == 1 then parts[0] else parts[0] + [sep] + Join(parts[1..], sep)
  }

  lemma {:induction false} JoinCons(head: string, parts: seq<string>, sep: char)
    requires |parts| >= 1
    ensures Join([head + parts[0]] + parts[1..], sep) == head + Join(parts, sep)
  {
    var ps := [head + parts[0]] + parts[1..];
    assert ps[1..] == parts[1..];
  }

  /** Joining the parts of a split gives back the original string. */
  lemma {:induction false} SplitJoin(s: string, sep: char)
    ensures Join(Split(s, sep), sep) == s
    decreases |s|
  {
    if |s| > 0 {
      var rest := Split(s[1..], sep);
      SplitJoin(s[1..], sep);
      if s[0] == sep {
        assert ([""] + rest)[1..] == rest;
      } else {
        JoinCons([s[0]], rest, sep);
      }
      assert s == [s[0]] + s[1..];
    }
  }

  /** The decimal digit for `d`. */
  function DigitChar(d: nat): (c: char)
    requires d < 10
    ensures IsDigit(c)
  {
    ['0', '1', '2', '3', '4', '5', '6', '7', '8', '9'][d]
  }

  function DigitValue(c: char): (d: nat)
    requires IsDigit(c)
    ensures d < 10
  {
    (c as int - '0' as int) as nat
  }

  lemma DigitRoundTrip(d: nat)
    requires d < 10
    ensures DigitValue(DigitChar(d)) == d
  {
  }

  /** `String(n)` for a non-negative integer: shortest decimal spelling. */
  function NatToString(n: nat): (s: string)
    ensures 1 <= |s| && AllDigits(s)
    ensures n < 10 <==> |s| == 1
  {
    if n < 10 then [DigitChar(n)] else NatToString(n / 10) + [DigitChar(n % 10)]
  }

  /** The number a string of decimal digits spells. */
  function DecimalValue(s: string): nat
    requires AllDigits(s)
    decreases |s|
  {
    if |s| == 0 then 0 else DecimalValue(s[..|s| - 1]) * 10 + DigitValue(s[|s| - 1])
  }

  /** Reading back the decimal spelling of `n` gives `n`. */
  lemma {:induction false} NatToStringRoundTrip(n: nat)
    ensures DecimalValue(NatToString(n)) == n
  {
    var s := NatToString(n);
    if n < 10 {
      DigitRoundTrip(n);
    } else {
      NatToStringRoundTrip(n / 10);
      DigitRoundTrip(n % 10);
      assert s[..|s| - 1] == NatToString(n / 10);
    }
  }

  /** A leading `'0'` does not change the value of a digit string. */
  lemma {:induction false} LeadingZero(s: string)
    requires AllDigits(s)
    ensures AllDigits("0" + s) && DecimalValue("0" + s) == DecimalValue(s)
    decreases |s|
  {
    var t := "0" + s;
    if |s| > 0 {
      assert t[..|t| - 1] == "0" + s[..|s| - 1];
      LeadingZero(s[..|s| - 1]);
    }
  }

  /** `String(i)` for any integer. */
  function IntToString(i: int): (s: string)
    ensures 1 <= |s|
  {
    if i < 0 then "-" + NatToString(-i) else NatToString(i)
  }

  /** `s.padStart(2, '0')` */
  function PadStart2(s: string): (r: string)
    ensures |s| < 2 ==> |r| == 2 && r[2 - |s|..] == s && forall i :: 0 <= i < 2 - |s| ==> r[i] == '0'
    ensures |s| >= 2 ==> r == s
  {
    if |s| == 0 then "00" else if |s| == 1 then "0" + s else s
  }
}
